=== FILE: README.md ===
# form-builder in Dafny

A model of the core of **form-builder**, a browser app for designing forms.
A form is a list of fields and, in multi-step mode, a list of steps. Each step
lists field ids. In the app you can:

- design the form on a canvas, picking field types from a palette and editing
  them in a property panel;
- undo and redo every edit through a linear snapshot history;
- preview the form with per-field validation and step navigation;
- start from a gallery of templates;
- save forms, responses and templates to local storage;
- read completion statistics on the responses.

The model is pure functions over immutable datatypes. It has one module per
component of the app:

| module | models |
|---|---|
| `Types` | the entities of `lib/types.ts`, and `Partial<…>` updates as patches |
| `FormOps` | the form-level edits behind the store actions |
| `Store` | the store: state, history, undo/redo, persistence |
| `Validation` | `validateField` in the preview |
| `Preview` | the preview's step navigation, submission and input handling |
| `Editor` | the field property editor |
| `Canvas` | the canvas: drag and drop, header edits, layout |
| `Palette` | the field-type palette |
| `Gallery` | the template gallery and its three built-in templates |
| `Shortcuts` | the keyboard shortcuts |
| `Analytics` | the response analytics |

`Wrappers`, `Text` and `Seqs` hold the option type, the JavaScript string
behaviour the code relies on (`trim`, `toLowerCase`, `includes`, the option
slug) and sequence helpers (`splice`, `filter`).

Two conventions run through the model:

- JavaScript's `undefined` and `null` are both `None`. Where the code tells
  them apart, the model does too (`Canvas.IsDropTarget`).
- A value typed into the preview is a `Value`. It may be undefined, null, a
  string, a list of strings, a number or a boolean. Truthiness follows
  JavaScript.

The store's history invariant `Store.Valid` holds initially. Every store
action preserves it.

## Model

| member | source | states |
|---|---|---|
| Store.InitialValid | lib/store.ts:68-76 | the initial store has no form, an empty history, index -1, and nothing to undo or redo |
| Store.Commit | lib/store.ts:104-111 | a snapshot truncates the history after the current index, appends the new form, points the index at it and leaves no redo |
| Store.UpdateForm | lib/store.ts:94-113 | without an open form nothing changes; otherwise the merged form is recorded as a new snapshot and the history invariant is kept |
| Store.CreateForm | lib/store.ts:57-92 | the new form is the default form (title given, description "", no fields or steps, single step) as the only snapshot, with nothing to undo or redo |
| Store.LoadForm | lib/store.ts:115-122 | the loaded form is the only snapshot and the field selection is cleared |
| Store.LoadTemplate | lib/store.ts:389-403 | the template's form under a fresh id becomes the only snapshot, with the template's fields, steps, mode and title; the selection is cleared |
| Store.AddField | lib/store.ts:124-136 | with an open form, the form with the field appended under the new id is recorded; without one nothing changes |
| Store.UpdateField | lib/store.ts:138-145 | the form with the patch merged into every field of that id is recorded, even when no field has the id |
| Store.UpdateFieldUnknownRecords | lib/store.ts:138-145 | updating an unknown field id still adds an undoable snapshot of an unchanged form |
| Store.DeleteField | lib/store.ts:147-163 | the form without the field and without its id in any step is recorded, and the selection is cleared |
| Store.ReorderFields | lib/store.ts:165-188 | the reordered form is recorded; the invariant is kept |
| Store.SelectField | lib/store.ts:190-192 | only the selection changes; form and history are untouched |
| Store.AddStep | lib/store.ts:194-208 | the form with the new empty step appended is recorded |
| Store.UpdateStep | lib/store.ts:210-217 | the form with the patch merged into every step of that id is recorded, even when no step has the id |
| Store.DeleteStep | lib/store.ts:219-241 | an unknown step id changes nothing and records nothing; otherwise the edited form is recorded |
| Store.DeleteStepIntended | lib/store.ts:219-241 | the corrected deletion: an unknown id records nothing; otherwise the form without the step is recorded and its fields are unchanged |
| Store.ToggleMultiStep | lib/store.ts:243-276 | switching an empty single-step form changes nothing; any other toggle is recorded |
| Store.Undo | lib/store.ts:291-302 | with an earlier snapshot the index moves back one and that snapshot becomes current; otherwise nothing changes |
| Store.Redo | lib/store.ts:304-315 | with a later snapshot the index moves forward one and that snapshot becomes current; otherwise nothing changes |
| Store.UndoEnabledIffEffective | lib/store.ts:317-325 | undo is available exactly when undoing changes the state, and redo exactly when redoing does |
| Store.RedoAfterUndo | lib/store.ts:291-325 | redo after a possible undo restores the exact prior state |
| Store.UndoAfterRedo | lib/store.ts:291-325 | undo after a possible redo restores the exact prior state |
| Store.UndoAfterCommit | lib/store.ts:94-113 | after any edit the previous form is one undo away |
| Store.HistoryIsLinear | lib/store.ts:104-111 | editing after an undo discards the undone branch: the history keeps the prefix, the surviving edit and the new one |
| Store.LoadFormById | lib/store.ts:344-347 | the result is a stored form with that id; no result exactly when no stored form has the id |
| Store.Upsert | lib/store.ts:331-340 | the form ends up stored; the list grows by one exactly when no stored form had its id, and then the form is appended last; every stored form with another id is kept, and nothing but the form is added |
| Store.UpsertReplacesFirst | lib/store.ts:332-336 | with the id already stored, the first form carrying it is overwritten in place and every other position keeps its form |
| Store.SaveForm | lib/store.ts:327-342 | without an open form nothing is written and "" is returned; otherwise the form is stored, every saved form with another id is kept, and its id is returned |
| Store.LoadAfterUpsert | lib/store.ts:327-347 | loading by id right after saving returns the saved form |
| Store.UpsertIdempotent | lib/store.ts:331-340 | saving the same form twice stores the same list as saving it once |
| Store.SaveResponse | lib/store.ts:349-360 | the response is appended with the new id, the form id and the data; earlier responses are kept |
| Store.GetResponses | lib/store.ts:362-365 | the result holds exactly the stored responses of that form |
| Store.SavedResponseListed | lib/store.ts:349-365 | a saved response is listed last for its form and does not appear for other forms |
| Store.SaveTemplate | lib/store.ts:367-387 | without an open form nothing is written; otherwise one template with the new id, name and description is appended and the earlier templates are kept |
| Store.TemplateRoundTrip | lib/store.ts:367-403 | loading a template just saved opens the current form again under the load's new id |
| FormOps.FindField | components/form-builder/enhanced-field-editor.tsx:21 | the result has the id; no result exactly when no field has it |
| FormOps.FindFieldUnique | components/form-builder/enhanced-form-preview.tsx:122 | with unique ids the lookup of a field's id returns that field |
| FormOps.Resolve | components/form-builder/enhanced-form-preview.tsx:121-123 | resolving step ids keeps the fields whose ids occur, in step order, dropping unknown ids |
| FormOps.ResolveOwnSlice | lib/store.ts:249-258 | with unique ids, resolving any run of the form's own ids gives back exactly that run of fields |
| FormOps.ResolveOwnIds | lib/store.ts:249-258 | with unique ids, resolving all of the form's ids gives back its field list |
| FormOps.StepsToFields | lib/store.ts:249-258 | every flattened field belongs to the form and is listed by some step |
| FormOps.StepsToFieldsAppend | lib/store.ts:249-254 | the flattening is the concatenation in step order: one more step adds its resolved fields at the end |
| FormOps.AddField | lib/store.ts:124-136 | the new field is appended with the new id; the earlier fields, the steps, the mode, the id, title and description are kept |
| FormOps.UpdateFields | lib/store.ts:142 | fields with the id get the patch merged in; all others are untouched; the length is kept |
| FormOps.UpdateFieldsFind | lib/store.ts:138-145 | looking the field up after an update finds the old field with the patch merged in |
| FormOps.UpdateField | lib/store.ts:138-145 | every field with the id gets the patch merged in, the others and the rest of the form are kept; an unknown id leaves the form as it was |
| FormOps.RemoveField | lib/store.ts:151 | the result keeps, in order and with their multiplicities, exactly the fields without the id |
| FormOps.DeleteField | lib/store.ts:147-163 | the id is gone from the fields and from every step's list; every other entry keeps its order and its number of copies; each step keeps its id, title and description; the form keeps its id, title, description and mode |
| FormOps.AddThenDeleteField | lib/store.ts:124-163 | deleting a field just added restores the form |
| FormOps.ReorderFields | lib/store.ts:165-188 | with a step id the steps of that id get the splice move (MoveInSteps); without one the field list gets it (Seqs.Move: the moved field lands at the clamped target, the others keep their order); the rest of the form is kept |
| FormOps.MoveInSteps | lib/store.ts:171-180 | only the steps with the id change, each by the splice move of its list (Seqs.Move); a move onto the same place changes nothing |
| FormOps.ReorderSamePlace | lib/store.ts:165-188 | moving an entry onto its own position changes nothing |
| FormOps.ReorderInverse | lib/store.ts:183-186 | moving a field back from where it landed restores the field list |
| FormOps.ReorderInverseInStep | lib/store.ts:171-180 | moving an id back from where it landed inside a step restores the form |
| FormOps.AddStep | lib/store.ts:194-208 | one empty step with the new id and title is appended and the form becomes multi-step; the fields and the form's id, title and description are kept |
| FormOps.UpdateSteps | lib/store.ts:214 | steps with the id get the patch merged in; all others are untouched; the length is kept |
| FormOps.UpdateStepsFind | lib/store.ts:210-217 | looking the step up after an update finds the old step with the patch merged in |
| FormOps.UpdateStep | lib/store.ts:210-217 | every step with the id gets the patch merged in, the others and the rest of the form are kept; an unknown id changes nothing |
| FormOps.FindStep | lib/store.ts:223 | the result is a step with the id; no result exactly when no step has it |
| FormOps.FindStepFirst | lib/store.ts:223 | `find` returns the step at the first position carrying the id |
| FormOps.RemoveStep | lib/store.ts:234 | the result keeps, in order and with their number of copies, exactly the steps without the id |
| FormOps.DeleteStep | lib/store.ts:219-241 | an unknown id yields nothing; otherwise every step with the id is gone and the others keep their order and number of copies, the resolved fields of the first step with the id (the one `find` returns) are appended again, the form is multi-step exactly when steps remain, and id, title and description are kept |
| FormOps.DeleteStepBreaksUniqueIds | lib/store.ts:226-231 | deleting a step that lists a known field leaves two fields with the same id |
| FormOps.DeleteStepIntended | lib/store.ts:219-241 | the corrected deletion: an unknown id yields nothing; otherwise the step is gone (others keep order and copies), `fields` is unchanged, and the mode follows whether steps remain |
| FormOps.DeleteStepIntendedKeepsUniqueIds | lib/store.ts:219-241 | the corrected deletion keeps unique field ids unique, and differs from the code only in not re-appending the fields |
| FormOps.DeleteStepDuplicates | lib/store.ts:227-230 | each field listed by the deleted step appears at least twice afterwards |
| FormOps.AddThenDeleteStep | lib/store.ts:194-241 | deleting a step just added restores the steps, the mode following whether steps remain |
| FormOps.ToggleMultiStep | lib/store.ts:243-276 | to single-step: the fields become the steps' fields in step order and the steps go; to multi-step: one "Step 1" listing every field id; an empty single-step form yields nothing; a toggled form keeps its id, title and description |
| FormOps.ToggleRoundTrip | lib/store.ts:243-276 | toggling a single-step form with unique ids twice gives it back, with no steps |
| FormOps.ToggleDropsUnreferenced | lib/store.ts:249-258 | a field that no step lists is lost on the switch to single-step |
| Validation.ValidateField | components/form-builder/enhanced-form-preview.tsx:63-91 | no message exactly when no check fails; otherwise the non-empty message for the first failure among required, minimum, maximum and pattern |
| Validation.RequiredRejectsBlank | components/form-builder/enhanced-form-preview.tsx:64-66 | a required field fails exactly on a falsy or all-whitespace string value, with the "is required" message |
| Validation.EmptyListPassesRequired | components/form-builder/enhanced-form-preview.tsx:64 | an empty checkbox selection is truthy and passes the required check |
| Validation.OptionalFalsyAccepted | components/form-builder/form-preview.tsx:34-62 | an optional field with a falsy value is always accepted |
| Validation.Length | components/form-builder/enhanced-form-preview.tsx:71-75 | strings and lists have a length, other values none; a string's length is its UTF-16 code units, between its character count and twice that; a list's is its item count |
| Validation.AcceptedRespectsBounds | components/form-builder/enhanced-form-preview.tsx:68-77 | an accepted non-empty string respects every non-zero length bound, counted in UTF-16 code units |
| Validation.AstralCharsCountedAsUnits | components/form-builder/enhanced-form-preview.tsx:75-76 | two emoji are four code units, so a maximum length of 3 rejects them with the "no more than" message |
| Validation.NoLengthNoLengthFailure | components/form-builder/enhanced-form-preview.tsx:71-77 | numbers and booleans never fail a length rule |
| Preview.StepErrors | components/form-builder/enhanced-form-preview.tsx:102-112 | the errors name only checked fields, every failing field is named, and there are none exactly when every field passes |
| Preview.StepErrorsExact | components/form-builder/enhanced-form-preview.tsx:102-112 | with unique ids, a failing field's error is its own validation message |
| Preview.ValidateStep | components/form-builder/enhanced-form-preview.tsx:102-116 | the verdict is true exactly when every field passes; an old error is kept word for word unless a field with its id fails; every failing field gets a non-empty error, which with distinct ids is exactly its own message |
| Preview.FieldChange | components/form-builder/enhanced-form-preview.tsx:93-100 | the value is stored, that field's error is hidden, and every other value and every other error text are untouched |
| Preview.StepFields | components/form-builder/enhanced-form-preview.tsx:120-123 | the step's fields are fields of the form listed by that step, and their ids are the step's ids in order with the dangling ones dropped |
| Preview.NextStep | components/form-builder/enhanced-form-preview.tsx:118-129 | the index advances by one exactly when the form is multi-step, the step validates and it is not the last step; it never leaves the steps; the errors become exactly `validateStep`'s merge for the current step, so every failing step field shows an error |
| Preview.PrevStep | components/form-builder/enhanced-form-preview.tsx:131-133 | the index moves back one and never below 0 |
| Preview.BackAfterForward | components/form-builder/enhanced-form-preview.tsx:118-133 | going back after a successful advance restores the preview |
| Preview.Submit | components/form-builder/enhanced-form-preview.tsx:135-152 | the form counts as submitted exactly when it already was or every field of the form passes; failing fields show errors |
| Preview.SubmitBlockedByHiddenField | components/form-builder/enhanced-form-preview.tsx:138-140 | a failing field that no step lists blocks submission but is never shown |
| Preview.FieldsToShow | components/form-builder/enhanced-form-preview.tsx:346-351 | multi-step shows exactly the current step's resolved fields, whose ids are the step's ids in order with dangling ones dropped; single-step shows all |
| Preview.DisplayValue | components/form-builder/enhanced-form-preview.tsx:171 | a truthy stored value is shown as is, anything else as "" |
| Preview.CheckboxValues | components/form-builder/enhanced-form-preview.tsx:274 | a list value is the selection; anything else is an empty selection |
| Preview.ToggleCheckbox | components/form-builder/enhanced-form-preview.tsx:283-286 | checking appends the option; unchecking removes every copy and keeps the rest in order |
| Preview.CheckThenUncheck | components/form-builder/enhanced-form-preview.tsx:283-286 | checking and then unchecking an option restores the selection |
| Editor.SelectedField | components/form-builder/enhanced-field-editor.tsx:21 | the selected field is in the open form and has the selected id; none means no field has that id |
| Editor.NeedsOptions | components/form-builder/enhanced-field-editor.tsx:89 | the options editor is shown for exactly dropdown, radio and checkbox, and for no text-like, date or number type |
| Editor.HandleFieldUpdate | components/form-builder/enhanced-field-editor.tsx:55-59 | the local copy gets the patch and the store records the same patch for the selected id as an undoable snapshot with no redo |
| Editor.UpdateKeepsInSync | components/form-builder/enhanced-field-editor.tsx:55-59 | a local copy equal to the selected field stays equal to it after an update |
| Editor.HandleDeleteField | components/form-builder/enhanced-field-editor.tsx:84-87 | the store records exactly the cascade delete of the selected field, which leaves every other field, and nothing is selected |
| Editor.AddOption | components/form-builder/enhanced-field-editor.tsx:62-71 | as written: appends "Option n"/"option_n" where n is the list length plus one |
| Editor.AddOptionDuplicateValue | components/form-builder/enhanced-field-editor.tsx:62-82 | add, add, delete the first, add leaves two options with the value "option_2" |
| Editor.AddOptionFresh | components/form-builder/enhanced-field-editor.tsx:62-71 | corrected: the appended option's value differs from every existing value |
| Editor.FreshKeepsValuesDistinct | components/form-builder/enhanced-field-editor.tsx:62-71 | the corrected add keeps distinct option values distinct |
| Editor.HandleAddOption | components/form-builder/enhanced-field-editor.tsx:61-70 | as written: the local option list gains "Option n"/"option_n" with n its old length plus one, nothing else of the copy changes, and the edit is recorded |
| Editor.AddOptionReachesStore | components/form-builder/enhanced-field-editor.tsx:61-70 | after adding an option the store's selected field equals the local copy |
| Editor.HandleAddOptionFresh | components/form-builder/enhanced-field-editor.tsx:61-70 | corrected: the add button with the collision-free numbering appends an option whose value no earlier option has |
| Editor.DeleteOption | components/form-builder/enhanced-field-editor.tsx:79-82 | the option at the index is dropped and the rest keep their order; no list gives []; an index outside the list changes nothing |
| Editor.DeleteAdded | components/form-builder/enhanced-field-editor.tsx:62-82 | deleting the option just added restores the list |
| Editor.UpdateOption | components/form-builder/enhanced-field-editor.tsx:72-76 | only that option changes; it gets the typed label and the label's slug (Text.Slug) as value, which holds no whitespace |
| Editor.RetypeStable | components/form-builder/enhanced-field-editor.tsx:292-297 | retyping an option's value as its label leaves the value unchanged |
| Editor.SetMinLength | components/form-builder/enhanced-field-editor.tsx:206-213 | an empty input clears the minimum, other input sets the parsed number, and the other rules are kept |
| Editor.SetMaxLength | components/form-builder/enhanced-field-editor.tsx:226-233 | an empty input clears the maximum, other input sets the parsed number, and the other rules are kept |
| Editor.SetPattern | components/form-builder/enhanced-field-editor.tsx:249-256 | the pattern is set to the input and the other rules are kept |
| Editor.MinLengthEnforced | components/form-builder/enhanced-field-editor.tsx:206-213 | after setting a minimum, a non-empty answer with fewer UTF-16 code units gets the "must be at least" message |
| Editor.EmptyPatternNeverRejects | components/form-builder/enhanced-field-editor.tsx:249-256 | clearing the pattern input disables the format check |
| Canvas.DragStart | components/form-builder/enhanced-form-canvas.tsx:52-54 | the dragged field, its index and its step are remembered and the hover is untouched |
| Canvas.DragOver | components/form-builder/enhanced-form-canvas.tsx:56-60 | the hovered index is stored; the step id is kept only when it is non-empty |
| Canvas.IsDropTarget | components/form-builder/enhanced-form-canvas.tsx:96 | as written: a highlighted position always has a step id, so a flat-list position never is |
| Canvas.IsDropTargetIntended | components/form-builder/enhanced-form-canvas.tsx:96 | corrected: in the flat list the hovered index is highlighted when the stored step is null; in a step, when the stored step is that step |
| Canvas.FlatListNeverHighlighted | components/form-builder/enhanced-form-canvas.tsx:96 | as written no field of the flat list is ever highlighted, even right after hovering it |
| Canvas.HoveredIsHighlighted | components/form-builder/enhanced-form-canvas.tsx:96 | corrected: the hovered position, and no other, is highlighted |
| Canvas.IntendedAgreesOnSteps | components/form-builder/enhanced-form-canvas.tsx:96 | inside a step the corrected highlight agrees with the code |
| Canvas.HandleDrop | components/form-builder/enhanced-form-canvas.tsx:62-76 | without a drag nothing happens; a reorder is issued exactly when the index or step differs; the drag state is cleared |
| Canvas.Drop | components/form-builder/enhanced-form-canvas.tsx:62-76 | a drop that issues no reorder leaves the store alone; one that does records the reorder from the dragged index to the drop index in the drop's list; the invariant is kept |
| Canvas.DropInPlaceKeepsHistory | components/form-builder/enhanced-form-canvas.tsx:69 | dropping a field where it started records nothing |
| Canvas.FlatDropMovesField | components/form-builder/enhanced-form-canvas.tsx:62-76 | a flat-list drop permutes the fields and puts the dragged one at the drop position |
| Canvas.NewStepTitle | components/form-builder/enhanced-form-canvas.tsx:273 | the title starts with "Step " followed by a number |
| Canvas.AddedStepNumbered | components/form-builder/enhanced-form-canvas.tsx:273 | the added step is titled with its own position |
| Canvas.SetTitle | components/form-builder/enhanced-form-canvas.tsx:253 | the title changes and the edit can be undone |
| Canvas.SetDescription | components/form-builder/enhanced-form-canvas.tsx:260 | the description changes and the edit can be undone |
| Canvas.UndoTitleEdit | components/form-builder/enhanced-form-canvas.tsx:253 | undo after a title edit restores the form |
| Canvas.CanvasLayout | components/form-builder/enhanced-form-canvas.tsx:287-294 | multi-step forms show one card per step, whose field ids are that step's ids in order with dangling ones dropped; single-step forms show the field list |
| Palette.EntryFor | components/form-builder/enhanced-field-palette.tsx:26-106 | every field type has a palette entry of that type |
| Palette.EntriesCoverKinds | components/form-builder/enhanced-field-palette.tsx:26-106 | the palette lists all nine field types, each once |
| Palette.EntriesCategorised | components/form-builder/enhanced-field-palette.tsx:26-108 | every entry is in one of the category buttons other than "All" |
| Palette.ChoiceIffOptions | components/form-builder/enhanced-field-palette.tsx:86-106 | the "Choice" entries are exactly the types whose editor shows options |
| Palette.Filter | components/form-builder/enhanced-field-palette.tsx:115-121 | the shown entries are, in order, those matching both the search (label or description, case-insensitive) and the category |
| Palette.EmptySearchShowsAll | components/form-builder/field-palette.tsx:54-58 | an empty search under "All" shows every entry |
| Palette.CategoryNarrows | components/form-builder/enhanced-field-palette.tsx:119 | picking a category only hides entries |
| Palette.FindIn | components/form-builder/enhanced-field-palette.tsx:124 | the found entry has the type; none exactly when no entry has it |
| Palette.EveryKindFound | components/form-builder/enhanced-field-palette.tsx:124 | the lookup finds each type's own entry |
| Palette.NewFieldSpec | components/form-builder/enhanced-field-palette.tsx:127-132 | the new field has the entry's type and label, the "Enter …..." placeholder, not required, and nothing else |
| Palette.HandleAddField | components/form-builder/enhanced-field-palette.tsx:123-133 | with an open form the field built from the type's palette entry (label, placeholder, not required) is appended under the new id and recorded as an undoable edit |
| Palette.NewFieldAcceptsAnything | components/form-builder/field-palette.tsx:60-70 | a freshly added field accepts every value |
| Gallery.AllTemplates | components/form-builder/template-gallery.tsx:276-277 | the built-in templates come first, then the user's |
| Gallery.FeaturedBadge | components/form-builder/template-gallery.tsx:318 | the badge shows exactly for the three built-in ids |
| Gallery.SearchTemplates | components/form-builder/template-gallery.tsx:279-283 | the shown templates are, in order, those whose name or description contains the search, case-insensitive |
| Gallery.EmptySearchListsAll | components/form-builder/template-gallery.tsx:279-283 | an empty search lists every template in order |
| Gallery.FeaturedIds | components/form-builder/template-gallery.tsx:13-264 | the built-in templates have the field ids of the source, in order |
| Gallery.FeaturedConsistent | components/form-builder/template-gallery.tsx:13-264 | each built-in template has unique field ids, steps that name only its fields, and is multi-step exactly when it has steps |
| Gallery.JobStepsCoverFields | components/form-builder/template-gallery.tsx:89-105 | the job application's three steps split its field ids into consecutive runs |
| Gallery.FlattenThreeRuns | lib/store.ts:249-258 | three steps that list consecutive runs of unique ids flatten back to the field list |
| Gallery.JobApplicationFlattens | components/form-builder/template-gallery.tsx:14-108 | switching the job application to single-step keeps all its fields in order |
| Gallery.JobApplicationFirstStep | components/form-builder/template-gallery.tsx:89-95 | the job application opens in the preview on its personal-information fields |
| Shortcuts.HandleKeyDown | components/form-builder/keyboard-shortcuts.tsx:10-34 | Ctrl/Cmd+Z undoes, Ctrl/Cmd+Shift+Z or Ctrl/Cmd+Y redoes, Ctrl/Cmd+S saves an open form; the default is suppressed exactly when a shortcut matches; without a modifier nothing happens |
| Shortcuts.UndoKeyThenRedoKey | components/form-builder/keyboard-shortcuts.tsx:12-25 | the undo key followed by the redo key returns to the prior state |
| Shortcuts.ShortcutsExclusive | components/form-builder/keyboard-shortcuts.tsx:12-28 | no key event matches two shortcuts |
| Shortcuts.UpperCaseZWithoutShiftIgnored | components/form-builder/keyboard-shortcuts.tsx:12-28 | "Z" without Shift matches nothing and the browser keeps the key |
| Shortcuts.UndoKeyAtOldestSnapshot | components/form-builder/keyboard-shortcuts.tsx:12-17 | the undo key is claimed even when there is nothing to undo |
| Analytics.CompletedCount | components/form-builder/form-analytics.tsx:25 | at most the response count; zero exactly when no response answers the field; all exactly when every response does |
| Analytics.CompletedCountAppend | components/form-builder/form-analytics.tsx:25 | counts over concatenated response lists add up |
| Analytics.CompleteCount | components/form-builder/form-analytics.tsx:20 | at most the response count; it is 0 exactly when no response answers every field and the response count exactly when every response does |
| Analytics.CompleteCountAppend | components/form-builder/form-analytics.tsx:20 | complete responses add up over concatenated response lists |
| Analytics.CompleteBoundedByEachField | components/form-builder/form-analytics.tsx:20-25 | no field has fewer completions than the form as a whole |
| Analytics.CompletionRateAsWritten | components/form-builder/form-analytics.tsx:18-21 | as written: NaN exactly when the form has fields and there are no responses |
| Analytics.NoResponsesRateIsNaN | components/form-builder/form-analytics.tsx:18-21 | a form with fields and no responses shows NaN |
| Analytics.Percent | components/form-builder/form-analytics.tsx:29 | the rate lies in 0..100, is 100 exactly when everything counted, and 0 exactly when nothing did |
| Analytics.CompletionRate | components/form-builder/form-analytics.tsx:18-21 | corrected: a rate in 0..100, 100 exactly when every response is complete, agreeing with the code wherever the code gives a number |
| Analytics.FieldAnalytics | components/form-builder/form-analytics.tsx:24-32 | one row per field in order, with the field's label, type, completion count and a rate in 0..100 |
| Analytics.FieldRateExtremes | components/form-builder/form-analytics.tsx:29 | an unanswered field shows 0% and a field everyone answered shows 100% |
| Analytics.CountKind | components/form-builder/form-analytics.tsx:50-56 | positive exactly when some field has the type |
| Analytics.Bump | components/form-builder/form-analytics.tsx:52 | one more field of the type: a slice is added at the end only for a new type, and the total grows by one |
| Analytics.Distribution | components/form-builder/form-analytics.tsx:50-61 | the pie slices have distinct types and no empty slice, each type's size is its field count, and the sizes total the field count |
| Analytics.DistributionHasKind | components/form-builder/form-analytics.tsx:50-61 | a type has a slice exactly when some field has it |
| Analytics.DistributionFirstAppearance | components/form-builder/form-analytics.tsx:50-61 | the slices come in the order in which the form first uses each type |
| Analytics.DistributionSliceCounts | components/form-builder/form-analytics.tsx:50-61 | each slice's size is the number of fields of its type |
| Types.AllFieldTypesExact | lib/types.ts:1 | there are exactly nine field types and the list names each once |
| Types.ApplyFieldPatch | lib/store.ts:142 | a patch without an id keeps the field's id, and the empty patch changes nothing |
| Types.FieldPatchIdempotent | lib/store.ts:142 | merging the same patch twice gives what merging it once gives |
| Seqs.Move | lib/store.ts:183-185 | the splice move: the element lands at the clamped target, and taking it out again leaves the list with the source position taken out; length and contents are kept |
| Text.Slug | components/form-builder/enhanced-field-editor.tsx:296 | a slug is at most as long as the label, and a label without whitespace is only lower-cased |
| Text.CollapseKeepsChar | components/form-builder/enhanced-field-editor.tsx:296 | a character that is not whitespace is copied through by the replacement |
| Text.CollapseRun | components/form-builder/enhanced-field-editor.tsx:296 | a maximal run of whitespace becomes one underscore |
| Text.Utf16Length | components/form-builder/enhanced-form-preview.tsx:71-75 | `.length` counts UTF-16 code units: at least the character count, at most twice it, zero only for "", equal to it when no character lies beyond the Basic Multilingual Plane |
| Text.Utf16LengthConcat | components/form-builder/enhanced-form-preview.tsx:71-75 | code units add up over concatenation |
| Text.TrimEmptyIffBlank | components/form-builder/enhanced-form-preview.tsx:64 | a string trims to "" exactly when it is all JavaScript whitespace |
| Text.ParseNatToString | components/form-builder/enhanced-field-editor.tsx:66-67 | the decimal rendering of a number reads back as that number |
| Text.SlugShape | components/form-builder/enhanced-field-editor.tsx:296 | an option value derived from a label contains no whitespace |
| Text.SlugIdempotent | components/form-builder/enhanced-field-editor.tsx:296 | deriving a value from a derived value changes nothing |

The legacy components share these definitions. `form-preview.tsx:34-104`
(validation, input handling and step navigation) and `field-editor.tsx:38-71`
match the enhanced preview and editor line for line. The legacy `handleSubmit`
(`form-preview.tsx:106-115`) validates every field in the same way, but on
success it shows an alert and keeps no submitted state; `Preview.Submit`'s
`submitted` flag is the enhanced preview's `setIsSubmitted(true)`. `form-canvas.tsx:47-76` matches the enhanced canvas. `field-palette.tsx:13-70`
matches the enhanced palette without the category filter; the legacy palette is
`Palette.Filter` with the category "All".

## Findings

| source | as written | input that shows it | evidently intended | confidence | as-written member | corrected member |
|---|---|---|---|---|---|---|
| components/form-builder/enhanced-field-editor.tsx:62-71 (and field-editor.tsx:44-53) | a new option's value is `option_<length+1>` | add two options, delete the first, add again: two options have the value `option_2` | option values stay distinct, since the preview keys and selects options by value | not executed | Editor.AddOption, used by Editor.HandleAddOption (shown by Editor.AddOptionDuplicateValue) | Editor.AddOptionFresh, used by Editor.HandleAddOptionFresh (proved by Editor.FreshKeepsValuesDistinct) |
| components/form-builder/enhanced-form-canvas.tsx:96 (and form-canvas.tsx:76) | `dragOverStepId === stepId` compares the stored `null` with the flat list's `undefined` | hover any field of a single-step form while dragging: it is never highlighted | the hovered field is highlighted in the flat list as it is inside steps | not executed | Canvas.IsDropTarget (shown by Canvas.FlatListNeverHighlighted) | Canvas.IsDropTargetIntended (proved by Canvas.HoveredIsHighlighted) |
| components/form-builder/form-analytics.tsx:18-21 | the completion rate divides by the response count without checking it is non-zero | a form with one field and no responses: 0/0 shows "NaN%" | 0%, as the per-field rates on line 29 already do | not executed | Analytics.CompletionRateAsWritten (shown by Analytics.NoResponsesRateIsNaN) | Analytics.CompletionRate |
| lib/store.ts:226-231 | deleting a step appends the step's resolved fields to `fields`, which already holds every field | delete a step that lists one existing field: that field appears twice and two fields share an id | the fields stay once (the code comments that it moves them back, but they were never removed from `fields`) | not executed | FormOps.DeleteStep, used by Store.DeleteStep (shown by FormOps.DeleteStepDuplicates and FormOps.DeleteStepBreaksUniqueIds) | FormOps.DeleteStepIntended, used by Store.DeleteStepIntended (proved by FormOps.DeleteStepIntendedKeepsUniqueIds) |

## Left out

- Rendering, animation, scrolling and layout styling (React and framer-motion) carry no state the model needs.
- Local storage is modelled as lists passed in and returned: the saved forms, responses and templates. JSON round-tripping is not modelled. `getTemplates` is that list itself.
- `generateId` and the timestamps (`createdAt`, `updatedAt`, `submittedAt`) are left out. Each new id is a parameter.
- `new RegExp(pattern).test(value)` is a `matches` parameter, because regular expressions are out of scope. A total `matches` cannot show that an invalid pattern such as "[" makes `new RegExp` throw, which breaks Next and Submit in both previews.
- `Number.parseInt` is a `parseInt` parameter. NaN from a non-numeric input is not modelled.
- Text.Lower, Text.Slug, Palette.Filter, Gallery.SearchTemplates: lower-case ASCII letters only, not the full Unicode case mapping of `toLowerCase`. For example, JavaScript lowers the Kelvin sign to "k", so searching the palette for it finds "Checkbox"; in the model it finds nothing.
- `setPreviewMode`, `setTheme`, `setDragging`, auto-save, the toolbars and the template preview dialog only toggle display state.
- The legacy palette's `dataTransfer` drag payload has no consumer, so it is left out.
- Store.ReorderFields: requires the source index to lie inside the list being reordered. Indices are `nat` because the canvas never passes a negative one. A source index at or past the end of the list makes the code's `splice` move `undefined` into it; this happens when a field is dropped onto another step from a position past that step's length.
- FormOps.ReorderFields: requires the same in-range source index as Store.ReorderFields (`ReorderAllowed`), for the same reason.
- Canvas.Drop: requires the same in-range source index (`CanApply`), so the cross-step drop from past the target step's length is excluded.
- FormOps.ReorderFields: a drop onto a different step reorders inside the target step using the dragged field's index from its own step, as the code does. Moving a field between steps is not modelled because the code does not do it.
- Preview.NextStep: requires the step index to be inside the steps of a multi-step form. The code reads `.fields` of `undefined` there and throws.
- Editor.HandleFieldUpdate: requires a selected field. The editor renders no controls without one.
- Analytics: the progress bar, the seven-day timeline (it reads the clock) and `toFixed` rounding are left out. Rates are exact rationals, not floating point.

=== FILE: analytics.dfy ===
/** The response analytics of one form: the response total, how many
    responses answered each field, how many answered every field, the
    completion percentages and the field-type distribution shown in the pie
    chart. An answer counts when the stored value is truthy. Percentages are
    exact rationals here; the page rounds them for display. */
module Analytics {
  import opened Wrappers
  import opened Types
  import Validation

  /** `r.data[id]` is truthy. */
  predicate Answered(r: FormResponse, id: string) {
    Validation.Truthy(Lookup(r.data, id))
  }

  /** `responses.filter((r) => r.data[id]).length`. */
  function CompletedCount(responses: seq<FormResponse>, id: string): (n: nat)
    ensures n <= |responses|
    ensures n == 0 <==> forall i :: 0 <= i < |responses| ==> !Answered(responses[i], id)
    ensures n == |responses| <==> forall i :: 0 <= i < |responses| ==> Answered(responses[i], id)
  {
    if responses == [] then 0
    else
      var rest := CompletedCount(responses[1..], id);
      assert forall i :: 1 <= i < |responses| ==> responses[i] == responses[1..][i - 1];
      (if Answered(responses[0], id) then 1 else 0) + rest
  }

  /** Counting is additive over concatenated response lists. */
  lemma {:induction false} CompletedCountAppend(a: seq<FormResponse>, b: seq<FormResponse>, id: string)
    ensures CompletedCount(a + b, id) == CompletedCount(a, id) + CompletedCount(b, id)
    decreases |a|
  {
    if a == [] {
      assert a + b == b;
    } else {
      assert (a + b)[1..] == a[1..] + b;
      CompletedCountAppend(a[1..], b, id);
    }
  }

  /** `form.fields.every((f) => r.data[f.id])`. */
  predicate Complete(r: FormResponse, fields: seq<FormField>) {
    forall f :: f in fields ==> Answered(r, f.id)
  }

  /** The number of responses that answer every field. */
  function CompleteCount(responses: seq<FormResponse>, fields: seq<FormField>): (n: nat)
    ensures n <= |responses|
    ensures fields == [] ==> n == |responses|
    ensures n == 0 <==> forall i :: 0 <= i < |responses| ==> !Complete(responses[i], fields)
    ensures n == |responses| <==> forall i :: 0 <= i < |responses| ==> Complete(responses[i], fields)
  {
    if responses == [] then 0
    else
      var rest := CompleteCount(responses[1..], fields);
      assert forall i :: 1 <= i < |responses| ==> responses[i] == responses[1..][i - 1];
      (if Complete(responses[0], fields) then 1 else 0) + rest
  }

  /** Complete responses add up over concatenated response lists. */
  lemma {:induction false} CompleteCountAppend(a: seq<FormResponse>, b: seq<FormResponse>, fields: seq<FormField>)
    ensures CompleteCount(a + b, fields) == CompleteCount(a, fields) + CompleteCount(b, fields)
    decreases |a|
  {
    if a == [] {
      assert a + b == b;
    } else {
      assert (a + b)[1..] == a[1..] + b;
      CompleteCountAppend(a[1..], b, fields);
    }
  }

  /** A response that answers every field answers each one, so no field has
      fewer completions than the form as a whole. */
  lemma {:induction false} CompleteBoundedByEachField(responses: seq<FormResponse>, fields: seq<FormField>, f: FormField)
    requires f in fields
    ensures CompleteCount(responses, fields) <= CompletedCount(responses, f.id)
  {
    if responses != [] {
      CompleteBoundedByEachField(responses[1..], fields, f);
    }
  }

  /** The completion rate as written: with fields but no responses it
      divides zero by zero, which JavaScript renders as NaN (`None`). */
  function CompletionRateAsWritten(fields: seq<FormField>, responses: seq<FormResponse>): (r: Option<real>)
    ensures fields == [] ==> r == Some(0.0)
    ensures r.None? <==> fields != [] && responses == []
  {
    if |fields| > 0 then
      if |responses| == 0 then None
      else Some(CompleteCount(responses, fields) as real / |responses| as real * 100.0)
    else Some(0.0)
  }

  /** A form with fields and no responses yet shows "NaN%". */
  lemma NoResponsesRateIsNaN(fields: seq<FormField>)
    requires fields != []
    ensures CompletionRateAsWritten(fields, []) == None
  {
  }

  /** `count / total * 100`, or 0 without responses: the guard the field
      rates use. */
  function Percent(count: nat, total: nat): (r: real)
    requires count <= total
    ensures 0.0 <= r <= 100.0
    ensures r == 100.0 <==> total > 0 && count == total
    ensures r == 0.0 <==> count == 0
  {
    if total > 0 then
      RatioAtMostOne(count as real, total as real);
      count as real / total as real * 100.0
    else 0.0
  }

  /** A share of a positive whole is at most the whole. */
  lemma RatioAtMostOne(part: real, whole: real)
    requires 0.0 <= part <= whole && whole > 0.0
    ensures 0.0 <= part / whole <= 1.0
    ensures part / whole == 1.0 <==> part == whole
  {
    var q := part / whole;
    assert q * whole == part;
  }

  /** The completion rate with the zero-response guard the field rates
      already have. */
  function CompletionRate(fields: seq<FormField>, responses: seq<FormResponse>): (r: real)
    ensures 0.0 <= r <= 100.0
    ensures r == 100.0 <==> fields != [] && responses != [] && CompleteCount(responses, fields) == |responses|
    ensures CompletionRateAsWritten(fields, responses).Some? ==> CompletionRateAsWritten(fields, responses) == Some(r)
  {
    if |fields| > 0 then Percent(CompleteCount(responses, fields), |responses|) else 0.0
  }

  /** One row of the field completion table. */
  datatype FieldStat = FieldStat(name: string, completed: nat, rate: real, kind: FieldType)

  /** `form.fields.map(...)`: one row per field, in field order. */
  function FieldAnalytics(fields: seq<FormField>, responses: seq<FormResponse>): (r: seq<FieldStat>)
    ensures |r| == |fields|
    ensures forall i :: 0 <= i < |r| ==>
      && r[i].name == fields[i].labelText && r[i].kind == fields[i].kind
      && r[i].completed == CompletedCount(responses, fields[i].id)
      && r[i].completed <= |responses|
      && 0.0 <= r[i].rate <= 100.0
      && r[i].rate == Percent(r[i].completed, |responses|)
  {
    if fields == [] then []
    else
      var n := CompletedCount(responses, fields[0].id);
      [FieldStat(fields[0].labelText, n, Percent(n, |responses|), fields[0].kind)] + FieldAnalytics(fields[1..], responses)
  }

  /** A field answered by no one is listed at 0%, one answered by everyone
      at 100% (given at least one response). */
  lemma FieldRateExtremes(fields: seq<FormField>, responses: seq<FormResponse>, i: int)
    requires 0 <= i < |fields|
    ensures (forall j :: 0 <= j < |responses| ==> !Answered(responses[j], fields[i].id)) ==> FieldAnalytics(fields, responses)[i].rate == 0.0
    ensures responses != [] && (forall j :: 0 <= j < |responses| ==> Answered(responses[j], fields[i].id)) ==> FieldAnalytics(fields, responses)[i].rate == 100.0
  {
  }

  /** One slice of the field-type pie: a type and how many fields have it. */
  datatype Slice = Slice(kind: FieldType, count: nat)

  function Kinds(es: seq<Slice>): (r: seq<FieldType>)
    ensures |r| == |es|
    ensures forall i :: 0 <= i < |es| ==> r[i] == es[i].kind
  {
    if es == [] then [] else [es[0].kind] + Kinds(es[1..])
  }

  /** The count of `k` in a distribution, 0 when `k` has no slice. */
  function CountOf(es: seq<Slice>, k: FieldType): (n: nat)
    ensures k !in Kinds(es) ==> n == 0
  {
    if es == [] then 0 else if es[0].kind == k then es[0].count else CountOf(es[1..], k)
  }

  /** The sum of all slices. */
  function Total(es: seq<Slice>): (n: nat)
  {
    if es == [] then 0 else es[0].count + Total(es[1..])
  }

  /** The number of fields of type `k`: the reference the pie is checked against. */
  function CountKind(fields: seq<FormField>, k: FieldType): (n: nat)
    ensures n <= |fields|
    ensures n > 0 <==> exists i :: 0 <= i < |fields| && fields[i].kind == k
  {
    if fields == [] then 0
    else
      var last := fields[|fields| - 1];
      var rest := fields[..|fields| - 1];
      assert forall i :: 0 <= i < |rest| ==> rest[i] == fields[i];
      CountKind(rest, k) + (if last.kind == k then 1 else 0)
  }

  predicate Distinct(ks: seq<FieldType>) {
    forall i, j :: 0 <= i < j < |ks| ==> ks[i] != ks[j]
  }

  /** `acc[type] = (acc[type] || 0) + 1` on an insertion-ordered record:
      bump an existing slice in place or append a new one at the end. */
  function Bump(es: seq<Slice>, k: FieldType): (r: seq<Slice>)
    ensures Kinds(r) == if k in Kinds(es) then Kinds(es) else Kinds(es) + [k]
    ensures Total(r) == Total(es) + 1
    ensures forall k' :: CountOf(r, k') == CountOf(es, k') + (if k' == k then 1 else 0)
    ensures (forall i :: 0 <= i < |es| ==> es[i].count >= 1) ==> forall i :: 0 <= i < |r| ==> r[i].count >= 1
  {
    if es == [] then [Slice(k, 1)]
    else if es[0].kind == k then
      var r := [es[0].(count := es[0].count + 1)] + es[1..];
      assert r[1..] == es[1..];
      assert Kinds(r) == Kinds(es);
      r
    else
      var rest := Bump(es[1..], k);
      var r := [es[0]] + rest;
      assert r[0] == es[0] && r[1..] == rest;
      assert Kinds(es) == [es[0].kind] + Kinds(es[1..]);
      assert Kinds(r) == [es[0].kind] + Kinds(rest);
      r
  }

  /** `form.fields.reduce(...)` followed by `Object.entries`: the pie data,
      one slice per field type in order of first appearance
      (`DistributionFirstAppearance`). */
  function Distribution(fields: seq<FormField>): (r: seq<Slice>)
    ensures Total(r) == |fields|
    ensures forall k :: CountOf(r, k) == CountKind(fields, k)
    ensures forall i :: 0 <= i < |r| ==> r[i].count >= 1
    ensures Distinct(Kinds(r))
  {
    if fields == [] then []
    else
      var prev := Distribution(fields[..|fields| - 1]);
      var r := Bump(prev, fields[|fields| - 1].kind);
      assert forall k :: CountKind(fields, k) == CountKind(fields[..|fields| - 1], k) + (if fields[|fields| - 1].kind == k then 1 else 0);
      DistinctSnoc(Kinds(prev), fields[|fields| - 1].kind);
      r
  }

  /** Appending a new type keeps the types distinct. */
  lemma DistinctSnoc(ks: seq<FieldType>, k: FieldType)
    requires Distinct(ks)
    ensures k !in ks ==> Distinct(ks + [k])
  {
    var qs := ks + [k];
    assert forall i :: 0 <= i < |ks| ==> qs[i] == ks[i];
  }

  /** The position of the first field of type `k`, or -1 when there is none. */
  function FirstIndex(fields: seq<FormField>, k: FieldType): (i: int)
    ensures -1 <= i < |fields|
  {
    if fields == [] then -1
    else if fields[0].kind == k then 0
    else
      assert forall j :: 1 <= j < |fields| ==> fields[1..][j - 1] == fields[j];
      var t := FirstIndex(fields[1..], k);
      if t == -1 then -1 else t + 1
  }

  /** -1 exactly when no field has the type; otherwise the position holds
      the type and no earlier field has it. */
  lemma {:induction false} FirstIndexIsFirst(fields: seq<FormField>, k: FieldType)
    ensures FirstIndex(fields, k) == -1 <==> forall j :: 0 <= j < |fields| ==> fields[j].kind != k
    ensures var i := FirstIndex(fields, k);
      i >= 0 ==> fields[i].kind == k && forall j :: 0 <= j < i ==> fields[j].kind != k
  {
    if fields != [] && fields[0].kind != k {
      FirstIndexIsFirst(fields[1..], k);
      assert forall j :: 1 <= j < |fields| ==> fields[1..][j - 1] == fields[j];
    }
  }

  /** One more field leaves every earlier first position in place. */
  lemma FirstIndexSnoc(fields: seq<FormField>, x: FormField, k: FieldType)
    ensures FirstIndex(fields + [x], k) ==
      if FirstIndex(fields, k) >= 0 then FirstIndex(fields, k)
      else if x.kind == k then |fields| else -1
  {
    var s := fields + [x];
    FirstIndexIsFirst(fields, k);
    FirstIndexIsFirst(s, k);
    assert forall j :: 0 <= j < |fields| ==> s[j] == fields[j];
    assert s[|fields|] == x;
  }

  /** The first positions of the types `ks`, in the order of `ks`. */
  function Positions(fields: seq<FormField>, ks: seq<FieldType>): (ps: seq<int>)
    ensures |ps| == |ks|
    ensures forall a :: 0 <= a < |ks| ==> ps[a] == FirstIndex(fields, ks[a])
  {
    seq(|ks|, a requires 0 <= a < |ks| => FirstIndex(fields, ks[a]))
  }

  predicate Increasing(ps: seq<int>) {
    forall a, b :: 0 <= a < b < |ps| ==> ps[a] < ps[b]
  }

  /** Every type in `ks` occurs in `fields`, and the types come in the order
      of their first fields. */
  predicate FirstOrdered(fields: seq<FormField>, ks: seq<FieldType>) {
    && (forall a :: 0 <= a < |ks| ==> 0 <= Positions(fields, ks)[a])
    && Increasing(Positions(fields, ks))
  }

  /** The slices come in order of each type's first field: the pie lists the
      types in the order the form first uses them. */
  lemma {:induction false} DistributionFirstAppearance(fields: seq<FormField>)
    ensures FirstOrdered(fields, Kinds(Distribution(fields)))
    decreases |fields|
  {
    if fields != [] {
      var init := fields[..|fields| - 1];
      var last := fields[|fields| - 1];
      assert fields == init + [last];
      DistributionFirstAppearance(init);
      assert Distribution(fields) == Bump(Distribution(init), last.kind);
      BumpKeepsFirstOrder(init, last);
    }
  }

  /** One more field: the bumped distribution stays in first-use order. */
  lemma BumpKeepsFirstOrder(init: seq<FormField>, last: FormField)
    requires FirstOrdered(init, Kinds(Distribution(init)))
    ensures FirstOrdered(init + [last], Kinds(Bump(Distribution(init), last.kind)))
  {
    var fields := init + [last];
    var pk := Kinds(Distribution(init));
    KnownKindsKeepPosition(init, last);
    FirstOrderedTransfer(init, fields, pk);
    if last.kind !in pk {
      DistributionHasKind(init, last.kind);
      FirstIndexIsFirst(init, last.kind);
      FirstIndexSnoc(init, last, last.kind);
      assert forall a :: 0 <= a < |pk| ==> pk[a] in pk;
      FirstOrderedAppend(fields, pk, last.kind);
    }
  }

  /** A type the distribution already has keeps its first position, which
      lies before the new field. */
  lemma KnownKindsKeepPosition(init: seq<FormField>, last: FormField)
    ensures forall k :: k in Kinds(Distribution(init)) ==>
      0 <= FirstIndex(init, k) < |init| && FirstIndex(init + [last], k) == FirstIndex(init, k)
  {
    forall k | k in Kinds(Distribution(init))
      ensures 0 <= FirstIndex(init, k) < |init| && FirstIndex(init + [last], k) == FirstIndex(init, k)
    {
      DistributionHasKind(init, k);
      FirstIndexIsFirst(init, k);
      FirstIndexSnoc(init, last, k);
    }
  }

  /** The order carries over to a longer field list that keeps each first position. */
  lemma FirstOrderedTransfer(init: seq<FormField>, fields: seq<FormField>, ks: seq<FieldType>)
    requires FirstOrdered(init, ks)
    requires forall k :: k in ks ==> FirstIndex(fields, k) == FirstIndex(init, k)
    ensures FirstOrdered(fields, ks)
  {
    assert forall a :: 0 <= a < |ks| ==> ks[a] in ks;
    assert Positions(fields, ks) == Positions(init, ks);
  }

  /** A type whose first field comes after every listed type's extends the order. */
  lemma FirstOrderedAppend(fields: seq<FormField>, ks: seq<FieldType>, k: FieldType)
    requires FirstOrdered(fields, ks) && 0 <= FirstIndex(fields, k)
    requires forall a :: 0 <= a < |ks| ==> Positions(fields, ks)[a] < FirstIndex(fields, k)
    ensures FirstOrdered(fields, ks + [k])
  {
    var ps := Positions(fields, ks);
    var x := FirstIndex(fields, k);
    assert Positions(fields, ks + [k]) == ps + [x];
    IncreasingAppend(ps, x);
  }

  /** A value above every element extends an increasing sequence. */
  lemma IncreasingAppend(ps: seq<int>, x: int)
    requires Increasing(ps)
    requires forall a :: 0 <= a < |ps| ==> ps[a] < x
    ensures Increasing(ps + [x])
  {
    var qs := ps + [x];
    assert forall a :: 0 <= a < |ps| ==> qs[a] == ps[a];
  }

  /** A type has a slice exactly when some field has that type. */
  lemma DistributionHasKind(fields: seq<FormField>, k: FieldType)
    ensures k in Kinds(Distribution(fields)) <==> exists i :: 0 <= i < |fields| && fields[i].kind == k
  {
    PositiveCountOf(Distribution(fields), k);
  }

  /** Each slice's size is the number of fields of its type. */
  lemma DistributionSliceCounts(fields: seq<FormField>, i: int)
    requires 0 <= i < |Distribution(fields)|
    ensures Distribution(fields)[i].count == CountKind(fields, Distribution(fields)[i].kind)
  {
    CountOfSlice(Distribution(fields), i);
  }

  /** With no empty slices, a type has a slice exactly when its count is positive. */
  lemma {:induction false} PositiveCountOf(es: seq<Slice>, k: FieldType)
    requires forall i :: 0 <= i < |es| ==> es[i].count >= 1
    ensures k in Kinds(es) <==> CountOf(es, k) > 0
  {
    if es != [] && es[0].kind != k {
      assert Kinds(es) == [es[0].kind] + Kinds(es[1..]);
      PositiveCountOf(es[1..], k);
    }
  }

  /** In a distribution with distinct types, `CountOf` reads the slice itself. */
  lemma {:induction false} CountOfSlice(es: seq<Slice>, i: int)
    requires Distinct(Kinds(es)) && 0 <= i < |es|
    ensures CountOf(es, es[i].kind) == es[i].count
  {
    if i > 0 {
      assert Kinds(es[1..]) == Kinds(es)[1..];
      CountOfSlice(es[1..], i - 1);
    }
  }
}

=== FILE: canvas.dfy ===
/** The editing canvas: drag-and-drop reordering, the drop-target highlight,
    the header edits (title, description, mode toggle, "Add Step") and the
    choice between the step cards and the flat field list. In the callbacks
    an absent step id (`undefined`) and the highlight's `null` are both
    `None`; `IsDropTarget` keeps them apart as the code does. */
module Canvas {
  import opened Wrappers
  import opened Types
  import Text
  import FormOps
  import Store

  /** The field being dragged: its position in the list it was rendered in
      and that list's step id (`None` in the flat list). */
  datatype Dragged = Dragged(fieldId: string, index: nat, stepId: Option<string>)

  datatype DragState = DragState(dragged: Option<Dragged>, overIndex: Option<int>, overStepId: Option<string>)

  const NoDrag := DragState(None, None, None)

  /** A `reorderFields(from, to, stepId)` call. */
  datatype Reorder = Reorder(from: nat, to: nat, stepId: Option<string>)

  function DragStart(d: DragState, field: FormField, index: nat, stepId: Option<string>): (r: DragState)
    ensures r.dragged == Some(Dragged(field.id, index, stepId))
    ensures r.overIndex == d.overIndex && r.overStepId == d.overStepId
  {
    d.(dragged := Some(Dragged(field.id, index, stepId)))
  }

  /** `setDragOverStepId(stepId || null)`: an empty step id is stored as `null`. */
  function DragOver(d: DragState, index: int, stepId: Option<string>): (r: DragState)
    ensures r.overIndex == Some(index) && r.dragged == d.dragged
    ensures r.overStepId.Some? <==> FormOps.IsStepTarget(stepId)
    ensures r.overStepId.Some? ==> r.overStepId == stepId
  {
    d.(overIndex := Some(index), overStepId := if FormOps.IsStepTarget(stepId) then stepId else None)
  }

  /** `dragOverIndex === index && dragOverStepId === stepId` as written:
      `null` never equals `undefined`, so only a step list can be highlighted. */
  predicate IsDropTarget(d: DragState, index: int, stepId: Option<string>): (b: bool)
    ensures b ==> d.overIndex == Some(index) && stepId.Some? && d.overStepId == stepId
  {
    d.overIndex == Some(index) && d.overStepId.Some? && stepId.Some? && d.overStepId.value == stepId.value
  }

  /** In the flat list the highlight never shows, even right after hovering. */
  lemma FlatListNeverHighlighted(d: DragState, index: int)
    ensures !IsDropTarget(DragOver(d, index, None), index, None)
    ensures forall i :: !IsDropTarget(d, i, None)
  {
  }

  /** The highlight as intended: the position last hovered, in the same list
      (absent and empty step ids both naming the flat list). */
  predicate IsDropTargetIntended(d: DragState, index: int, stepId: Option<string>): (b: bool)
    ensures !FormOps.IsStepTarget(stepId) ==> (b <==> d.overIndex == Some(index) && d.overStepId.None?)
    ensures FormOps.IsStepTarget(stepId) ==> (b <==> d.overIndex == Some(index) && d.overStepId == stepId)
  {
    d.overIndex == Some(index) && d.overStepId == (if FormOps.IsStepTarget(stepId) then stepId else None)
  }

  /** With the intended comparison the hovered position is always highlighted,
      and no other position of that list is. */
  lemma HoveredIsHighlighted(d: DragState, index: int, stepId: Option<string>)
    ensures IsDropTargetIntended(DragOver(d, index, stepId), index, stepId)
    ensures forall i :: i != index ==> !IsDropTargetIntended(DragOver(d, index, stepId), i, stepId)
  {
  }

  /** The two comparisons agree on step lists. */
  lemma IntendedAgreesOnSteps(d: DragState, index: int, stepId: Option<string>)
    requires FormOps.IsStepTarget(stepId)
    ensures IsDropTarget(d, index, stepId) <==> IsDropTargetIntended(d, index, stepId)
  {
  }

  /** `handleDrop`: without a drag nothing happens; otherwise a reorder is
      requested unless the drop is on the dragged field's own position in
      its own list, and the drag state is cleared. */
  function HandleDrop(d: DragState, dropIndex: nat, dropStepId: Option<string>): (r: (DragState, Option<Reorder>))
    ensures d.dragged.None? ==> r == (d, None)
    ensures d.dragged.Some? ==> r.0 == NoDrag
    ensures r.1.Some? <==> d.dragged.Some? && (d.dragged.value.index != dropIndex || d.dragged.value.stepId != dropStepId)
    ensures r.1.Some? ==> r.1.value == Reorder(d.dragged.value.index, dropIndex, dropStepId)
  {
    match d.dragged
    case None => (d, None)
    case Some(g) =>
      if g.index != dropIndex || g.stepId != dropStepId then (NoDrag, Some(Reorder(g.index, dropIndex, dropStepId)))
      else (NoDrag, None)
  }

  /** Whether the store can carry out a requested reorder without splicing in
      `undefined`. */
  predicate CanApply(s: Store.State, q: Option<Reorder>) {
    q.Some? && s.currentForm.Some? ==> FormOps.ReorderAllowed(s.currentForm.value, q.value.from, q.value.stepId)
  }

  /** A drop followed by the store update it triggers. */
  function Drop(s: Store.State, d: DragState, dropIndex: nat, dropStepId: Option<string>): (r: (Store.State, DragState))
    requires CanApply(s, HandleDrop(d, dropIndex, dropStepId).1)
    ensures HandleDrop(d, dropIndex, dropStepId).1.None? ==> r.0 == s
    ensures Store.Valid(s) && s.currentForm.Some? && HandleDrop(d, dropIndex, dropStepId).1.Some? ==>
      Store.Recorded(s, r.0, FormOps.ReorderFields(s.currentForm.value, d.dragged.value.index, dropIndex, dropStepId))
    ensures Store.Valid(s) ==> Store.Valid(r.0)
    ensures r.1 == HandleDrop(d, dropIndex, dropStepId).0
  {
    var (d2, q) := HandleDrop(d, dropIndex, dropStepId);
    match q
    case None => (s, d2)
    case Some(m) => (Store.ReorderFields(s, m.from, m.to, m.stepId), d2)
  }

  /** Dropping a field back onto its own place records no history entry. */
  lemma DropInPlaceKeepsHistory(s: Store.State, d: DragState)
    requires d.dragged.Some?
    ensures Drop(s, d, d.dragged.value.index, d.dragged.value.stepId) == (s, NoDrag)
  {
  }

  /** In the flat list a drop moves the dragged field to the drop position
      (clamped to the list's end), keeping the same fields. */
  lemma FlatDropMovesField(s: Store.State, d: DragState, dropIndex: nat)
    requires Store.Valid(s) && s.currentForm.Some?
    requires d.dragged.Some? && d.dragged.value.stepId.None? && d.dragged.value.index != dropIndex
    requires d.dragged.value.index < |s.currentForm.value.fields|
    ensures var f := s.currentForm.value.fields;
      var g := Drop(s, d, dropIndex, None).0.currentForm.value.fields;
      && multiset(g) == multiset(f)
      && g[if dropIndex < |f| then dropIndex else |f| - 1] == f[d.dragged.value.index]
  {
  }

  /** The title given by the "Add Step" button: one past the step count. */
  function NewStepTitle(form: Form): (r: string)
    ensures |r| > 5 && r[..5] == "Step "
  {
    "Step " + Text.NatToString(|form.steps| + 1)
  }

  /** Adding a step with the button's title numbers it by its position. */
  lemma AddedStepNumbered(s: Store.State, newId: string)
    requires Store.Valid(s) && s.currentForm.Some?
    ensures var f := Store.AddStep(s, NewStepTitle(s.currentForm.value), newId).currentForm.value;
      f.steps[|f.steps| - 1].title == "Step " + Text.NatToString(|f.steps|)
  {
  }

  /** `updateForm({ title })`. */
  function SetTitle(s: Store.State, title: string): (r: Store.State)
    ensures Store.Valid(s) && s.currentForm.Some? ==>
      r.currentForm == Some(s.currentForm.value.(title := title)) && Store.CanUndo(r)
    ensures s.currentForm.None? ==> r == s
  {
    Store.UpdateForm(s, FormPatch(None, Some(title), None, None, None, None))
  }

  /** `updateForm({ description })`. */
  function SetDescription(s: Store.State, description: string): (r: Store.State)
    ensures Store.Valid(s) && s.currentForm.Some? ==>
      r.currentForm == Some(s.currentForm.value.(description := Some(description))) && Store.CanUndo(r)
    ensures s.currentForm.None? ==> r == s
  {
    Store.UpdateForm(s, FormPatch(None, None, Some(Some(description)), None, None, None))
  }

  /** Each keystroke in the title is one history entry: undo brings back the
      previous title. */
  lemma UndoTitleEdit(s: Store.State, title: string)
    requires Store.Valid(s) && s.currentForm.Some?
    ensures Store.Undo(SetTitle(s, title)).currentForm == s.currentForm
  {
  }

  /** What the canvas body shows. */
  datatype Layout = StepCards(cards: seq<seq<FormField>>) | FlatList(items: seq<FormField>)

  /** Step cards with their resolved fields for a multi-step form, the field
      list otherwise. */
  function CanvasLayout(form: Form): (r: Layout)
    ensures r.StepCards? <==> form.isMultiStep
    ensures r.FlatList? ==> r.items == form.fields
    ensures r.StepCards? ==> |r.cards| == |form.steps|
    ensures r.StepCards? ==> forall i :: 0 <= i < |r.cards| ==>
      forall f :: f in r.cards[i] ==> f in form.fields && f.id in form.steps[i].fields
    ensures r.StepCards? ==> forall i :: 0 <= i < |r.cards| ==>
      Ids(r.cards[i]) == FormOps.KnownIds(form.steps[i].fields, form.fields)
  {
    if form.isMultiStep then
      StepCards(seq(|form.steps|, i requires 0 <= i < |form.steps| => FormOps.Resolve(form.steps[i].fields, form.fields)))
    else FlatList(form.fields)
  }
}

=== FILE: editor.dfy ===
/** The field property editor: a local copy of the selected field kept in
    step with the store, option list editing, the length and pattern rule
    inputs, and field deletion. */
module Editor {
  import opened Wrappers
  import opened Types
  import Text
  import Seqs
  import FormOps
  import Store
  import Validation

  /** `currentForm?.fields.find(f => f.id === selectedFieldId)`. */
  function SelectedField(s: Store.State): (r: Option<FormField>)
    ensures r.Some? ==> s.currentForm.Some? && s.selectedFieldId == Some(r.value.id) && r.value in s.currentForm.value.fields
    ensures r.None? && s.currentForm.Some? && s.selectedFieldId.Some? ==>
      s.selectedFieldId.value !in Ids(s.currentForm.value.fields)
  {
    if s.currentForm.None? || s.selectedFieldId.None? then None
    else FormOps.FindField(s.currentForm.value.fields, s.selectedFieldId.value)
  }

  /** `handleFieldUpdate`: merge the update into the local copy and send the
      same update to the store for the selected field. */
  function HandleFieldUpdate(s: Store.State, local: FormField, patch: FieldPatch): (r: (Store.State, FormField))
    requires SelectedField(s).Some?
    ensures r.1 == ApplyFieldPatch(local, patch)
    ensures Store.Valid(s) ==> Store.Valid(r.0) && Store.CanUndo(r.0) && !Store.CanRedo(r.0)
    ensures Store.Valid(s) ==>
      Store.Recorded(s, r.0, FormOps.UpdateField(s.currentForm.value, s.selectedFieldId.value, patch))
    ensures r.0.selectedFieldId == s.selectedFieldId
  {
    (Store.UpdateField(s, SelectedField(s).value.id, patch), ApplyFieldPatch(local, patch))
  }

  /** An editor whose local copy equals the selected field stays in sync
      after an update that does not touch the id. */
  lemma UpdateKeepsInSync(s: Store.State, patch: FieldPatch)
    requires Store.Valid(s) && SelectedField(s).Some? && patch.id.None?
    ensures var r := HandleFieldUpdate(s, SelectedField(s).value, patch);
      SelectedField(r.0) == Some(r.1)
  {
    FormOps.UpdateFieldsFind(s.currentForm.value.fields, SelectedField(s).value.id, patch);
  }

  /** `handleDeleteField`: delete the selected field and clear the selection. */
  function HandleDeleteField(s: Store.State): (r: Store.State)
    requires SelectedField(s).Some?
    ensures r.selectedFieldId.None? && SelectedField(r).None?
    ensures r.currentForm.Some? && SelectedField(s).value.id !in Ids(r.currentForm.value.fields)
    ensures Store.Valid(s) ==> Store.Valid(r) && Store.CanUndo(r)
    ensures Store.Valid(s) ==>
      Store.Recorded(s, r.(selectedFieldId := s.selectedFieldId), FormOps.DeleteField(s.currentForm.value, SelectedField(s).value.id))
  {
    Store.SelectField(Store.DeleteField(s, SelectedField(s).value.id), None)
  }

  /** The kinds whose editor shows an options list. */
  const OptionKinds: seq<FieldType> := [Dropdown, Radio, Checkbox]

  /** `["dropdown", "radio", "checkbox"].includes(type)`. */
  predicate NeedsOptions(kind: FieldType): (b: bool)
    ensures b <==> kind in OptionKinds
    ensures b ==> kind != Text && kind != Textarea && kind != Email && kind != Phone && kind != Number && kind != Date
  {
    kind == Dropdown || kind == Radio || kind == Checkbox
  }

  /** The option values, in order. */
  function Values(opts: seq<FieldOption>): (r: seq<string>)
    ensures |r| == |opts| && forall i :: 0 <= i < |opts| ==> r[i] == opts[i].value
  {
    seq(|opts|, i requires 0 <= i < |opts| => opts[i].value)
  }

  /** The option the add button creates as the `n`-th one. */
  function NumberedOption(n: nat): FieldOption {
    FieldOption("Option " + Text.NatToString(n), "option_" + Text.NatToString(n))
  }

  /** `handleAddOption` as written: the new option is numbered by the list's length + 1. */
  function AddOption(opts: Option<seq<FieldOption>>): (r: seq<FieldOption>)
    ensures |r| == |opts.GetOr([])| + 1 && r[..|r| - 1] == opts.GetOr([])
    ensures r[|r| - 1] == NumberedOption(|opts.GetOr([])| + 1)
  {
    var base := opts.GetOr([]);
    base + [NumberedOption(|base| + 1)]
  }

  /** `handleDeleteOption`: drop position `index`; an absent list becomes `[]`. */
  function DeleteOption(opts: Option<seq<FieldOption>>, index: int): (r: seq<FieldOption>)
    ensures opts.None? ==> r == []
    ensures opts.Some? && 0 <= index < |opts.value| ==>
      && |r| == |opts.value| - 1
      && (forall j :: 0 <= j < index ==> r[j] == opts.value[j])
      && (forall j :: index <= j < |r| ==> r[j] == opts.value[j + 1])
    ensures opts.Some? && !(0 <= index < |opts.value|) ==> r == opts.value
  {
    match opts
    case None => []
    case Some(xs) =>
      if 0 <= index < |xs| then
        seq(|xs| - 1, i requires 0 <= i < |xs| - 1 => if i < index then xs[i] else xs[i + 1])
      else xs
  }

  /** Deleting the option just added gives back the previous list. */
  lemma DeleteAdded(opts: Option<seq<FieldOption>>)
    ensures DeleteOption(Some(AddOption(opts)), |opts.GetOr([])|) == opts.GetOr([])
  {
  }

  /** `handleUpdateOption(index, {label, value: slug(label)})`: retype one
      option's label; its value follows the label. */
  function UpdateOption(opts: Option<seq<FieldOption>>, index: nat, typed: string): (r: seq<FieldOption>)
    requires index < |opts.GetOr([])|
    ensures |r| == |opts.GetOr([])|
    ensures forall i :: 0 <= i < |r| && i != index ==> r[i] == opts.GetOr([])[i]
    ensures r[index] == FieldOption(typed, Text.Slug(typed))
    ensures forall i :: 0 <= i < |r[index].value| ==> !Text.IsJsWhitespace(r[index].value[i])
  {
    Text.SlugShape(typed);
    opts.GetOr([])[index := FieldOption(typed, Text.Slug(typed))]
  }

  /** Retyping an option's current label again leaves a slug value as it is. */
  lemma RetypeStable(opts: Option<seq<FieldOption>>, index: nat, typed: string)
    requires index < |opts.GetOr([])|
    ensures var once := UpdateOption(opts, index, typed);
      UpdateOption(Some(once), index, once[index].value)[index].value == once[index].value
  {
    Text.SlugIdempotent(typed);
  }

  /** Two adds, deleting the first option, and another add: the list holds
      two options with the value `option_2`. */
  lemma AddOptionDuplicateValue()
    ensures var opts := AddOption(Some(DeleteOption(Some(AddOption(Some(AddOption(None)))), 0)));
      |opts| == 2 && opts[0].value == opts[1].value
  {
    var one := AddOption(None);
    var two := AddOption(Some(one));
    var left := DeleteOption(Some(two), 0);
    assert left == [NumberedOption(2)];
    var again := AddOption(Some(left));
    assert again[1] == NumberedOption(2);
  }

  /** The number an option value of the form `option_<digits>` carries, 0 otherwise. */
  function OptionNumber(v: string): nat {
    if |v| >= 7 && v[..7] == "option_" then Text.ParseDigits(v[7..]) else 0
  }

  /** The largest number carried by any of the values. */
  function MaxOptionNumber(values: seq<string>): (r: nat)
    ensures forall v :: v in values ==> OptionNumber(v) <= r
  {
    if values == [] then 0
    else
      var rest := MaxOptionNumber(values[1..]);
      assert forall v :: v in values ==> v == values[0] || v in values[1..];
      if OptionNumber(values[0]) > rest then OptionNumber(values[0]) else rest
  }

  /** A numbered value reads back as its number. */
  lemma NumberedValueNumber(n: nat)
    ensures OptionNumber(NumberedOption(n).value) == n
  {
    var v := NumberedOption(n).value;
    assert v[..7] == "option_" && v[7..] == Text.NatToString(n);
    Text.ParseNatToString(n);
  }

  /** `handleAddOption` with the numbering made collision-free: the number is
      past both the list length and every number already in use. */
  function AddOptionFresh(opts: Option<seq<FieldOption>>): (r: seq<FieldOption>)
    ensures |r| == |opts.GetOr([])| + 1 && r[..|r| - 1] == opts.GetOr([])
    ensures r[|r| - 1].value !in Values(opts.GetOr([]))
    ensures opts.GetOr([]) == [] ==> r == [NumberedOption(1)]
  {
    var base := opts.GetOr([]);
    var used := MaxOptionNumber(Values(base));
    var n := (if used > |base| then used else |base|) + 1;
    NumberedValueNumber(n);
    base + [NumberedOption(n)]
  }

  /** Options built only with the corrected add button keep distinct values. */
  lemma {:induction false} FreshKeepsValuesDistinct(opts: seq<FieldOption>)
    requires forall i, j :: 0 <= i < j < |opts| ==> opts[i].value != opts[j].value
    ensures var r := AddOptionFresh(Some(opts));
      forall i, j :: 0 <= i < j < |r| ==> r[i].value != r[j].value
  {
    var r := AddOptionFresh(Some(opts));
    forall i, j | 0 <= i < j < |r| ensures r[i].value != r[j].value {
      if j == |r| - 1 {
        assert r[i] == opts[i];
        assert opts[i].value == Values(opts)[i];
      } else {
        assert r[i] == opts[i] && r[j] == opts[j];
      }
    }
  }

  /** `handleAddOption`: the add button as written, wired through
      `handleFieldUpdate`. The local copy gains the option numbered by the
      list's length + 1, and the same list is sent to the store. */
  function HandleAddOption(s: Store.State, local: FormField): (r: (Store.State, FormField))
    requires SelectedField(s).Some?
    ensures r.1.options.Some? && |r.1.options.value| == |local.options.GetOr([])| + 1
    ensures r.1.options.value[..|local.options.GetOr([])|] == local.options.GetOr([])
    ensures r.1.options.value[|local.options.GetOr([])|] == NumberedOption(|local.options.GetOr([])| + 1)
    ensures r.1 == local.(options := r.1.options)
    ensures Store.Valid(s) ==> Store.Valid(r.0) && Store.CanUndo(r.0)
  {
    HandleFieldUpdate(s, local, EmptyFieldPatch.(options := Some(Some(AddOption(local.options)))))
  }

  /** Adding an option to an in-sync editor puts the same list in the store. */
  lemma AddOptionReachesStore(s: Store.State)
    requires Store.Valid(s) && SelectedField(s).Some?
    ensures var r := HandleAddOption(s, SelectedField(s).value);
      SelectedField(r.0) == Some(r.1)
  {
    var local := SelectedField(s).value;
    UpdateKeepsInSync(s, EmptyFieldPatch.(options := Some(Some(AddOption(local.options)))));
  }

  /** The add button with the collision-free numbering of `AddOptionFresh`:
      the new option's value is one no earlier option has. */
  function HandleAddOptionFresh(s: Store.State, local: FormField): (r: (Store.State, FormField))
    requires SelectedField(s).Some?
    ensures r.1.options.Some? && |r.1.options.value| == |local.options.GetOr([])| + 1
    ensures r.1.options.value[..|local.options.GetOr([])|] == local.options.GetOr([])
    ensures r.1.options.value[|local.options.GetOr([])|].value !in Values(local.options.GetOr([]))
    ensures Store.Valid(s) ==> Store.Valid(r.0) && Store.CanUndo(r.0)
  {
    HandleFieldUpdate(s, local, EmptyFieldPatch.(options := Some(Some(AddOptionFresh(local.options)))))
  }

  /** `{...localField.validation, <key>: …}`: an absent rule set spreads as `{}`. */
  function Rules(f: FormField): ValidationRule {
    f.validation.GetOr(NoRules)
  }

  /** The update the minimum-length input sends: an empty input clears the
      rule, otherwise the integer `parseInt` reads from it. */
  function SetMinLength(f: FormField, input: string, parseInt: string -> int): (p: FieldPatch)
    ensures p.validation.Some? && p.validation.value.Some?
    ensures var rule := p.validation.value.value;
      && rule.minLength == (if input == "" then None else Some(parseInt(input)))
      && rule.maxLength == Rules(f).maxLength && rule.pattern == Rules(f).pattern
      && rule.required == Rules(f).required && rule.message == Rules(f).message
    ensures p.(validation := None) == EmptyFieldPatch
  {
    EmptyFieldPatch.(validation := Some(Some(Rules(f).(minLength := if input == "" then None else Some(parseInt(input))))))
  }

  /** The update the maximum-length input sends. */
  function SetMaxLength(f: FormField, input: string, parseInt: string -> int): (p: FieldPatch)
    ensures p.validation.Some? && p.validation.value.Some?
    ensures var rule := p.validation.value.value;
      && rule.maxLength == (if input == "" then None else Some(parseInt(input)))
      && rule.minLength == Rules(f).minLength && rule.pattern == Rules(f).pattern
      && rule.required == Rules(f).required && rule.message == Rules(f).message
    ensures p.(validation := None) == EmptyFieldPatch
  {
    EmptyFieldPatch.(validation := Some(Some(Rules(f).(maxLength := if input == "" then None else Some(parseInt(input))))))
  }

  /** The update the pattern input sends; the text is stored as typed. */
  function SetPattern(f: FormField, input: string): (p: FieldPatch)
    ensures p.validation.Some? && p.validation.value.Some?
    ensures var rule := p.validation.value.value;
      && rule.pattern == Some(input)
      && rule.minLength == Rules(f).minLength && rule.maxLength == Rules(f).maxLength
      && rule.required == Rules(f).required && rule.message == Rules(f).message
    ensures p.(validation := None) == EmptyFieldPatch
  {
    EmptyFieldPatch.(validation := Some(Some(Rules(f).(pattern := Some(input)))))
  }

  /** A minimum length typed in the editor is enforced by the preview: a
      shorter non-empty answer is rejected with the length message. */
  lemma MinLengthEnforced(f: FormField, input: string, parseInt: string -> int, s: string,
                          matches: (string, Value) -> bool)
    requires f.required != Some(true) && input != "" && parseInt(input) > Text.Utf16Length(s) > 0
    ensures var g := ApplyFieldPatch(f, SetMinLength(f, input, parseInt));
      Validation.ValidateField(g, Str(s), matches) == Some(Validation.Message(g, Validation.TooShort(parseInt(input))))
  {
  }

  /** Clearing the pattern input switches the format check off. */
  lemma EmptyPatternNeverRejects(f: FormField, v: Value, matches: (string, Value) -> bool)
    ensures !Validation.FailsPattern(ApplyFieldPatch(f, SetPattern(f, "")), v, matches)
  {
  }
}

=== FILE: formops.dfy ===
/** The pure document edits behind the store actions: each takes the current
    form and returns the next one (or `None` where the store records nothing).
    Step field lists are resolved against `Form.fields` by id, dropping ids
    that name no field. */
module FormOps {
  import opened Wrappers
  import opened Types
  import Seqs

  lemma IdsConcat(a: seq<FormField>, b: seq<FormField>)
    ensures Ids(a + b) == Ids(a) + Ids(b)
  {
  }

  /** `fields.find(f => f.id === id)`: the first field with that id. */
  function FindField(fields: seq<FormField>, id: string): (r: Option<FormField>)
    ensures r.Some? ==> r.value in fields && r.value.id == id
    ensures r.None? <==> id !in Ids(fields)
  {
    if fields == [] then None
    else
      assert Ids(fields) == [fields[0].id] + Ids(fields[1..]);
      if fields[0].id == id then Some(fields[0]) else FindField(fields[1..], id)
  }

  /** `find` returns the field at the first position carrying the id. */
  lemma {:induction false} FindFieldFirst(fields: seq<FormField>, k: int)
    requires 0 <= k < |fields|
    requires forall j :: 0 <= j < k ==> fields[j].id != fields[k].id
    ensures FindField(fields, fields[k].id) == Some(fields[k])
  {
    if k > 0 {
      FindFieldFirst(fields[1..], k - 1);
    }
  }

  /** With unique ids, looking up a field's id finds that very field. */
  lemma FindFieldUnique(fields: seq<FormField>, k: int)
    requires UniqueIds(fields) && 0 <= k < |fields|
    ensures FindField(fields, fields[k].id) == Some(fields[k])
  {
    FindFieldFirst(fields, k);
  }

  /** The ids of `ids` that name some field, in their original order. */
  function KnownIds(ids: seq<string>, fields: seq<FormField>): (r: seq<string>)
    ensures Seqs.IsSubsequence(r, ids)
    ensures forall x :: x in r <==> x in ids && x in Ids(fields)
  {
    if ids == [] then []
    else if ids[0] in Ids(fields) then [ids[0]] + KnownIds(ids[1..], fields)
    else KnownIds(ids[1..], fields)
  }

  /** When every id names a field, nothing is dropped. */
  lemma {:induction false} KnownIdsAll(ids: seq<string>, fields: seq<FormField>)
    requires forall x :: x in ids ==> x in Ids(fields)
    ensures KnownIds(ids, fields) == ids
  {
    if ids != [] {
      KnownIdsAll(ids[1..], fields);
    }
  }

  /** One id resolved: the field it names, or nothing for a dangling id. */
  function ResolveOne(id: string, fields: seq<FormField>): (r: seq<FormField>)
    ensures |r| <= 1
    ensures forall f :: f in r ==> f in fields && f.id == id
    ensures Ids(r) == if id in Ids(fields) then [id] else []
  {
    match FindField(fields, id)
    case Some(f) => [f]
    case None => []
  }

  /** `ids.map(id => fields.find(f => f.id === id)).filter(Boolean)`:
      a step's field list resolved to field records. */
  function Resolve(ids: seq<string>, fields: seq<FormField>): (r: seq<FormField>)
    ensures |r| <= |ids|
    ensures forall f :: f in r ==> f in fields && f.id in ids
    ensures Ids(r) == KnownIds(ids, fields)
  {
    if ids == [] then []
    else
      var head := ResolveOne(ids[0], fields);
      var rest := Resolve(ids[1..], fields);
      IdsConcat(head, rest);
      head + rest
  }

  /** Resolving a run of a form's own ids gives back that run of fields when ids are unique. */
  lemma {:induction false} ResolveOwnSlice(fields: seq<FormField>, lo: int, hi: int)
    requires UniqueIds(fields) && 0 <= lo <= hi <= |fields|
    ensures Resolve(Ids(fields)[lo..hi], fields) == fields[lo..hi]
    decreases hi - lo
  {
    if lo < hi {
      var ids := Ids(fields)[lo..hi];
      Seqs.SliceCons(Ids(fields), lo, hi);
      Seqs.SliceCons(fields, lo, hi);
      FindFieldUnique(fields, lo);
      assert ResolveOne(ids[0], fields) == [fields[lo]];
      ResolveOwnSlice(fields, lo + 1, hi);
    }
  }

  /** Resolving the ids of a form's own fields gives the fields back when ids are unique. */
  lemma ResolveOwnIds(fields: seq<FormField>)
    requires UniqueIds(fields)
    ensures Resolve(Ids(fields), fields) == fields
  {
    ResolveOwnSlice(fields, 0, |fields|);
    assert Ids(fields)[0..|fields|] == Ids(fields);
    assert fields[0..|fields|] == fields;
  }

  /** Fields resolved for every step, concatenated in step order
      (the `reduce` in the single-step conversion). */
  function StepsToFields(steps: seq<FormStep>, fields: seq<FormField>): (r: seq<FormField>)
    ensures forall f :: f in r ==> f in fields && exists st :: st in steps && f.id in st.fields
  {
    if steps == [] then []
    else
      var head := Resolve(steps[0].fields, fields);
      var rest := StepsToFields(steps[1..], fields);
      assert forall f :: f in rest ==> exists st :: st in steps && f.id in st.fields by {
        forall f | f in rest ensures exists st :: st in steps && f.id in st.fields {
          var st :| st in steps[1..] && f.id in st.fields;
          assert st in steps;
        }
      }
      assert forall f :: f in head ==> steps[0] in steps && f.id in steps[0].fields;
      head + rest
  }

  /** The flattening runs in step order: one more step contributes its
      resolved fields at the end. */
  lemma {:induction false} StepsToFieldsAppend(steps: seq<FormStep>, st: FormStep, fields: seq<FormField>)
    ensures StepsToFields(steps + [st], fields) == StepsToFields(steps, fields) + Resolve(st.fields, fields)
  {
    if steps == [] {
      assert [st][1..] == [];
    } else {
      assert (steps + [st])[1..] == steps[1..] + [st];
      StepsToFieldsAppend(steps[1..], st, fields);
    }
  }

  // ---------------------------------------------------------------------
  // Field edits

  /** `[...fields, {...spec, id: newId}]`. */
  function AddField(form: Form, spec: FieldSpec, newId: string): (r: Form)
    ensures |r.fields| == |form.fields| + 1
    ensures r.fields[..|form.fields|] == form.fields
    ensures r.fields[|form.fields|] == WithId(spec, newId)
    ensures r.steps == form.steps && r.isMultiStep == form.isMultiStep
    ensures r.id == form.id && r.title == form.title && r.description == form.description
  {
    form.(fields := form.fields + [WithId(spec, newId)])
  }

  /** `fields.map(f => f.id === id ? {...f, ...patch} : f)`. */
  function UpdateFields(fields: seq<FormField>, id: string, patch: FieldPatch): (r: seq<FormField>)
    ensures |r| == |fields|
    ensures forall i :: 0 <= i < |fields| && fields[i].id != id ==> r[i] == fields[i]
    ensures forall i :: 0 <= i < |fields| && fields[i].id == id ==> r[i] == ApplyFieldPatch(fields[i], patch)
  {
    seq(|fields|, i requires 0 <= i < |fields| => if fields[i].id == id then ApplyFieldPatch(fields[i], patch) else fields[i])
  }

  /** `updateField`: the patch merged into every field carrying the id. */
  function UpdateField(form: Form, id: string, patch: FieldPatch): (r: Form)
    ensures |r.fields| == |form.fields|
    ensures forall i :: 0 <= i < |form.fields| && form.fields[i].id == id ==>
      r.fields[i] == ApplyFieldPatch(form.fields[i], patch)
    ensures forall i :: 0 <= i < |form.fields| && form.fields[i].id != id ==> r.fields[i] == form.fields[i]
    ensures r.id == form.id && r.title == form.title && r.description == form.description
    ensures r.steps == form.steps && r.isMultiStep == form.isMultiStep
    ensures id !in Ids(form.fields) ==> r == form
  {
    var fs := UpdateFields(form.fields, id, patch);
    assert id !in Ids(form.fields) ==> fs == form.fields;
    form.(fields := fs)
  }

  /** After an update that keeps ids, looking the id up finds the patched first field. */
  lemma {:induction false} UpdateFieldsFind(fields: seq<FormField>, id: string, patch: FieldPatch)
    requires patch.id.None? || patch.id == Some(id)
    ensures FindField(UpdateFields(fields, id, patch), id) ==
            (match FindField(fields, id) case Some(f) => Some(ApplyFieldPatch(f, patch)) case None => None)
  {
    if fields != [] {
      assert UpdateFields(fields, id, patch)[1..] == UpdateFields(fields[1..], id, patch);
      UpdateFieldsFind(fields[1..], id, patch);
    }
  }

  /** `fields.filter(f => f.id !== id)`. */
  function RemoveField(fields: seq<FormField>, id: string): (r: seq<FormField>)
    ensures id !in Ids(r)
    ensures forall f :: f in r <==> f in fields && f.id != id
    ensures Seqs.IsSubsequence(r, fields)
    ensures forall x :: multiset(r)[x] == if x.id == id then 0 else multiset(fields)[x]
  {
    if fields == [] then []
    else if fields[0].id == id then
      assert fields == [fields[0]] + fields[1..];
      RemoveField(fields[1..], id)
    else
      IdsConcat([fields[0]], RemoveField(fields[1..], id));
      assert fields == [fields[0]] + fields[1..];
      [fields[0]] + RemoveField(fields[1..], id)
  }

  lemma {:induction false} RemoveFieldAbsent(fields: seq<FormField>, id: string)
    requires id !in Ids(fields)
    ensures RemoveField(fields, id) == fields
  {
    if fields != [] {
      assert Ids(fields) == [fields[0].id] + Ids(fields[1..]);
      RemoveFieldAbsent(fields[1..], id);
    }
  }

  /** Every step with the id taken out of its field list. */
  function RemoveIdFromSteps(steps: seq<FormStep>, id: string): (r: seq<FormStep>)
    ensures |r| == |steps|
    ensures forall i :: 0 <= i < |steps| ==>
      && r[i].id == steps[i].id && r[i].title == steps[i].title && r[i].description == steps[i].description
      && r[i].fields == Seqs.Without(steps[i].fields, id)
  {
    seq(|steps|, i requires 0 <= i < |steps| => steps[i].(fields := Seqs.Without(steps[i].fields, id)))
  }

  /** Deletion with cascade: the field leaves `fields` and every step's list. */
  function DeleteField(form: Form, id: string): (r: Form)
    ensures id !in Ids(r.fields)
    ensures forall f :: f in r.fields <==> f in form.fields && f.id != id
    ensures Seqs.IsSubsequence(r.fields, form.fields)
    ensures forall x :: multiset(r.fields)[x] == if x.id == id then 0 else multiset(form.fields)[x]
    ensures |r.steps| == |form.steps|
    ensures forall i :: 0 <= i < |r.steps| ==>
      && r.steps[i].id == form.steps[i].id && r.steps[i].title == form.steps[i].title
      && r.steps[i].description == form.steps[i].description
      && multiset(r.steps[i].fields) == multiset(form.steps[i].fields)[id := 0]
      && Seqs.IsSubsequence(r.steps[i].fields, form.steps[i].fields)
    ensures r.isMultiStep == form.isMultiStep
    ensures r.id == form.id && r.title == form.title && r.description == form.description
  {
    form.(fields := RemoveField(form.fields, id), steps := RemoveIdFromSteps(form.steps, id))
  }

  /** Adding a field with a fresh id and deleting it again restores the form. */
  lemma AddThenDeleteField(form: Form, spec: FieldSpec, newId: string)
    requires newId !in Ids(form.fields)
    requires forall st :: st in form.steps ==> newId !in st.fields
    ensures DeleteField(AddField(form, spec, newId), newId) == form
  {
    var added := AddField(form, spec, newId);
    assert added.fields == form.fields + [WithId(spec, newId)];
    assert RemoveField(added.fields, newId) == form.fields by {
      assert added.fields == [added.fields[0]] + added.fields[1..] || form.fields == [];
      RemoveFieldAppend(form.fields, WithId(spec, newId), newId);
      RemoveFieldAbsent(form.fields, newId);
    }
    var steps := RemoveIdFromSteps(form.steps, newId);
    forall i | 0 <= i < |steps| ensures steps[i] == form.steps[i] {
      assert form.steps[i] in form.steps;
      Seqs.WithoutAbsent(form.steps[i].fields, newId);
    }
  }

  lemma {:induction false} RemoveFieldAppend(fields: seq<FormField>, x: FormField, id: string)
    requires x.id == id
    ensures RemoveField(fields + [x], id) == RemoveField(fields, id)
  {
    if fields == [] {
      assert [x][1..] == [];
    } else {
      assert (fields + [x])[1..] == fields[1..] + [x];
      RemoveFieldAppend(fields[1..], x, id);
    }
  }

  // ---------------------------------------------------------------------
  // Reordering

  /** The indices `reorderFields` needs in order not to splice in `undefined`:
      `from` must name an element of every list being reordered. */
  predicate ReorderAllowed(form: Form, from: nat, stepId: Option<string>) {
    if IsStepTarget(stepId) then
      forall st :: st in form.steps && st.id == stepId.value ==> from < |st.fields|
    else from < |form.fields|
  }

  /** `if (stepId)`: a missing or empty step id means the flat field list. */
  predicate IsStepTarget(stepId: Option<string>) {
    stepId.Some? && stepId.value != ""
  }

  function MoveInStep(st: FormStep, sid: string, from: nat, to: nat): (r: FormStep)
    requires st.id == sid ==> from < |st.fields|
  {
    if st.id == sid then st.(fields := Seqs.Move(st.fields, from, to)) else st
  }

  /** Splice-move of one entry, inside the named step(s) or in `fields`. */
  function ReorderFields(form: Form, from: nat, to: nat, stepId: Option<string>): (r: Form)
    requires ReorderAllowed(form, from, stepId)
    ensures IsStepTarget(stepId) ==>
      && r.fields == form.fields
      && r.steps == MoveInSteps(form.steps, stepId.value, from, to)
    ensures !IsStepTarget(stepId) ==>
      && r.steps == form.steps
      && r.fields == Seqs.Move(form.fields, from, to)
    ensures r.id == form.id && r.title == form.title && r.description == form.description
    ensures r.isMultiStep == form.isMultiStep
  {
    if IsStepTarget(stepId) then form.(steps := MoveInSteps(form.steps, stepId.value, from, to))
    else form.(fields := Seqs.Move(form.fields, from, to))
  }

  /** `currentForm.steps.map(...)`: the move applied to every step with the id. */
  function MoveInSteps(steps: seq<FormStep>, sid: string, from: nat, to: nat): (r: seq<FormStep>)
    requires forall st :: st in steps && st.id == sid ==> from < |st.fields|
    ensures |r| == |steps|
    ensures forall i :: 0 <= i < |steps| && steps[i].id != sid ==> r[i] == steps[i]
    ensures forall i :: 0 <= i < |steps| && steps[i].id == sid ==>
      && r[i] == steps[i].(fields := Seqs.Move(steps[i].fields, from, to))
      && multiset(r[i].fields) == multiset(steps[i].fields)
    ensures (forall i :: 0 <= i < |steps| && steps[i].id == sid ==> Seqs.SpliceIndex(to, |steps[i].fields| - 1) == from) ==> r == steps
  {
    seq(|steps|, i requires 0 <= i < |steps| =>
      assert steps[i] in steps;
      MoveInStep(steps[i], sid, from, to))
  }

  /** Reordering an entry onto its own place changes nothing. */
  lemma ReorderSamePlace(form: Form, i: nat, stepId: Option<string>)
    requires ReorderAllowed(form, i, stepId)
    ensures ReorderFields(form, i, i, stepId) == form
  {
  }

  /** Dragging an entry back to where it came from undoes a flat reorder. */
  lemma ReorderInverse(form: Form, from: nat, to: nat)
    requires from < |form.fields|
    ensures ReorderAllowed(ReorderFields(form, from, to, None), Seqs.SpliceIndex(to, |form.fields| - 1), None)
    ensures ReorderFields(ReorderFields(form, from, to, None), Seqs.SpliceIndex(to, |form.fields| - 1), from, None) == form
  {
    Seqs.MoveInverse(form.fields, from, to);
  }

  /** Dragging an entry back to where it came from undoes a reorder inside a
      step (every step carrying the id lists `n` ids). */
  lemma ReorderInverseInStep(form: Form, sid: string, n: nat, from: nat, to: nat)
    requires sid != "" && from < n
    requires forall st :: st in form.steps && st.id == sid ==> |st.fields| == n
    ensures ReorderAllowed(ReorderFields(form, from, to, Some(sid)), Seqs.SpliceIndex(to, n - 1), Some(sid))
    ensures ReorderFields(ReorderFields(form, from, to, Some(sid)), Seqs.SpliceIndex(to, n - 1), from, Some(sid)) == form
  {
    MoveInStepsInverse(form.steps, sid, n, from, to);
  }

  /** The step-list half of `ReorderInverseInStep`. */
  lemma MoveInStepsInverse(steps: seq<FormStep>, sid: string, n: nat, from: nat, to: nat)
    requires from < n
    requires forall st :: st in steps && st.id == sid ==> |st.fields| == n
    ensures var m := MoveInSteps(steps, sid, from, to);
      && (forall st :: st in m && st.id == sid ==> Seqs.SpliceIndex(to, n - 1) < |st.fields|)
      && MoveInSteps(m, sid, Seqs.SpliceIndex(to, n - 1), from) == steps
  {
    var t := Seqs.SpliceIndex(to, n - 1);
    var m := MoveInSteps(steps, sid, from, to);
    MoveInStepsKeepsLengths(steps, sid, n, from, to);
    var h := MoveInSteps(m, sid, t, from);
    forall i | 0 <= i < |steps| ensures h[i] == steps[i] {
      assert steps[i] in steps;
      MoveInStepsAt(steps, sid, from, to, i);
      assert m[i] in m;
      MoveInStepsAt(m, sid, t, from, i);
      MoveInStepInverse(steps[i], sid, n, from, to);
    }
  }

  /** Position `i` of the moved steps is step `i` moved on its own. */
  lemma MoveInStepsAt(steps: seq<FormStep>, sid: string, from: nat, to: nat, i: int)
    requires forall st :: st in steps && st.id == sid ==> from < |st.fields|
    requires 0 <= i < |steps|
    ensures steps[i].id == sid ==> from < |steps[i].fields|
    ensures MoveInSteps(steps, sid, from, to)[i] == MoveInStep(steps[i], sid, from, to)
  {
    assert steps[i] in steps;
  }

  /** Moving an entry inside one step and back restores the step. */
  lemma MoveInStepInverse(st: FormStep, sid: string, n: nat, from: nat, to: nat)
    requires from < n && (st.id == sid ==> |st.fields| == n)
    ensures var m := MoveInStep(st, sid, from, to);
      && (m.id == sid ==> Seqs.SpliceIndex(to, n - 1) < |m.fields|)
      && MoveInStep(m, sid, Seqs.SpliceIndex(to, n - 1), from) == st
  {
    if st.id == sid {
      var mf := Seqs.Move(st.fields, from, to);
      assert MoveInStep(st, sid, from, to) == st.(fields := mf);
      Seqs.MoveInverse(st.fields, from, to);
      assert Seqs.Move(mf, Seqs.SpliceIndex(to, n - 1), from) == st.fields;
    } else {
      assert MoveInStep(st, sid, from, to) == st;
    }
  }

  /** A move inside the steps keeps the length of every step's list. */
  lemma MoveInStepsKeepsLengths(steps: seq<FormStep>, sid: string, n: nat, from: nat, to: nat)
    requires from < n
    requires forall st :: st in steps && st.id == sid ==> |st.fields| == n
    ensures forall st :: st in MoveInSteps(steps, sid, from, to) && st.id == sid ==> |st.fields| == n
  {
    var m := MoveInSteps(steps, sid, from, to);
    forall st | st in m && st.id == sid ensures |st.fields| == n {
      var i :| 0 <= i < |m| && m[i] == st;
      assert steps[i] in steps;
    }
  }


  // ---------------------------------------------------------------------
  // Step edits

  /** A new empty step appended; the form becomes multi-step. */
  function AddStep(form: Form, title: string, newId: string): (r: Form)
    ensures r.steps == form.steps + [FormStep(newId, title, None, [])]
    ensures r.isMultiStep && r.fields == form.fields
    ensures r.id == form.id && r.title == form.title && r.description == form.description
  {
    form.(steps := form.steps + [FormStep(newId, title, None, [])], isMultiStep := true)
  }

  /** `steps.map(s => s.id === id ? {...s, ...patch} : s)`. */
  function UpdateSteps(steps: seq<FormStep>, id: string, patch: StepPatch): (r: seq<FormStep>)
    ensures |r| == |steps|
    ensures forall i :: 0 <= i < |steps| && steps[i].id != id ==> r[i] == steps[i]
    ensures forall i :: 0 <= i < |steps| && steps[i].id == id ==> r[i] == ApplyStepPatch(steps[i], patch)
  {
    seq(|steps|, i requires 0 <= i < |steps| => if steps[i].id == id then ApplyStepPatch(steps[i], patch) else steps[i])
  }

  /** `updateStep`: the patch merged into every step carrying the id. */
  function UpdateStep(form: Form, stepId: string, patch: StepPatch): (r: Form)
    ensures r.fields == form.fields && |r.steps| == |form.steps|
    ensures forall i :: 0 <= i < |form.steps| && form.steps[i].id == stepId ==>
      r.steps[i] == ApplyStepPatch(form.steps[i], patch)
    ensures forall i :: 0 <= i < |form.steps| && form.steps[i].id != stepId ==> r.steps[i] == form.steps[i]
    ensures r.id == form.id && r.title == form.title && r.description == form.description
    ensures r.isMultiStep == form.isMultiStep
    ensures (forall st :: st in form.steps ==> st.id != stepId) ==> r == form
  {
    var steps := UpdateSteps(form.steps, stepId, patch);
    assert (forall st :: st in form.steps ==> st.id != stepId) ==> steps == form.steps by {
      if forall st :: st in form.steps ==> st.id != stepId {
        forall i | 0 <= i < |form.steps| ensures steps[i] == form.steps[i] {
          assert form.steps[i] in form.steps;
        }
      }
    }
    form.(steps := steps)
  }

  /** `steps.find(s => s.id === id)`. */
  function FindStep(steps: seq<FormStep>, id: string): (r: Option<FormStep>)
    ensures r.Some? ==> r.value in steps && r.value.id == id
    ensures r.None? <==> forall st :: st in steps ==> st.id != id
  {
    if steps == [] then None
    else if steps[0].id == id then Some(steps[0])
    else
      assert forall st :: st in steps ==> st == steps[0] || st in steps[1..];
      FindStep(steps[1..], id)
  }

  /** `find` returns the step at the first position carrying the id. */
  lemma {:induction false} FindStepFirst(steps: seq<FormStep>, k: int)
    requires 0 <= k < |steps|
    requires forall j :: 0 <= j < k ==> steps[j].id != steps[k].id
    ensures FindStep(steps, steps[k].id) == Some(steps[k])
  {
    if k > 0 {
      FindStepFirst(steps[1..], k - 1);
    }
  }

  /** After an update that keeps ids, looking the id up finds the patched first step. */
  lemma {:induction false} UpdateStepsFind(steps: seq<FormStep>, id: string, patch: StepPatch)
    requires patch.id.None? || patch.id == Some(id)
    ensures FindStep(UpdateSteps(steps, id, patch), id) ==
            (match FindStep(steps, id) case Some(st) => Some(ApplyStepPatch(st, patch)) case None => None)
  {
    if steps != [] {
      assert UpdateSteps(steps, id, patch)[1..] == UpdateSteps(steps[1..], id, patch);
      UpdateStepsFind(steps[1..], id, patch);
    }
  }

  /** `steps.filter(s => s.id !== id)`. */
  function RemoveStep(steps: seq<FormStep>, id: string): (r: seq<FormStep>)
    ensures forall st :: st in r <==> st in steps && st.id != id
    ensures Seqs.IsSubsequence(r, steps)
    ensures forall x :: multiset(r)[x] == if x.id == id then 0 else multiset(steps)[x]
  {
    if steps == [] then []
    else if steps[0].id == id then
      assert steps == [steps[0]] + steps[1..];
      RemoveStep(steps[1..], id)
    else
      assert steps == [steps[0]] + steps[1..];
      [steps[0]] + RemoveStep(steps[1..], id)
  }

  lemma {:induction false} RemoveStepAbsent(steps: seq<FormStep>, id: string)
    requires forall st :: st in steps ==> st.id != id
    ensures RemoveStep(steps, id) == steps
  {
    if steps != [] {
      assert steps[0] in steps;
      assert forall st :: st in steps[1..] ==> st in steps;
      RemoveStepAbsent(steps[1..], id);
    }
  }

  /** `deleteStep`: `None` (no snapshot) when no step has the id; otherwise the
      step is dropped and its resolved fields are appended to `fields` again,
      so they occur twice. */
  function DeleteStep(form: Form, stepId: string): (r: Option<Form>)
    ensures r.None? <==> forall st :: st in form.steps ==> st.id != stepId
    ensures r.Some? ==>
      && (forall st :: st in r.value.steps <==> st in form.steps && st.id != stepId)
      && Seqs.IsSubsequence(r.value.steps, form.steps)
      && r.value.isMultiStep == (|r.value.steps| > 0)
      && r.value.id == form.id && r.value.title == form.title && r.value.description == form.description
    ensures r.Some? ==>
      && FindStep(form.steps, stepId).Some?
      && r.value.fields == form.fields + Resolve(FindStep(form.steps, stepId).value.fields, form.fields)
      && forall x :: multiset(r.value.steps)[x] == if x.id == stepId then 0 else multiset(form.steps)[x]
  {
    match FindStep(form.steps, stepId)
    case None => None
    case Some(st) =>
      var steps := RemoveStep(form.steps, stepId);
      Some(form.(fields := form.fields + Resolve(st.fields, form.fields), steps := steps, isMultiStep := |steps| > 0))
  }

  /** A deleted step's fields end up in `fields` twice. */
  lemma DeleteStepDuplicates(form: Form, stepId: string, f: FormField)
    requires DeleteStep(form, stepId).Some?
    requires FindStep(form.steps, stepId).Some?
    requires f in Resolve(FindStep(form.steps, stepId).value.fields, form.fields)
    ensures multiset(DeleteStep(form, stepId).value.fields)[f] >= multiset(form.fields)[f] + 1 >= 2
  {
    var extra := Resolve(FindStep(form.steps, stepId).value.fields, form.fields);
    var r := DeleteStep(form, stepId).value.fields;
    assert r == form.fields + extra;
    assert multiset(r) == multiset(form.fields) + multiset(extra);
    assert multiset(extra)[f] >= 1;
    assert f in form.fields;
    assert multiset(form.fields)[f] >= 1;
  }

  /** Deleting a step whose list resolves to at least one field leaves two
      fields with the same id, so field ids are no longer unique. */
  lemma DeleteStepBreaksUniqueIds(form: Form, stepId: string)
    requires FindStep(form.steps, stepId).Some?
    requires Resolve(FindStep(form.steps, stepId).value.fields, form.fields) != []
    ensures !UniqueIds(DeleteStep(form, stepId).value.fields)
  {
    var extra := Resolve(FindStep(form.steps, stepId).value.fields, form.fields);
    var r := DeleteStep(form, stepId).value.fields;
    assert r == form.fields + extra;
    assert extra[0] in extra;
    var i :| 0 <= i < |form.fields| && form.fields[i] == extra[0];
    assert r[i] == extra[0] && r[|form.fields|] == extra[0];
  }

  /** `deleteStep` with the step's fields left where they already are: the
      step is dropped and `fields` is unchanged, since every field a step
      lists already belongs to the form. */
  function DeleteStepIntended(form: Form, stepId: string): (r: Option<Form>)
    ensures r.None? <==> forall st :: st in form.steps ==> st.id != stepId
    ensures r.Some? ==>
      && r.value.fields == form.fields
      && (forall x :: multiset(r.value.steps)[x] == if x.id == stepId then 0 else multiset(form.steps)[x])
      && Seqs.IsSubsequence(r.value.steps, form.steps)
      && r.value.isMultiStep == (|r.value.steps| > 0)
      && r.value.id == form.id && r.value.title == form.title && r.value.description == form.description
  {
    match FindStep(form.steps, stepId)
    case None => None
    case Some(_) =>
      var steps := RemoveStep(form.steps, stepId);
      Some(form.(steps := steps, isMultiStep := |steps| > 0))
  }

  /** The corrected deletion keeps unique field ids unique, and differs from
      the code only in the re-appended fields. */
  lemma DeleteStepIntendedKeepsUniqueIds(form: Form, stepId: string)
    requires UniqueIds(form.fields)
    ensures DeleteStepIntended(form, stepId).Some? ==> UniqueIds(DeleteStepIntended(form, stepId).value.fields)
    ensures DeleteStep(form, stepId).Some? ==>
      DeleteStepIntended(form, stepId) == Some(DeleteStep(form, stepId).value.(fields := form.fields))
  {
  }

  /** Adding a step with a fresh id and deleting it restores the steps and fields. */
  lemma AddThenDeleteStep(form: Form, title: string, newId: string)
    requires forall st :: st in form.steps ==> st.id != newId
    ensures DeleteStep(AddStep(form, title, newId), newId) == Some(form.(isMultiStep := |form.steps| > 0))
  {
    var added := AddStep(form, title, newId);
    var newStep := FormStep(newId, title, None, []);
    FindStepAppend(form.steps, newStep);
    RemoveAppendedStep(form.steps, newStep);
    assert form.fields + Resolve([], form.fields) == form.fields;
    DeleteFoundStep(added, newId, newStep, form.steps);
  }

  /** Removing a freshly appended step restores the list. */
  lemma RemoveAppendedStep(steps: seq<FormStep>, st: FormStep)
    requires forall s :: s in steps ==> s.id != st.id
    ensures RemoveStep(steps + [st], st.id) == steps
  {
    RemoveStepAppend(steps, st);
    RemoveStepAbsent(steps, st.id);
  }

  /** `deleteStep` once the step `find` returns and the remaining steps are
      known. */
  lemma DeleteFoundStep(form: Form, stepId: string, st: FormStep, steps: seq<FormStep>)
    requires FindStep(form.steps, stepId) == Some(st)
    requires RemoveStep(form.steps, stepId) == steps
    ensures DeleteStep(form, stepId) == Some(form.(fields := form.fields + Resolve(st.fields, form.fields), steps := steps, isMultiStep := |steps| > 0))
  {
  }

  lemma {:induction false} FindStepAppend(steps: seq<FormStep>, st: FormStep)
    requires forall s :: s in steps ==> s.id != st.id
    ensures FindStep(steps + [st], st.id) == Some(st)
  {
    if steps == [] {
    } else {
      assert steps[0] in steps;
      assert (steps + [st])[1..] == steps[1..] + [st];
      assert forall s :: s in steps[1..] ==> s in steps;
      FindStepAppend(steps[1..], st);
    }
  }

  lemma {:induction false} RemoveStepAppend(steps: seq<FormStep>, st: FormStep)
    ensures RemoveStep(steps + [st], st.id) == RemoveStep(steps, st.id)
  {
    if steps == [] {
      assert [st][1..] == [];
    } else {
      assert (steps + [st])[1..] == steps[1..] + [st];
      RemoveStepAppend(steps[1..], st);
    }
  }

  /** The title of the step created when a single-step form becomes multi-step. */
  const FirstStepTitle := "Step 1"

  /** `toggleMultiStep`: multi to single rebuilds `fields` from the steps (dropping
      unreferenced fields and dangling ids); single to multi puts every field in
      one step; an empty single-step form is left alone (`None`, no snapshot). */
  function ToggleMultiStep(form: Form, newId: string): (r: Option<Form>)
    ensures r.None? <==> !form.isMultiStep && form.fields == []
    ensures r.Some? && form.isMultiStep ==>
      && r.value.fields == StepsToFields(form.steps, form.fields)
      && r.value.steps == [] && !r.value.isMultiStep
    ensures r.Some? && !form.isMultiStep ==>
      && r.value.fields == form.fields && r.value.isMultiStep
      && r.value.steps == [FormStep(newId, FirstStepTitle, None, Ids(form.fields))]
    ensures r.Some? ==> r.value.id == form.id && r.value.title == form.title && r.value.description == form.description
  {
    if form.isMultiStep then
      Some(form.(fields := StepsToFields(form.steps, form.fields), steps := [], isMultiStep := false))
    else if |form.fields| > 0 then
      Some(form.(steps := [FormStep(newId, FirstStepTitle, None, Ids(form.fields))], isMultiStep := true))
    else None
  }

  /** Single to multi and back is lossless when field ids are unique: the
      fields come back in their order and the steps are cleared. */
  lemma ToggleRoundTrip(form: Form, id1: string, id2: string)
    requires !form.isMultiStep && form.fields != [] && UniqueIds(form.fields)
    ensures ToggleMultiStep(form, id1).Some?
    ensures ToggleMultiStep(ToggleMultiStep(form, id1).value, id2) == Some(form.(steps := []))
  {
    var m := ToggleMultiStep(form, id1).value;
    var only := FormStep(id1, FirstStepTitle, None, Ids(form.fields));
    assert m == form.(steps := [only], isMultiStep := true);
    StepsToFieldsSingle(only, form.fields);
    ResolveOwnIds(form.fields);
  }

  lemma StepsToFieldsSingle(st: FormStep, fields: seq<FormField>)
    ensures StepsToFields([st], fields) == Resolve(st.fields, fields)
  {
    assert [st][1..] == [];
  }

  /** Multi to single loses every field that no step lists. */
  lemma ToggleDropsUnreferenced(form: Form, newId: string, f: FormField)
    requires form.isMultiStep
    requires forall st :: st in form.steps ==> f.id !in st.fields
    ensures f !in ToggleMultiStep(form, newId).value.fields
  {
  }
}

=== FILE: gallery.dfy ===
/** The template gallery: the three built-in templates, the list shown
    (built-in first, then the user's saved ones), the search over it and the
    "Featured" badge. */
module Gallery {
  import opened Wrappers
  import opened Types
  import Text
  import Seqs
  import FormOps
  import Store
  import Preview

  /** A template field: no help text, no rules, no step tag. */
  function TemplateField(id: string, kind: FieldType, labelText: string, placeholder: Option<string>,
                         required: Option<bool>, options: Option<seq<FieldOption>>): (f: FormField)
    ensures f.id == id && f.kind == kind && f.required == required && f.validation.None?
  {
    FormField(id, kind, labelText, placeholder, None, required, None, options, None)
  }

  const JobFields: seq<FormField> := [
    TemplateField("full_name", Text, "Full Name", Some("Enter your full name"), Some(true), None),
    TemplateField("email", Email, "Email Address", Some("your.email@example.com"), Some(true), None),
    TemplateField("phone", Phone, "Phone Number", Some("+1 (555) 123-4567"), Some(true), None),
    TemplateField("position", Dropdown, "Position Applied For", None, Some(true), Some([
      FieldOption("Frontend Developer", "frontend"),
      FieldOption("Backend Developer", "backend"),
      FieldOption("Full Stack Developer", "fullstack"),
      FieldOption("UI/UX Designer", "designer"),
      FieldOption("Product Manager", "pm")])),
    TemplateField("experience", Radio, "Years of Experience", None, Some(true), Some([
      FieldOption("0-1 years", "0-1"),
      FieldOption("2-3 years", "2-3"),
      FieldOption("4-5 years", "4-5"),
      FieldOption("6+ years", "6+")])),
    TemplateField("skills", Checkbox, "Technical Skills", None, None, Some([
      FieldOption("JavaScript", "javascript"),
      FieldOption("React", "react"),
      FieldOption("Node.js", "nodejs"),
      FieldOption("Python", "python"),
      FieldOption("SQL", "sql"),
      FieldOption("AWS", "aws")])),
    TemplateField("cover_letter", Textarea, "Cover Letter",
      Some("Tell us why you're interested in this position..."), Some(true), None)
  ]

  const JobSteps: seq<FormStep> := [
    FormStep("personal", "Personal Information", None, ["full_name", "email", "phone"]),
    FormStep("professional", "Professional Details", None, ["position", "experience", "skills"]),
    FormStep("application", "Application", None, ["cover_letter"])
  ]

  const JobApplication := FormTemplate(
    "job-application",
    "Job Application Form",
    "Comprehensive job application with personal info, experience, and file uploads",
    FormShape(
      "Job Application",
      Some("Apply for a position at our company"),
      JobFields,
      JobSteps,
      true))

  const EventFields: seq<FormField> := [
    TemplateField("attendee_name", Text, "Attendee Name", Some("Full name"), Some(true), None),
    TemplateField("company", Text, "Company/Organization", Some("Your company name"), None, None),
    TemplateField("email", Email, "Email Address", Some("your.email@example.com"), Some(true), None),
    TemplateField("ticket_type", Radio, "Ticket Type", None, Some(true), Some([
      FieldOption("Early Bird - $299", "early_bird"),
      FieldOption("Regular - $399", "regular"),
      FieldOption("Student - $99", "student"),
      FieldOption("VIP - $599", "vip")])),
    TemplateField("sessions", Checkbox, "Sessions of Interest", None, None, Some([
      FieldOption("Keynote Presentations", "keynote"),
      FieldOption("Technical Workshops", "workshops"),
      FieldOption("Networking Sessions", "networking"),
      FieldOption("Panel Discussions", "panels")])),
    TemplateField("dietary", Dropdown, "Dietary Restrictions", None, None, Some([
      FieldOption("None", "none"),
      FieldOption("Vegetarian", "vegetarian"),
      FieldOption("Vegan", "vegan"),
      FieldOption("Gluten-free", "gluten_free"),
      FieldOption("Other", "other")])),
    TemplateField("special_requests", Textarea, "Special Requests",
      Some("Any special accommodations needed?"), None, None)
  ]

  const EventRegistration := FormTemplate(
    "event-registration",
    "Event Registration",
    "Event registration form with attendee details and preferences",
    FormShape(
      "Event Registration",
      Some("Register for our upcoming conference"),
      EventFields,
      [],
      false))

  const SurveyFields: seq<FormField> := [
    TemplateField("product_used", Dropdown, "Which product did you use?", None, Some(true), Some([
      FieldOption("Mobile App", "mobile_app"),
      FieldOption("Web Platform", "web_platform"),
      FieldOption("Desktop Software", "desktop"),
      FieldOption("API Service", "api")])),
    TemplateField("usage_frequency", Radio, "How often do you use our product?", None, Some(true), Some([
      FieldOption("Daily", "daily"),
      FieldOption("Weekly", "weekly"),
      FieldOption("Monthly", "monthly"),
      FieldOption("Rarely", "rarely")])),
    TemplateField("satisfaction", Radio, "Overall Satisfaction", None, Some(true), Some([
      FieldOption("Very Satisfied", "very_satisfied"),
      FieldOption("Satisfied", "satisfied"),
      FieldOption("Neutral", "neutral"),
      FieldOption("Dissatisfied", "dissatisfied"),
      FieldOption("Very Dissatisfied", "very_dissatisfied")])),
    TemplateField("features_liked", Checkbox, "Which features do you like most?", None, None, Some([
      FieldOption("User Interface", "ui"),
      FieldOption("Performance", "performance"),
      FieldOption("Reliability", "reliability"),
      FieldOption("Customer Support", "support"),
      FieldOption("Documentation", "docs")])),
    TemplateField("improvements", Textarea, "What improvements would you suggest?",
      Some("Share your ideas for making our product better..."), None, None),
    TemplateField("recommend", Radio, "Would you recommend us to others?", None, Some(true), Some([
      FieldOption("Definitely", "definitely"),
      FieldOption("Probably", "probably"),
      FieldOption("Not sure", "not_sure"),
      FieldOption("Probably not", "probably_not"),
      FieldOption("Definitely not", "definitely_not")]))
  ]

  const FeedbackSurvey := FormTemplate(
    "feedback-survey",
    "Product Feedback Survey",
    "Detailed product feedback form with ratings and suggestions",
    FormShape(
      "Product Feedback Survey",
      Some("Help us improve our product with your valuable feedback"),
      SurveyFields,
      [],
      false))

  const Featured: seq<FormTemplate> := [JobApplication, EventRegistration, FeedbackSurvey]

  /** `[...featuredTemplates, ...userTemplates]`. */
  function AllTemplates(user: seq<FormTemplate>): (r: seq<FormTemplate>)
    ensures |r| == |Featured| + |user| && r[..|Featured|] == Featured && r[|Featured|..] == user
  {
    Featured + user
  }

  /** The "Featured" badge: a built-in template has the same id. */
  predicate IsFeatured(t: FormTemplate) {
    exists f :: f in Featured && f.id == t.id
  }

  /** Every built-in template carries the badge; a user template does exactly
      when its id coincides with a built-in one. */
  lemma FeaturedBadge(t: FormTemplate)
    ensures t in Featured ==> IsFeatured(t)
    ensures IsFeatured(t) <==> t.id in ["job-application", "event-registration", "feedback-survey"]
  {
    assert Featured[0].id == "job-application" && Featured[1].id == "event-registration" && Featured[2].id == "feedback-survey";
    if t.id == "job-application" {
      assert Featured[0] in Featured;
    } else if t.id == "event-registration" {
      assert Featured[1] in Featured;
    } else if t.id == "feedback-survey" {
      assert Featured[2] in Featured;
    }
  }

  /** Case-insensitive search on the name or the description. */
  predicate MatchesSearch(t: FormTemplate, term: string) {
    Text.Contains(Text.Lower(t.name), Text.Lower(term))
    || Text.Contains(Text.Lower(t.description), Text.Lower(term))
  }

  /** `allTemplates.filter(...)`. */
  function SearchTemplates(ts: seq<FormTemplate>, term: string): (r: seq<FormTemplate>)
    ensures forall t :: t in r <==> t in ts && MatchesSearch(t, term)
    ensures Seqs.IsSubsequence(r, ts)
    ensures |r| <= |ts|
  {
    if ts == [] then []
    else
      var rest := SearchTemplates(ts[1..], term);
      assert forall t :: t in ts <==> t == ts[0] || t in ts[1..];
      if MatchesSearch(ts[0], term) then [ts[0]] + rest else rest
  }

  /** An empty search lists every template in order. */
  lemma {:induction false} EmptySearchListsAll(ts: seq<FormTemplate>)
    ensures SearchTemplates(ts, "") == ts
  {
    if ts != [] {
      Text.ContainsEmpty(Text.Lower(ts[0].name));
      EmptySearchListsAll(ts[1..]);
    }
  }

  /** Every id a step lists names a field of the form. */
  predicate StepsResolve(shape: FormShape) {
    forall st :: st in shape.steps ==> forall id :: id in st.fields ==> id in Ids(shape.fields)
  }

  /** The field ids of the built-in templates, in order. */
  lemma FeaturedIds()
    ensures Ids(JobFields) == ["full_name", "email", "phone", "position", "experience", "skills", "cover_letter"]
    ensures Ids(EventFields) == ["attendee_name", "company", "email", "ticket_type", "sessions", "dietary", "special_requests"]
    ensures Ids(SurveyFields) == ["product_used", "usage_frequency", "satisfaction", "features_liked", "improvements", "recommend"]
  {
  }

  lemma JobFieldsUnique()
    ensures UniqueIds(JobFields)
  {
    FeaturedIds();
    assert forall i :: 0 <= i < |JobFields| ==> JobFields[i].id == Ids(JobFields)[i];
  }

  lemma EventFieldsUnique()
    ensures UniqueIds(EventFields)
  {
    FeaturedIds();
    assert forall i :: 0 <= i < |EventFields| ==> EventFields[i].id == Ids(EventFields)[i];
  }

  lemma SurveyFieldsUnique()
    ensures UniqueIds(SurveyFields)
  {
    FeaturedIds();
    assert forall i :: 0 <= i < |SurveyFields| ==> SurveyFields[i].id == Ids(SurveyFields)[i];
  }

  /** The built-in templates are consistent: distinct field ids, steps that
      name only existing fields, and the multi-step flag set exactly when
      there are steps. */
  lemma FeaturedConsistent()
    ensures forall t :: t in Featured ==> UniqueIds(t.form.fields) && StepsResolve(t.form)
    ensures forall t :: t in Featured ==> (t.form.isMultiStep <==> t.form.steps != [])
  {
    JobFieldsUnique();
    EventFieldsUnique();
    SurveyFieldsUnique();
    FeaturedIds();
  }

  /** In the job application the steps' lists, read in order, are exactly
      the field ids in order: every field sits on exactly one step. */
  lemma JobStepsCoverFields()
    ensures JobSteps[0].fields + JobSteps[1].fields + JobSteps[2].fields == Ids(JobFields)
    ensures JobSteps[0].fields == Ids(JobFields)[0..3]
    ensures JobSteps[1].fields == Ids(JobFields)[3..6]
    ensures JobSteps[2].fields == Ids(JobFields)[6..7]
  {
    FeaturedIds();
  }

  /** Converting the job application to a single page keeps every field, in order. */
  lemma JobApplicationFlattens()
    ensures FormOps.StepsToFields(JobSteps, JobFields) == JobFields
  {
    JobStepsCoverFields();
    JobFieldsUnique();
    assert JobSteps == [JobSteps[0], JobSteps[1], JobSteps[2]];
    FlattenThreeRuns(JobSteps[0], JobSteps[1], JobSteps[2], JobFields, 3, 6);
  }

  /** Three steps that list consecutive runs of unique field ids flatten
      back to the field list. */
  lemma FlattenThreeRuns(a: FormStep, b: FormStep, c: FormStep, fields: seq<FormField>, i: int, j: int)
    requires UniqueIds(fields) && 0 <= i <= j <= |fields|
    requires a.fields == Ids(fields)[0..i] && b.fields == Ids(fields)[i..j] && c.fields == Ids(fields)[j..|fields|]
    ensures FormOps.StepsToFields([a, b, c], fields) == fields
  {
    FormOps.ResolveOwnSlice(fields, 0, i);
    FormOps.ResolveOwnSlice(fields, i, j);
    FormOps.ResolveOwnSlice(fields, j, |fields|);
    StepsToFieldsThree(a, b, c, fields);
    Seqs.SplitThree(fields, i, j);
  }

  lemma StepsToFieldsThree(a: FormStep, b: FormStep, c: FormStep, fields: seq<FormField>)
    ensures FormOps.StepsToFields([a, b, c], fields)
         == FormOps.Resolve(a.fields, fields) + (FormOps.Resolve(b.fields, fields) + FormOps.Resolve(c.fields, fields))
  {
    var rc := FormOps.Resolve(c.fields, fields);
    assert FormOps.StepsToFields([c], fields) == rc by {
      assert [c][1..] == [];
    }
    assert FormOps.StepsToFields([b, c], fields) == FormOps.Resolve(b.fields, fields) + rc by {
      assert [b, c][1..] == [c];
    }
    assert [a, b, c][1..] == [b, c];
  }

  /** Opening the job application and starting the preview shows the three
      personal-information fields first. */
  lemma JobApplicationFirstStep(s: Store.State, newId: string)
    ensures var form := Store.LoadTemplate(s, JobApplication, newId).currentForm.value;
      Preview.FieldsToShow(form, 0) == JobFields[..3]
  {
    JobStepsCoverFields();
    JobFieldsUnique();
    FormOps.ResolveOwnSlice(JobFields, 0, 3);
    assert JobFields[0..3] == JobFields[..3];
  }
}

=== FILE: palette.dfy ===
/** The field palette: the catalogue of field kinds with their display names,
    descriptions and categories, the search/category filter, and the
    "add this kind" action. The older palette shows the same catalogue
    without categories, which is the "All" category here. */
module Palette {
  import opened Wrappers
  import opened Types
  import Text
  import Seqs
  import FormOps
  import Store
  import Editor
  import Validation

  datatype PaletteEntry = PaletteEntry(kind: FieldType, title: string, description: string, category: string)

  /** The catalogue entry of each kind. */
  function EntryFor(kind: FieldType): (e: PaletteEntry)
    ensures e.kind == kind
  {
    match kind
    case Text => PaletteEntry(Text, "Text Input", "Single line text input", "Basic")
    case Textarea => PaletteEntry(Textarea, "Textarea", "Multi-line text input", "Basic")
    case Email => PaletteEntry(Email, "Email", "Email address input", "Contact")
    case Phone => PaletteEntry(Phone, "Phone", "Phone number input", "Contact")
    case Number => PaletteEntry(Number, "Number", "Numeric input", "Data")
    case Date => PaletteEntry(Date, "Date", "Date picker", "Data")
    case Dropdown => PaletteEntry(Dropdown, "Dropdown", "Select from options", "Choice")
    case Radio => PaletteEntry(Radio, "Radio Group", "Single choice from options", "Choice")
    case Checkbox => PaletteEntry(Checkbox, "Checkbox", "Multiple selections", "Choice")
  }

  /** The order in which the palette lists the kinds. */
  const PaletteOrder: seq<FieldType> := [Text, Textarea, Email, Phone, Number, Date, Dropdown, Radio, Checkbox]

  /** The catalogue, in display order. */
  const Entries: seq<PaletteEntry> := [
    EntryFor(Text), EntryFor(Textarea), EntryFor(Email), EntryFor(Phone), EntryFor(Number),
    EntryFor(Date), EntryFor(Dropdown), EntryFor(Radio), EntryFor(Checkbox)
  ]

  const Categories: seq<string> := ["All", "Basic", "Contact", "Data", "Choice"]

  /** The kinds of the entries, in catalogue order. */
  function Kinds(entries: seq<PaletteEntry>): (r: seq<FieldType>)
    ensures |r| == |entries| && forall i :: 0 <= i < |entries| ==> r[i] == entries[i].kind
  {
    seq(|entries|, i requires 0 <= i < |entries| => entries[i].kind)
  }

  /** Every kind appears exactly once in the catalogue. */
  lemma EntriesCoverKinds()
    ensures |Entries| == 9
    ensures forall k: FieldType :: k in Kinds(Entries)
    ensures forall i, j :: 0 <= i < j < |Entries| ==> Entries[i].kind != Entries[j].kind
  {
    KindsInOrder();
    forall k: FieldType ensures k in PaletteOrder {
      match k
      case Text => assert PaletteOrder[0] == k;
      case Textarea => assert PaletteOrder[1] == k;
      case Email => assert PaletteOrder[2] == k;
      case Phone => assert PaletteOrder[3] == k;
      case Number => assert PaletteOrder[4] == k;
      case Date => assert PaletteOrder[5] == k;
      case Dropdown => assert PaletteOrder[6] == k;
      case Radio => assert PaletteOrder[7] == k;
      case Checkbox => assert PaletteOrder[8] == k;
    }
  }

  lemma KindsInOrder()
    ensures Kinds(Entries) == PaletteOrder
  {
    var ks := Kinds(Entries);
    assert |ks| == |PaletteOrder|;
    forall i | 0 <= i < |ks| ensures ks[i] == PaletteOrder[i] {
      assert ks[i] == Entries[i].kind;
    }
  }

  /** Every entry's category is one of the selectable ones other than "All". */
  lemma EntriesCategorised()
    ensures forall i :: 0 <= i < |Entries| ==> Entries[i].category in Categories && Entries[i].category != "All"
  {
  }

  /** The kinds in the "Choice" category are exactly those whose editor
      shows an options list. */
  lemma ChoiceIffOptions()
    ensures forall i :: 0 <= i < |Entries| ==> (Entries[i].category == "Choice" <==> Editor.NeedsOptions(Entries[i].kind))
  {
  }

  /** Case-insensitive search on the display name or the description. */
  predicate MatchesSearch(e: PaletteEntry, term: string) {
    Text.Contains(Text.Lower(e.title), Text.Lower(term)) || Text.Contains(Text.Lower(e.description), Text.Lower(term))
  }

  predicate MatchesCategory(e: PaletteEntry, category: string) {
    category == "All" || e.category == category
  }

  /** `fieldTypes.filter(...)`: the entries matching both the search term and the category. */
  function Filter(entries: seq<PaletteEntry>, term: string, category: string): (r: seq<PaletteEntry>)
    ensures forall e :: e in r <==> e in entries && MatchesSearch(e, term) && MatchesCategory(e, category)
    ensures Seqs.IsSubsequence(r, entries)
  {
    if entries == [] then []
    else
      var rest := Filter(entries[1..], term, category);
      assert forall e :: e in entries <==> e == entries[0] || e in entries[1..];
      if MatchesSearch(entries[0], term) && MatchesCategory(entries[0], category) then [entries[0]] + rest else rest
  }

  /** An empty search in "All" shows the whole catalogue. */
  lemma {:induction false} EmptySearchShowsAll(entries: seq<PaletteEntry>)
    ensures Filter(entries, "", "All") == entries
  {
    if entries != [] {
      Text.ContainsEmpty(Text.Lower(entries[0].title));
      EmptySearchShowsAll(entries[1..]);
    }
  }

  /** Narrowing the category never adds entries to what "All" shows. */
  lemma CategoryNarrows(entries: seq<PaletteEntry>, term: string, category: string)
    ensures forall e :: e in Filter(entries, term, category) ==> e in Filter(entries, term, "All")
  {
  }

  /** `fieldTypes.find(f => f.type === type)`. */
  function FindEntry(kind: FieldType): (r: Option<PaletteEntry>)
    ensures r.Some? ==> r.value in Entries && r.value.kind == kind
  {
    FindIn(Entries, kind)
  }

  function FindIn(entries: seq<PaletteEntry>, kind: FieldType): (r: Option<PaletteEntry>)
    ensures r.Some? ==> r.value in entries && r.value.kind == kind
    ensures r.None? <==> kind !in Kinds(entries)
  {
    if entries == [] then None
    else if entries[0].kind == kind then Some(entries[0])
    else
      assert Kinds(entries) == [entries[0].kind] + Kinds(entries[1..]);
      FindIn(entries[1..], kind)
  }

  /** The `if (!fieldConfig) return` guard never fires: every kind is
      listed, and the lookup finds that kind's entry. */
  lemma EveryKindFound(kind: FieldType)
    ensures FindEntry(kind) == Some(EntryFor(kind))
  {
    EntriesCoverKinds();
    match kind
    case Text => FindInFirst(Entries, 0);
    case Textarea => FindInFirst(Entries, 1);
    case Email => FindInFirst(Entries, 2);
    case Phone => FindInFirst(Entries, 3);
    case Number => FindInFirst(Entries, 4);
    case Date => FindInFirst(Entries, 5);
    case Dropdown => FindInFirst(Entries, 6);
    case Radio => FindInFirst(Entries, 7);
    case Checkbox => FindInFirst(Entries, 8);
  }

  lemma {:induction false} FindInFirst(entries: seq<PaletteEntry>, i: int)
    requires 0 <= i < |entries|
    requires forall j :: 0 <= j < i ==> entries[j].kind != entries[i].kind
    ensures FindIn(entries, entries[i].kind) == Some(entries[i])
  {
    if i > 0 {
      FindInFirst(entries[1..], i - 1);
    }
  }

  /** The field a palette entry creates: its display name as label, a
      placeholder derived from it, not required, no rules and no options. */
  function NewFieldSpec(e: PaletteEntry): (r: FieldSpec)
    ensures r.kind == e.kind && r.labelText == e.title && r.required == Some(false)
    ensures r.placeholder == Some("Enter " + Text.Lower(e.title) + "...")
    ensures r.validation.None? && r.options.None? && r.stepId.None? && r.helpText.None?
  {
    FieldSpec(e.kind, e.title, Some("Enter " + Text.Lower(e.title) + "..."), None, Some(false), None, None, None)
  }

  /** `handleAddField(type)`: add a field of that kind to the open form
      (the lookup always succeeds, see `EveryKindFound`). */
  function HandleAddField(s: Store.State, kind: FieldType, newId: string): (r: Store.State)
    ensures Store.Valid(s) ==> Store.Valid(r)
    ensures s.currentForm.None? ==> r == s
    ensures Store.Valid(s) && s.currentForm.Some? ==>
      && r.currentForm.Some?
      && |r.currentForm.value.fields| == |s.currentForm.value.fields| + 1
      && var f := r.currentForm.value.fields[|r.currentForm.value.fields| - 1];
         f.id == newId && f.kind == kind && f.required == Some(false) && Store.CanUndo(r)
    ensures Store.Valid(s) && s.currentForm.Some? ==>
      Store.Recorded(s, r, FormOps.AddField(s.currentForm.value, NewFieldSpec(EntryFor(kind)), newId))
  {
    Store.AddField(s, NewFieldSpec(EntryFor(kind)), newId)
  }

  /** A freshly added field accepts any answer, including none. */
  lemma NewFieldAcceptsAnything(e: PaletteEntry, id: string, v: Value, matches: (string, Value) -> bool)
    ensures Validation.ValidateField(WithId(NewFieldSpec(e), id), v, matches).None?
  {
  }
}

=== FILE: preview.dfy ===
/** The respondent-facing preview: entered values, error messages, the
    current step of a multi-step form, step navigation gated by validation,
    and submission. The state is local to the preview component. */
module Preview {
  import opened Wrappers
  import opened Types
  import FormOps
  import Seqs
  import opened Validation


  /** The errors one validation pass produces, assigned in field order so a
      later field with the same id overwrites an earlier one. */
  function StepErrors(fields: seq<FormField>, data: map<string, Value>, matches: (string, Value) -> bool): (r: map<string, string>)
    ensures forall id :: id in r ==> id in Ids(fields) && r[id] != []
    ensures forall f :: f in fields && ValidateField(f, Lookup(data, f.id), matches).Some? ==> f.id in r
    ensures r == map[] <==> forall f :: f in fields ==> ValidateField(f, Lookup(data, f.id), matches).None?
  {
    if fields == [] then map[]
    else
      var init := fields[..|fields| - 1];
      var last := fields[|fields| - 1];
      assert fields == init + [last];
      assert forall f :: f in fields <==> f in init || f == last;
      FormOps.IdsConcat(init, [last]);
      var rest := StepErrors(init, data, matches);
      match ValidateField(last, Lookup(data, last.id), matches)
      case None => rest
      case Some(e) => rest[last.id := e]
  }

  /** With distinct ids, each failing field's entry is exactly its message. */
  lemma {:induction false} StepErrorsExact(fields: seq<FormField>, data: map<string, Value>, matches: (string, Value) -> bool, k: int)
    requires UniqueIds(fields) && 0 <= k < |fields|
    requires ValidateField(fields[k], Lookup(data, fields[k].id), matches).Some?
    ensures StepErrors(fields, data, matches)[fields[k].id]
         == ValidateField(fields[k], Lookup(data, fields[k].id), matches).value
    decreases |fields|
  {
    var init := fields[..|fields| - 1];
    var last := fields[|fields| - 1];
    StepErrorsLast(fields, data, matches);
    if k < |fields| - 1 {
      UniquePrefix(fields);
      assert init[k] == fields[k];
      StepErrorsExact(init, data, matches, k);
    }
  }

  /** Only an id some failing field carries gets an entry. */
  lemma {:induction false} StepErrorsOnlyFailing(fields: seq<FormField>, data: map<string, Value>, matches: (string, Value) -> bool, id: string)
    requires forall f :: f in fields && f.id == id ==> ValidateField(f, Lookup(data, id), matches).None?
    ensures id !in StepErrors(fields, data, matches)
    decreases |fields|
  {
    if fields != [] {
      var init := fields[..|fields| - 1];
      var last := fields[|fields| - 1];
      assert last in fields;
      assert forall f :: f in init ==> f in fields;
      StepErrorsLast(fields, data, matches);
      StepErrorsOnlyFailing(init, data, matches, id);
    }
  }

  /** Merging a pass's errors keeps the old text of every id no failing field carries. */
  lemma MergeKeepsPassing(fields: seq<FormField>, data: map<string, Value>, errors: map<string, string>,
                          matches: (string, Value) -> bool)
    ensures forall id :: id in errors && (forall f :: f in fields && f.id == id ==> ValidateField(f, Lookup(data, id), matches).None?) ==>
      (errors + StepErrors(fields, data, matches))[id] == errors[id]
  {
    forall id | id in errors && (forall f :: f in fields && f.id == id ==> ValidateField(f, Lookup(data, id), matches).None?)
      ensures (errors + StepErrors(fields, data, matches))[id] == errors[id]
    {
      StepErrorsOnlyFailing(fields, data, matches, id);
    }
  }

  /** `StepErrorsExact` for every failing field at once. */
  lemma StepErrorsExactAll(fields: seq<FormField>, data: map<string, Value>, matches: (string, Value) -> bool)
    ensures UniqueIds(fields) ==> forall f :: f in fields && ValidateField(f, Lookup(data, f.id), matches).Some? ==>
      StepErrors(fields, data, matches)[f.id] == ValidateField(f, Lookup(data, f.id), matches).value
  {
    if UniqueIds(fields) {
      forall k | 0 <= k < |fields| && ValidateField(fields[k], Lookup(data, fields[k].id), matches).Some?
        ensures StepErrors(fields, data, matches)[fields[k].id] == ValidateField(fields[k], Lookup(data, fields[k].id), matches).value
      {
        StepErrorsExact(fields, data, matches, k);
      }
    }
  }

  /** One more field: its error, if any, is written over the errors of the fields before it. */
  lemma StepErrorsLast(fields: seq<FormField>, data: map<string, Value>, matches: (string, Value) -> bool)
    requires fields != []
    ensures var init := fields[..|fields| - 1];
      var last := fields[|fields| - 1];
      StepErrors(fields, data, matches) ==
        match ValidateField(last, Lookup(data, last.id), matches)
        case None => StepErrors(init, data, matches)
        case Some(e) => StepErrors(init, data, matches)[last.id := e]
  {
  }

  /** Dropping the last field keeps ids unique, and no earlier field shares its id. */
  lemma UniquePrefix(fields: seq<FormField>)
    requires UniqueIds(fields) && fields != []
    ensures UniqueIds(fields[..|fields| - 1])
    ensures forall k :: 0 <= k < |fields| - 1 ==> fields[k].id != fields[|fields| - 1].id
  {
    var init := fields[..|fields| - 1];
    assert forall i :: 0 <= i < |init| ==> init[i] == fields[i];
  }

  /** `validateStep`: whether every field passes, and the error map with this
      pass's messages merged over the previous ones. */
  function ValidateStep(fields: seq<FormField>, data: map<string, Value>, errors: map<string, string>,
                        matches: (string, Value) -> bool): (r: (bool, map<string, string>))
    ensures r.0 <==> forall f :: f in fields ==> ValidateField(f, Lookup(data, f.id), matches).None?
    ensures r.0 ==> r.1 == errors
    ensures errors.Keys <= r.1.Keys
    ensures forall id :: id in r.1 && id !in Ids(fields) ==> id in errors && r.1[id] == errors[id]
    ensures forall f :: f in fields && ValidateField(f, Lookup(data, f.id), matches).Some? ==>
      f.id in r.1 && r.1[f.id] != []
    ensures forall id :: id in errors && (forall f :: f in fields && f.id == id ==> ValidateField(f, Lookup(data, id), matches).None?) ==>
      r.1[id] == errors[id]
    ensures UniqueIds(fields) ==> forall f :: f in fields && ValidateField(f, Lookup(data, f.id), matches).Some? ==>
      r.1[f.id] == ValidateField(f, Lookup(data, f.id), matches).value
  {
    var stepErrors := StepErrors(fields, data, matches);
    StepErrorsExactAll(fields, data, matches);
    MergeKeepsPassing(fields, data, errors, matches);
    (stepErrors == map[], errors + stepErrors)
  }

  datatype PreviewState = PreviewState(
    stepIndex: nat,
    data: map<string, Value>,
    errors: map<string, string>,
    submitted: bool)

  /** The state the preview starts in and returns to when the form changes
      or the respondent starts over. */
  const Reset := PreviewState(0, map[], map[], false)

  /** `{error && …}`: whether an error is displayed under a field. */
  predicate ErrorShown(p: PreviewState, id: string) {
    id in p.errors && p.errors[id] != []
  }

  /** `handleFieldChange`: store the value, and hide the field's error if one
      is showing. */
  function FieldChange(p: PreviewState, id: string, v: Value): (r: PreviewState)
    ensures Lookup(r.data, id) == v
    ensures forall k :: k != id ==> Lookup(r.data, k) == Lookup(p.data, k)
    ensures !ErrorShown(r, id)
    ensures forall k :: k != id ==> ErrorShown(r, k) == ErrorShown(p, k)
    ensures r.errors.Keys == p.errors.Keys
    ensures forall k :: k != id && k in p.errors ==> r.errors[k] == p.errors[k]
    ensures r.stepIndex == p.stepIndex && r.submitted == p.submitted
  {
    var data := p.data[id := v];
    if id in p.errors && p.errors[id] != [] then p.(data := data, errors := p.errors[id := ""])
    else p.(data := data)
  }

  /** The fields of step `i`, resolved against the form. */
  function StepFields(form: Form, i: nat): (r: seq<FormField>)
    requires i < |form.steps|
    ensures forall f :: f in r ==> f in form.fields && f.id in form.steps[i].fields
    ensures Ids(r) == FormOps.KnownIds(form.steps[i].fields, form.fields)
  {
    FormOps.Resolve(form.steps[i].fields, form.fields)
  }

  /** `handleNextStep`: in a multi-step form, validate the current step and
      advance (never past the last step) only when it passes. The source
      dereferences the current step without a check, so the index must be
      in range. */
  function NextStep(form: Form, p: PreviewState, matches: (string, Value) -> bool): (r: PreviewState)
    requires form.isMultiStep ==> p.stepIndex < |form.steps|
    ensures !form.isMultiStep ==> r == p
    ensures form.isMultiStep ==> r.stepIndex < |form.steps|
    ensures r.data == p.data && r.submitted == p.submitted
    ensures r.stepIndex == p.stepIndex || r.stepIndex == p.stepIndex + 1
    ensures r.stepIndex == p.stepIndex + 1 <==>
      && form.isMultiStep && p.stepIndex + 1 < |form.steps|
      && forall f :: f in StepFields(form, p.stepIndex) ==> ValidateField(f, Lookup(p.data, f.id), matches).None?
    ensures form.isMultiStep ==> r.errors == ValidateStep(StepFields(form, p.stepIndex), p.data, p.errors, matches).1
    ensures form.isMultiStep ==> forall f :: f in StepFields(form, p.stepIndex) && ValidateField(f, Lookup(p.data, f.id), matches).Some? ==>
      ErrorShown(r, f.id)
  {
    if !form.isMultiStep then p
    else
      var (ok, errors) := ValidateStep(StepFields(form, p.stepIndex), p.data, p.errors, matches);
      var next := if p.stepIndex + 1 < |form.steps| - 1 then p.stepIndex + 1 else |form.steps| - 1;
      p.(errors := errors, stepIndex := if ok then next else p.stepIndex)
  }

  /** `handlePrevStep`: back one step, never below the first. */
  function PrevStep(p: PreviewState): (r: PreviewState)
    ensures r.stepIndex <= p.stepIndex
    ensures p.stepIndex > 0 ==> r.stepIndex + 1 == p.stepIndex
    ensures r.data == p.data && r.errors == p.errors && r.submitted == p.submitted
  {
    p.(stepIndex := if p.stepIndex > 0 then p.stepIndex - 1 else 0)
  }

  /** Going forward from a passing step and back again returns to that step. */
  lemma BackAfterForward(form: Form, p: PreviewState, matches: (string, Value) -> bool)
    requires form.isMultiStep && p.stepIndex + 1 < |form.steps|
    requires forall f :: f in StepFields(form, p.stepIndex) ==> ValidateField(f, Lookup(p.data, f.id), matches).None?
    ensures PrevStep(NextStep(form, p, matches)) == p
  {
  }

  /** `handleSubmit`: every field of the form is validated, in both modes;
      the form counts as submitted only when all pass. */
  function Submit(form: Form, p: PreviewState, matches: (string, Value) -> bool): (r: PreviewState)
    ensures r.submitted <==> p.submitted || forall f :: f in form.fields ==> ValidateField(f, Lookup(p.data, f.id), matches).None?
    ensures r.data == p.data && r.stepIndex == p.stepIndex
    ensures forall f :: f in form.fields && ValidateField(f, Lookup(p.data, f.id), matches).Some? ==> ErrorShown(r, f.id)
  {
    var (ok, errors) := ValidateStep(form.fields, p.data, p.errors, matches);
    p.(errors := errors, submitted := p.submitted || ok)
  }

  /** A multi-step form cannot be submitted while a field that no step shows
      fails validation. */
  lemma SubmitBlockedByHiddenField(form: Form, p: PreviewState, matches: (string, Value) -> bool, f: FormField)
    requires !p.submitted && f in form.fields
    requires forall st :: st in form.steps ==> f.id !in st.fields
    requires ValidateField(f, Lookup(p.data, f.id), matches).Some?
    ensures !Submit(form, p, matches).submitted
    ensures forall i :: 0 <= i < |form.steps| ==> f !in StepFields(form, i)
  {
  }

  /** The fields rendered: the current step's resolved fields, or every field
      when the form is single-step or the index names no step. */
  function FieldsToShow(form: Form, i: nat): (r: seq<FormField>)
    ensures forall f :: f in r ==> f in form.fields
    ensures !form.isMultiStep || i >= |form.steps| ==> r == form.fields
    ensures form.isMultiStep && i < |form.steps| ==> forall f :: f in r ==> f.id in form.steps[i].fields
    ensures form.isMultiStep && i < |form.steps| ==> r == StepFields(form, i)
    ensures form.isMultiStep && i < |form.steps| ==> Ids(r) == FormOps.KnownIds(form.steps[i].fields, form.fields)
  {
    if form.isMultiStep && i < |form.steps| then StepFields(form, i) else form.fields
  }

  /** `formData[id] || ""`: the value handed to the input control. */
  function DisplayValue(data: map<string, Value>, id: string): (r: Value)
    ensures Truthy(r) ==> r == Lookup(data, id)
    ensures !Truthy(r) ==> r == Str("")
    ensures Truthy(Lookup(data, id)) ==> r == Lookup(data, id)
  {
    if Truthy(Lookup(data, id)) then Lookup(data, id) else Str("")
  }

  /** `Array.isArray(value) ? value : []`: the checked options. */
  function CheckboxValues(v: Value): (r: seq<string>)
    ensures v.StrList? ==> r == v.items
    ensures !v.StrList? ==> r == []
  {
    if v.StrList? then v.items else []
  }

  /** Checking an option appends it; unchecking filters out every copy. */
  function ToggleCheckbox(values: seq<string>, option: string, checked: bool): (r: seq<string>)
    ensures checked ==> r == values + [option]
    ensures !checked ==> option !in r && multiset(r) == multiset(values)[option := 0]
    ensures !checked ==> Seqs.IsSubsequence(r, values)
  {
    if checked then values + [option] else Seqs.Without(values, option)
  }

  /** Checking a box and unchecking it again restores the previous selection. */
  lemma CheckThenUncheck(values: seq<string>, option: string)
    requires option !in values
    ensures ToggleCheckbox(ToggleCheckbox(values, option, true), option, false) == values
  {
    Seqs.WithoutAppended(values, option);
  }
}

=== FILE: seqs.dfy ===
/** Sequence operations shared by the store and the UI rules: value filtering
    (`Array.prototype.filter` on a value), single-element removal and
    insertion (`splice`), and the splice-based move used to reorder fields. */
module Seqs {

  /** `a` is `b` with some elements left out and the rest kept in order. */
  predicate IsSubsequence<T(==)>(a: seq<T>, b: seq<T>)
    decreases |b|
  {
    a == [] || (b != [] && ((a[0] == b[0] && IsSubsequence(a[1..], b[1..])) || IsSubsequence(a, b[1..])))
  }

  /** `s.filter(v => v !== x)`. */
  function Without<T(==)>(s: seq<T>, x: T): (r: seq<T>)
    ensures multiset(r) == multiset(s)[x := 0]
    ensures IsSubsequence(r, s)
    ensures x !in r
  {
    if s == [] then []
    else if s[0] == x then
      assert s == [s[0]] + s[1..];
      Without(s[1..], x)
    else
      assert s == [s[0]] + s[1..];
      [s[0]] + Without(s[1..], x)
  }

  /** Filtering out a value that is absent changes nothing. */
  lemma {:induction false} WithoutAbsent<T>(s: seq<T>, x: T)
    requires x !in s
    ensures Without(s, x) == s
  {
    if s != [] {
      WithoutAbsent(s[1..], x);
    }
  }

  /** Appending a value that was absent and then filtering it out restores the sequence. */
  lemma {:induction false} WithoutAppended<T>(s: seq<T>, x: T)
    requires x !in s
    ensures Without(s + [x], x) == s
  {
    if s == [] {
    } else {
      assert (s + [x])[1..] == s[1..] + [x];
      WithoutAppended(s[1..], x);
    }
  }

  /** A non-empty run is its first element followed by the rest of the run. */
  lemma SliceCons<T>(s: seq<T>, lo: int, hi: int)
    requires 0 <= lo < hi <= |s|
    ensures s[lo..hi] == [s[lo]] + s[lo + 1..hi]
    ensures s[lo..hi][0] == s[lo] && s[lo..hi][1..] == s[lo + 1..hi]
  {
  }

  /** A sequence is the concatenation of its three consecutive runs. */
  lemma SplitThree<T>(s: seq<T>, i: int, j: int)
    requires 0 <= i <= j <= |s|
    ensures s == s[0..i] + (s[i..j] + s[j..|s|])
  {
    assert s[i..] == s[i..j] + s[j..];
    assert s == s[..i] + s[i..];
  }

  /** `s.splice(i, 1)`: the sequence left after taking out position `i`. */
  function RemoveAt<T>(s: seq<T>, i: int): (r: seq<T>)
    requires 0 <= i < |s|
    ensures |r| == |s| - 1
    ensures forall j :: 0 <= j < i ==> r[j] == s[j]
    ensures forall j :: i <= j < |r| ==> r[j] == s[j + 1]
  {
    s[..i] + s[i + 1..]
  }

  /** `s.splice(i, 0, x)`: `x` inserted so that it ends up at position `i`. */
  function InsertAt<T>(s: seq<T>, i: int, x: T): (r: seq<T>)
    requires 0 <= i <= |s|
    ensures |r| == |s| + 1 && r[i] == x
    ensures forall j :: 0 <= j < i ==> r[j] == s[j]
    ensures forall j :: i < j < |r| ==> r[j] == s[j - 1]
  {
    s[..i] + [x] + s[i..]
  }

  lemma RemoveAtMultiset<T>(s: seq<T>, i: int)
    requires 0 <= i < |s|
    ensures multiset(RemoveAt(s, i)) + multiset{s[i]} == multiset(s)
  {
    assert s == s[..i] + [s[i]] + s[i + 1..];
  }

  lemma InsertAtMultiset<T>(s: seq<T>, i: int, x: T)
    requires 0 <= i <= |s|
    ensures multiset(InsertAt(s, i, x)) == multiset(s) + multiset{x}
  {
    assert s == s[..i] + s[i..];
  }

  /** Removing what was just inserted gives back the original. */
  lemma RemoveInserted<T>(s: seq<T>, i: int, x: T)
    requires 0 <= i <= |s|
    ensures RemoveAt(InsertAt(s, i, x), i) == s
  {
  }

  /** Re-inserting what was just removed gives back the original. */
  lemma InsertRemoved<T>(s: seq<T>, i: int)
    requires 0 <= i < |s|
    ensures InsertAt(RemoveAt(s, i), i, s[i]) == s
  {
  }

  /** The position at which `splice(to, 0, x)` inserts into a sequence of
      length `n`: positions past the end mean "append". */
  function SpliceIndex(to: nat, n: nat): (k: nat)
    ensures k <= n
    ensures to <= n ==> k == to
  {
    if to <= n then to else n
  }

  /** A move: the element at `from` is taken out and inserted at `to` of the
      shortened sequence (clamped to its end, as `splice` does). */
  function Move<T>(s: seq<T>, from: int, to: nat): (r: seq<T>)
    requires 0 <= from < |s|
    ensures |r| == |s|
    ensures r[SpliceIndex(to, |s| - 1)] == s[from]
    ensures RemoveAt(r, SpliceIndex(to, |s| - 1)) == RemoveAt(s, from)
    ensures multiset(r) == multiset(s)
    ensures SpliceIndex(to, |s| - 1) == from ==> r == s
  {
    var t := SpliceIndex(to, |s| - 1);
    RemoveInserted(RemoveAt(s, from), t, s[from]);
    RemoveAtMultiset(s, from);
    InsertAtMultiset(RemoveAt(s, from), t, s[from]);
    var r := InsertAt(RemoveAt(s, from), t, s[from]);
    assert t == from ==> r == s by {
      if t == from {
        InsertRemoved(s, from);
      }
    }
    r
  }

  /** Moving the element back to where it came from undoes a move: dragging a
      field down and then up again restores the original order. */
  lemma MoveInverse<T>(s: seq<T>, from: int, to: nat)
    requires 0 <= from < |s|
    ensures Move(Move(s, from, to), SpliceIndex(to, |s| - 1), from) == s
  {
    var t := SpliceIndex(to, |s| - 1);
    var m := Move(s, from, to);
    RemoveInserted(RemoveAt(s, from), t, s[from]);
    assert RemoveAt(m, t) == RemoveAt(s, from);
    InsertRemoved(s, from);
  }
}

=== FILE: shortcuts.dfy ===
/** The editor's global key handler: Ctrl/Cmd+Z undoes, Ctrl/Cmd+Shift+Z and
    Ctrl/Cmd+Y redo, Ctrl/Cmd+S saves the open form. The three checks run one
    after the other on the same event; the default browser action is
    suppressed whenever one of them matches, even when the store has nothing
    to undo, redo or save. The saved-forms list stands in for local storage. */
module Shortcuts {
  import opened Types
  import Store

  datatype KeyEvent = KeyEvent(ctrlKey: bool, metaKey: bool, shiftKey: bool, key: string)

  /** What one key press leaves behind: the editor state, the saved forms and
      whether `preventDefault` was called. */
  datatype Outcome = Outcome(state: Store.State, forms: seq<Form>, preventDefault: bool)

  predicate Modifier(e: KeyEvent) {
    e.ctrlKey || e.metaKey
  }

  predicate IsUndo(e: KeyEvent) {
    Modifier(e) && e.key == "z" && !e.shiftKey
  }

  predicate IsRedo(e: KeyEvent) {
    (Modifier(e) && e.shiftKey && e.key == "Z") || (Modifier(e) && e.key == "y")
  }

  predicate IsSave(e: KeyEvent) {
    Modifier(e) && e.key == "s"
  }

  /** At most one shortcut matches any event. */
  lemma ShortcutsExclusive(e: KeyEvent)
    ensures !(IsUndo(e) && IsRedo(e))
    ensures !(IsUndo(e) && IsSave(e))
    ensures !(IsRedo(e) && IsSave(e))
  {
  }

  /** `handleKeyDown`: the undo check, then the redo check on the resulting
      state, then the save check (guarded by the form open when the handler
      was installed). */
  function HandleKeyDown(s: Store.State, forms: seq<Form>, e: KeyEvent): (r: Outcome)
    ensures r.preventDefault <==> IsUndo(e) || IsRedo(e) || IsSave(e)
    ensures !Modifier(e) ==> r == Outcome(s, forms, false)
    ensures IsUndo(e) ==> r.state == Store.Undo(s) && r.forms == forms
    ensures IsRedo(e) ==> r.state == Store.Redo(s) && r.forms == forms
    ensures IsSave(e) ==> r.state == s
    ensures IsSave(e) && s.currentForm.Some? ==> s.currentForm.value in r.forms
    ensures !IsSave(e) || s.currentForm.None? ==> r.forms == forms
    ensures Store.Valid(s) ==> Store.Valid(r.state)
  {
    var afterUndo := if IsUndo(e) then Store.Undo(s) else s;
    var afterRedo := if IsRedo(e) then Store.Redo(afterUndo) else afterUndo;
    var saved := if IsSave(e) && s.currentForm.Some? then Store.SaveForm(afterRedo, forms).0 else forms;
    Outcome(afterRedo, saved, IsUndo(e) || IsRedo(e) || IsSave(e))
  }

  /** Ctrl+Z followed by Ctrl+Y returns the editor to where it was. */
  lemma UndoKeyThenRedoKey(s: Store.State, forms: seq<Form>, undoKey: KeyEvent, redoKey: KeyEvent)
    requires Store.Valid(s) && Store.CanUndo(s)
    requires IsUndo(undoKey) && IsRedo(redoKey)
    ensures HandleKeyDown(HandleKeyDown(s, forms, undoKey).state, forms, redoKey).state == s
  {
    Store.RedoAfterUndo(s);
  }

  /** With Caps Lock on, Ctrl+Z arrives as "Z" without Shift and matches no
      shortcut: nothing changes and the browser keeps the key. */
  lemma UpperCaseZWithoutShiftIgnored(s: Store.State, forms: seq<Form>, e: KeyEvent)
    requires e.key == "Z" && !e.shiftKey
    ensures HandleKeyDown(s, forms, e) == Outcome(s, forms, false)
  {
  }

  /** The shortcut is claimed even when the store has no earlier snapshot:
      the state stays put but the browser's own undo is suppressed. */
  lemma UndoKeyAtOldestSnapshot(s: Store.State, forms: seq<Form>, e: KeyEvent)
    requires IsUndo(e) && !Store.CanUndo(s)
    ensures HandleKeyDown(s, forms, e) == Outcome(s, forms, true)
  {
  }
}

=== FILE: store.dfy ===
/** The builder store: the current form, the selection, UI flags and the
    linear undo/redo history. Every action is a pure transition on `State`.
    Every document edit goes through `UpdateForm`/`Commit`, which cuts the
    history after the cursor, appends the new snapshot and moves the cursor
    onto it. Ids that the source draws from `Math.random` are parameters. */
module Store {
  import opened Wrappers
  import opened Types
  import FormOps

  datatype State = State(
    currentForm: Option<Form>,
    selectedFieldId: Option<string>,
    previewMode: PreviewMode,
    theme: Theme,
    isDragging: bool,
    history: seq<Form>,
    historyIndex: int,
    autoSaveEnabled: bool)

  /** The store before any form is opened. */
  const Initial := State(None, None, Desktop, Light, false, [], -1, true)

  /** The consistency every reachable state keeps: no form, cursor -1 and an
      empty history, or the cursor inside the history and the current form
      the snapshot under it. */
  predicate Valid(s: State) {
    && -1 <= s.historyIndex < |s.history|
    && (s.historyIndex == -1 <==> s.currentForm.None?)
    && (s.historyIndex == -1 ==> s.history == [])
    && (0 <= s.historyIndex ==> s.currentForm == Some(s.history[s.historyIndex]))
  }

  lemma InitialValid()
    ensures Valid(Initial) && !CanUndo(Initial) && !CanRedo(Initial)
  {
  }

  /** `history.slice(0, end)` with JavaScript's handling of out-of-range ends. */
  function SlicePrefix(h: seq<Form>, end: int): (r: seq<Form>)
    ensures 0 <= end <= |h| ==> r == h[..end]
    ensures |r| <= |h|
  {
    if end < 0 then (if |h| + end <= 0 then [] else h[..|h| + end])
    else if end <= |h| then h[..end]
    else h
  }

  /** `history[i]`: `None` plays `undefined` outside the sequence. */
  function At(h: seq<Form>, i: int): (r: Option<Form>)
    ensures 0 <= i < |h| ==> r == Some(h[i])
  {
    if 0 <= i < |h| then Some(h[i]) else None
  }

  predicate CanUndo(s: State) {
    s.historyIndex > 0
  }

  predicate CanRedo(s: State) {
    s.historyIndex < |s.history| - 1
  }

  /** `r` is `s` with snapshot `f` recorded: the redo branch is cut off, `f`
      appended and made current; nothing else changes. */
  predicate Recorded(s: State, r: State, f: Form) {
    && -1 <= s.historyIndex < |s.history|
    && r.currentForm == Some(f)
    && r.history == s.history[..s.historyIndex + 1] + [f]
    && r.historyIndex == s.historyIndex + 1
    && r.selectedFieldId == s.selectedFieldId
    && r.previewMode == s.previewMode && r.theme == s.theme
    && r.isDragging == s.isDragging && r.autoSaveEnabled == s.autoSaveEnabled
  }

  /** The body of `updateForm` once a form is open. */
  function Commit(s: State, f: Form): (r: State)
    ensures Valid(s) && s.currentForm.Some? ==> Recorded(s, r, f) && Valid(r)
    ensures r.currentForm == Some(f) && CanRedo(r) == false
  {
    var h := SlicePrefix(s.history, s.historyIndex + 1) + [f];
    s.(currentForm := Some(f), history := h, historyIndex := |h| - 1)
  }

  /** `updateForm(patch)`: merge the patch into the current form and commit;
      nothing at all when no form is open. */
  function UpdateForm(s: State, p: FormPatch): (r: State)
    ensures s.currentForm.None? ==> r == s
    ensures Valid(s) ==> Valid(r)
    ensures Valid(s) && s.currentForm.Some? ==> Recorded(s, r, ApplyFormPatch(s.currentForm.value, p))
  {
    if s.currentForm.None? then s else Commit(s, ApplyFormPatch(s.currentForm.value, p))
  }

  /** A fresh empty form with a one-entry history; the selection is kept. */
  function CreateForm(s: State, title: string, newId: string): (r: State)
    ensures Valid(r) && !CanUndo(r) && !CanRedo(r)
    ensures r.history == [Form(newId, title, Some(""), [], [], false)]
    ensures r.selectedFieldId == s.selectedFieldId
  {
    var form := Form(newId, title, Some(""), [], [], false);
    s.(currentForm := Some(form), history := [form], historyIndex := 0)
  }

  /** Open an existing form: one-entry history, no selection. */
  function LoadForm(s: State, form: Form): (r: State)
    ensures Valid(r) && !CanUndo(r) && !CanRedo(r)
    ensures r.history == [form] && r.currentForm == Some(form) && r.selectedFieldId.None?
  {
    s.(currentForm := Some(form), history := [form], historyIndex := 0, selectedFieldId := None)
  }

  /** Instantiate a template under a new id: one-entry history, no selection. */
  function LoadTemplate(s: State, t: FormTemplate, newId: string): (r: State)
    ensures Valid(r) && !CanUndo(r) && !CanRedo(r) && r.selectedFieldId.None?
    ensures r.currentForm.Some? && r.currentForm.value.id == newId
    ensures r.currentForm.value.fields == t.form.fields && r.currentForm.value.steps == t.form.steps
    ensures r.currentForm.value.isMultiStep == t.form.isMultiStep && r.currentForm.value.title == t.form.title
  {
    var form := Form(newId, t.form.title, t.form.description, t.form.fields, t.form.steps, t.form.isMultiStep);
    s.(currentForm := Some(form), history := [form], historyIndex := 0, selectedFieldId := None)
  }

  function AddField(s: State, spec: FieldSpec, newId: string): (r: State)
    ensures s.currentForm.None? ==> r == s
    ensures Valid(s) ==> Valid(r)
    ensures Valid(s) && s.currentForm.Some? ==> Recorded(s, r, FormOps.AddField(s.currentForm.value, spec, newId))
  {
    if s.currentForm.None? then s else Commit(s, FormOps.AddField(s.currentForm.value, spec, newId))
  }

  /** Records a snapshot even when no field has the id. */
  function UpdateField(s: State, id: string, patch: FieldPatch): (r: State)
    ensures s.currentForm.None? ==> r == s
    ensures Valid(s) ==> Valid(r)
    ensures Valid(s) && s.currentForm.Some? ==> Recorded(s, r, FormOps.UpdateField(s.currentForm.value, id, patch))
  {
    if s.currentForm.None? then s else Commit(s, FormOps.UpdateField(s.currentForm.value, id, patch))
  }

  /** Deletes with cascade and then clears the selection. */
  function DeleteField(s: State, id: string): (r: State)
    ensures s.currentForm.None? ==> r == s
    ensures Valid(s) ==> Valid(r)
    ensures Valid(s) && s.currentForm.Some? ==>
      && Recorded(s, r.(selectedFieldId := s.selectedFieldId), FormOps.DeleteField(s.currentForm.value, id))
      && r.selectedFieldId.None?
  {
    if s.currentForm.None? then s
    else Commit(s, FormOps.DeleteField(s.currentForm.value, id)).(selectedFieldId := None)
  }

  /** The source splices without a bounds check; the requirement keeps `from`
      inside every list that is reordered. */
  function ReorderFields(s: State, from: nat, to: nat, stepId: Option<string>): (r: State)
    requires s.currentForm.Some? ==> FormOps.ReorderAllowed(s.currentForm.value, from, stepId)
    ensures s.currentForm.None? ==> r == s
    ensures Valid(s) ==> Valid(r)
    ensures Valid(s) && s.currentForm.Some? ==>
      Recorded(s, r, FormOps.ReorderFields(s.currentForm.value, from, to, stepId))
  {
    if s.currentForm.None? then s else Commit(s, FormOps.ReorderFields(s.currentForm.value, from, to, stepId))
  }

  function SelectField(s: State, id: Option<string>): (r: State)
    ensures r.selectedFieldId == id
    ensures r.history == s.history && r.historyIndex == s.historyIndex && r.currentForm == s.currentForm
  {
    s.(selectedFieldId := id)
  }

  function AddStep(s: State, title: string, newId: string): (r: State)
    ensures s.currentForm.None? ==> r == s
    ensures Valid(s) ==> Valid(r)
    ensures Valid(s) && s.currentForm.Some? ==> Recorded(s, r, FormOps.AddStep(s.currentForm.value, title, newId))
  {
    if s.currentForm.None? then s else Commit(s, FormOps.AddStep(s.currentForm.value, title, newId))
  }

  /** Records a snapshot even when no step has the id. */
  function UpdateStep(s: State, id: string, patch: StepPatch): (r: State)
    ensures s.currentForm.None? ==> r == s
    ensures Valid(s) ==> Valid(r)
    ensures Valid(s) && s.currentForm.Some? ==> Recorded(s, r, FormOps.UpdateStep(s.currentForm.value, id, patch))
  {
    if s.currentForm.None? then s else Commit(s, FormOps.UpdateStep(s.currentForm.value, id, patch))
  }

  /** No snapshot at all when no step has the id. */
  function DeleteStep(s: State, id: string): (r: State)
    ensures Valid(s) ==> Valid(r)
    ensures s.currentForm.None? ==> r == s
    ensures s.currentForm.Some? && (forall st :: st in s.currentForm.value.steps ==> st.id != id) ==> r == s
    ensures Valid(s) && s.currentForm.Some? && FormOps.DeleteStep(s.currentForm.value, id).Some? ==>
      Recorded(s, r, FormOps.DeleteStep(s.currentForm.value, id).value)
  {
    if s.currentForm.None? then s
    else match FormOps.DeleteStep(s.currentForm.value, id)
      case None => s
      case Some(f) => Commit(s, f)
  }

  /** `deleteStep` without re-appending the step's fields: the corrected
      deletion recorded the same way. */
  function DeleteStepIntended(s: State, id: string): (r: State)
    ensures Valid(s) ==> Valid(r)
    ensures s.currentForm.None? ==> r == s
    ensures s.currentForm.Some? && (forall st :: st in s.currentForm.value.steps ==> st.id != id) ==> r == s
    ensures Valid(s) && s.currentForm.Some? && FormOps.DeleteStepIntended(s.currentForm.value, id).Some? ==>
      && Recorded(s, r, FormOps.DeleteStepIntended(s.currentForm.value, id).value)
      && r.currentForm.value.fields == s.currentForm.value.fields
  {
    if s.currentForm.None? then s
    else match FormOps.DeleteStepIntended(s.currentForm.value, id)
      case None => s
      case Some(f) => Commit(s, f)
  }

  /** No snapshot when converting an empty single-step form. */
  function ToggleMultiStep(s: State, newId: string): (r: State)
    ensures Valid(s) ==> Valid(r)
    ensures s.currentForm.None? ==> r == s
    ensures s.currentForm.Some? && !s.currentForm.value.isMultiStep && s.currentForm.value.fields == [] ==> r == s
    ensures Valid(s) && s.currentForm.Some? && FormOps.ToggleMultiStep(s.currentForm.value, newId).Some? ==>
      Recorded(s, r, FormOps.ToggleMultiStep(s.currentForm.value, newId).value)
  {
    if s.currentForm.None? then s
    else match FormOps.ToggleMultiStep(s.currentForm.value, newId)
      case None => s
      case Some(f) => Commit(s, f)
  }

  /** Step back one snapshot; nothing at the oldest one. */
  function Undo(s: State): (r: State)
    ensures r.history == s.history && r.selectedFieldId == s.selectedFieldId
    ensures !CanUndo(s) ==> r == s
    ensures CanUndo(s) ==> r.historyIndex == s.historyIndex - 1 && r.currentForm == At(s.history, s.historyIndex - 1)
    ensures Valid(s) ==> Valid(r)
  {
    if s.historyIndex > 0 then
      s.(currentForm := At(s.history, s.historyIndex - 1), historyIndex := s.historyIndex - 1)
    else s
  }

  /** Step forward one snapshot; nothing at the newest one. */
  function Redo(s: State): (r: State)
    ensures r.history == s.history && r.selectedFieldId == s.selectedFieldId
    ensures !CanRedo(s) ==> r == s
    ensures CanRedo(s) ==> r.historyIndex == s.historyIndex + 1 && r.currentForm == At(s.history, s.historyIndex + 1)
    ensures Valid(s) ==> Valid(r)
  {
    if s.historyIndex < |s.history| - 1 then
      s.(currentForm := At(s.history, s.historyIndex + 1), historyIndex := s.historyIndex + 1)
    else s
  }

  /** The undo and redo buttons are enabled exactly when pressing them
      changes the state. */
  lemma UndoEnabledIffEffective(s: State)
    ensures CanUndo(s) <==> Undo(s) != s
    ensures CanRedo(s) <==> Redo(s) != s
  {
  }

  /** Redo undoes an undo. */
  lemma RedoAfterUndo(s: State)
    requires Valid(s) && CanUndo(s)
    ensures CanRedo(Undo(s)) && Redo(Undo(s)) == s
  {
  }

  /** Undo undoes a redo. */
  lemma UndoAfterRedo(s: State)
    requires Valid(s) && CanRedo(s)
    ensures CanUndo(Redo(s)) && Undo(Redo(s)) == s
  {
  }

  /** After an edit the previous snapshot is one undo away. */
  lemma UndoAfterCommit(s: State, f: Form)
    requires Valid(s) && s.currentForm.Some?
    ensures CanUndo(Commit(s, f))
    ensures Undo(Commit(s, f)).currentForm == s.currentForm
    ensures Undo(Commit(s, f)).historyIndex == s.historyIndex
  {
  }

  /** Linear history: commit A, commit B, undo, commit C leaves the history
      `[..., A, C]` with B discarded and nothing to redo. */
  lemma HistoryIsLinear(s: State, a: Form, b: Form, c: Form)
    requires Valid(s) && s.currentForm.Some?
    ensures var r := Commit(Undo(Commit(Commit(s, a), b)), c);
      && r.history == s.history[..s.historyIndex + 1] + [a, c]
      && !CanRedo(r) && r.currentForm == Some(c)
  {
    var s1 := Commit(s, a);
    var s2 := Commit(s1, b);
    var s3 := Undo(s2);
    assert s3.history[..s3.historyIndex + 1] == s.history[..s.historyIndex + 1] + [a];
  }

  /** `updateField` with an unknown id still records a (content-identical) snapshot. */
  lemma UpdateFieldUnknownRecords(s: State, id: string, patch: FieldPatch)
    requires Valid(s) && s.currentForm.Some? && id !in Ids(s.currentForm.value.fields)
    ensures |UpdateField(s, id, patch).history| == s.historyIndex + 2
    ensures UpdateField(s, id, patch).currentForm == s.currentForm
    ensures CanUndo(UpdateField(s, id, patch))
  {
  }

  // ---------------------------------------------------------------------
  // Persistence contract: forms stored as a list with upsert by id.

  /** `forms.find(f => f.id === id) || null`. */
  function LoadFormById(forms: seq<Form>, id: string): (r: Option<Form>)
    ensures r.Some? ==> r.value in forms && r.value.id == id
    ensures r.None? <==> forall f :: f in forms ==> f.id != id
  {
    if forms == [] then None
    else if forms[0].id == id then Some(forms[0])
    else
      assert forall f :: f in forms ==> f == forms[0] || f in forms[1..];
      LoadFormById(forms[1..], id)
  }

  /** Replace the first stored form with the same id, or append. */
  function Upsert(forms: seq<Form>, f: Form): (r: seq<Form>)
    ensures f in r
    ensures |r| == |forms| || |r| == |forms| + 1
    ensures (forall g :: g in forms ==> g.id != f.id) <==> |r| == |forms| + 1
    ensures (forall g :: g in forms ==> g.id != f.id) ==> r == forms + [f]
    ensures forall g :: g in forms && g.id != f.id ==> g in r
    ensures forall g :: g in r ==> g == f || g in forms
  {
    if forms == [] then [f]
    else if forms[0].id == f.id then [f] + forms[1..]
    else
      assert forall g :: g in forms ==> g == forms[0] || g in forms[1..];
      [forms[0]] + Upsert(forms[1..], f)
  }

  /** `saveForm`: upsert the current form and return its id; `""` and no write
      when no form is open. */
  function SaveForm(s: State, forms: seq<Form>): (r: (seq<Form>, string))
    ensures s.currentForm.None? ==> r == (forms, "")
    ensures s.currentForm.Some? ==> r.1 == s.currentForm.value.id && s.currentForm.value in r.0
    ensures s.currentForm.Some? ==> forall g :: g in forms && g.id != s.currentForm.value.id ==> g in r.0
  {
    if s.currentForm.None? then (forms, "") else (Upsert(forms, s.currentForm.value), s.currentForm.value.id)
  }

  /** With the id already stored, upsert overwrites the first form carrying
      it, in place, and keeps every other position. */
  lemma {:induction false} UpsertReplacesFirst(forms: seq<Form>, f: Form, k: int)
    requires 0 <= k < |forms| && forms[k].id == f.id
    requires forall j :: 0 <= j < k ==> forms[j].id != f.id
    ensures |Upsert(forms, f)| == |forms| && Upsert(forms, f)[k] == f
    ensures forall j :: 0 <= j < |forms| && j != k ==> Upsert(forms, f)[j] == forms[j]
  {
    var u := Upsert(forms, f);
    if k == 0 {
      assert u == [f] + forms[1..];
    } else {
      var tail := forms[1..];
      UpsertReplacesFirst(tail, f, k - 1);
      UpsertSkips(forms, f);
      var ut := Upsert(tail, f);
      assert |u| == |forms|;
      forall j | 0 <= j < |forms| && j != k ensures u[j] == forms[j] {
        if j > 0 {
          assert u[j] == ut[j - 1];
          assert ut[j - 1] == tail[j - 1];
        }
      }
    }
  }

  /** Upsert passes over a leading form with another id. */
  lemma UpsertSkips(forms: seq<Form>, f: Form)
    requires forms != [] && forms[0].id != f.id
    ensures |Upsert(forms, f)| == |Upsert(forms[1..], f)| + 1
    ensures Upsert(forms, f)[0] == forms[0]
    ensures forall j :: 1 <= j < |Upsert(forms, f)| ==> Upsert(forms, f)[j] == Upsert(forms[1..], f)[j - 1]
  {
  }

  /** Loading by id right after saving returns what was saved. */
  lemma {:induction false} LoadAfterUpsert(forms: seq<Form>, f: Form)
    ensures LoadFormById(Upsert(forms, f), f.id) == Some(f)
  {
    if forms != [] && forms[0].id != f.id {
      LoadAfterUpsert(forms[1..], f);
    }
  }

  /** Saving twice stores the same list as saving once. */
  lemma {:induction false} UpsertIdempotent(forms: seq<Form>, f: Form)
    ensures Upsert(Upsert(forms, f), f) == Upsert(forms, f)
  {
    if forms != [] && forms[0].id != f.id {
      UpsertIdempotent(forms[1..], f);
    }
  }

  /** `saveResponse`: append a response with a new id. */
  function SaveResponse(responses: seq<FormResponse>, formId: string, data: map<string, Value>, newId: string): (r: seq<FormResponse>)
    ensures |r| == |responses| + 1 && r[..|responses|] == responses
    ensures r[|responses|] == FormResponse(newId, formId, data)
  {
    responses + [FormResponse(newId, formId, data)]
  }

  /** `getResponses(formId)`: the responses of one form, in stored order. */
  function GetResponses(responses: seq<FormResponse>, formId: string): (r: seq<FormResponse>)
    ensures forall x :: x in r <==> x in responses && x.formId == formId
    ensures |r| <= |responses|
  {
    if responses == [] then []
    else
      var last := responses[|responses| - 1];
      var init := responses[..|responses| - 1];
      assert responses == init + [last];
      var rest := GetResponses(init, formId);
      if last.formId == formId then rest + [last] else rest
  }

  /** A saved response shows up last among its form's responses, and no
      other form's list changes. */
  lemma SavedResponseListed(responses: seq<FormResponse>, formId: string, data: map<string, Value>, newId: string, other: string)
    requires other != formId
    ensures GetResponses(SaveResponse(responses, formId, data, newId), formId)
         == GetResponses(responses, formId) + [FormResponse(newId, formId, data)]
    ensures GetResponses(SaveResponse(responses, formId, data, newId), other) == GetResponses(responses, other)
  {
    var r := SaveResponse(responses, formId, data, newId);
    assert r[..|r| - 1] == responses;
  }

  /** `saveTemplate(name, description)`: append the current form's shape as a
      new template; nothing when no form is open. */
  function SaveTemplate(s: State, templates: seq<FormTemplate>, name: string, description: string, newId: string): (r: seq<FormTemplate>)
    ensures s.currentForm.None? ==> r == templates
    ensures s.currentForm.Some? ==> |r| == |templates| + 1 && r[..|templates|] == templates
    ensures s.currentForm.Some? ==> r[|templates|].id == newId && r[|templates|].name == name
    ensures s.currentForm.Some? ==> r[|templates|].description == description
  {
    match s.currentForm
    case None => templates
    case Some(f) =>
      templates + [FormTemplate(newId, name, description, FormShape(f.title, f.description, f.fields, f.steps, f.isMultiStep))]
  }

  /** Saving the open form as a template and loading that template gives
      back the same form under a new id, with a fresh history. */
  lemma TemplateRoundTrip(s: State, templates: seq<FormTemplate>, name: string, description: string, tid: string, newId: string)
    requires s.currentForm.Some?
    ensures var t := SaveTemplate(s, templates, name, description, tid)[|templates|];
      LoadTemplate(s, t, newId).currentForm == Some(s.currentForm.value.(id := newId))
  {
  }
}

=== FILE: text.dfy ===
/** String helpers with the JavaScript semantics the form builder relies on:
    white space as `String.prototype.trim` and the regex class `\s` see it,
    lower-casing, substring search (`includes`), decimal rendering of numbers
    inside template literals, and the option-value slug. */
module Text {

  /** The characters ECMAScript counts as WhiteSpace or LineTerminator. */
  predicate IsJsWhitespace(c: char) {
    || c == '\t' || c == '\n' || c == '\U{000B}' || c == '\U{000C}' || c == '\r'
    || c == ' ' || c == '\U{00A0}' || c == '\U{1680}'
    || ('\U{2000}' <= c <= '\U{200A}')
    || c == '\U{2028}' || c == '\U{2029}' || c == '\U{202F}' || c == '\U{205F}'
    || c == '\U{3000}' || c == '\U{FEFF}'
  }

  /** Every character is white space. */
  predicate IsBlank(s: string) {
    forall i :: 0 <= i < |s| ==> IsJsWhitespace(s[i])
  }

  /** `s.trimStart()`. */
  function TrimStart(s: string): (r: string)
    ensures |r| <= |s| && r == s[|s| - |r|..]
    ensures r == [] || !IsJsWhitespace(r[0])
    ensures IsBlank(s[..|s| - |r|])
  {
    if s == [] then []
    else if IsJsWhitespace(s[0]) then
      var r := TrimStart(s[1..]);
      assert s[..|s| - |r|] == [s[0]] + s[1..][..|s[1..]| - |r|];
      r
    else s
  }

  /** `s.trimEnd()`. */
  function TrimEnd(s: string): (r: string)
    ensures |r| <= |s| && r == s[..|r|]
    ensures r == [] || !IsJsWhitespace(r[|r| - 1])
    ensures IsBlank(s[|r|..])
  {
    if s == [] then []
    else if IsJsWhitespace(s[|s| - 1]) then
      var r := TrimEnd(s[..|s| - 1]);
      assert s[|r|..] == s[..|s| - 1][|r|..] + [s[|s| - 1]];
      r
    else s
  }

  /** `s.trim()`. */
  function Trim(s: string): string {
    TrimEnd(TrimStart(s))
  }

  lemma BlankConcat(a: string, b: string)
    ensures IsBlank(a + b) <==> IsBlank(a) && IsBlank(b)
  {
    if IsBlank(a + b) {
      assert forall i :: 0 <= i < |a| ==> a[i] == (a + b)[i];
      assert forall i :: 0 <= i < |b| ==> b[i] == (a + b)[|a| + i];
    }
  }

  lemma TrimEndEmptyIffBlank(s: string)
    ensures TrimEnd(s) == [] <==> IsBlank(s)
  {
    var r := TrimEnd(s);
    if r == [] {
      assert s[0..] == s;
    } else {
      assert r[|r| - 1] == s[|r| - 1];
    }
  }

  /** `s.trim() === ""` holds exactly for the all-white-space strings. */
  lemma TrimEmptyIffBlank(s: string)
    ensures Trim(s) == [] <==> IsBlank(s)
  {
    var t := TrimStart(s);
    TrimEndEmptyIffBlank(t);
    assert s == s[..|s| - |t|] + t;
    BlankConcat(s[..|s| - |t|], t);
  }

  /** The UTF-16 code units one character takes: two for a character
      beyond the Basic Multilingual Plane (a surrogate pair), one otherwise. */
  function Utf16Units(c: char): nat {
    if c as int > 0xFFFF then 2 else 1
  }

  /** JavaScript's `s.length`, which counts UTF-16 code units, not characters. */
  function Utf16Length(s: string): (n: nat)
    ensures |s| <= n <= 2 * |s|
    ensures n == 0 <==> s == []
    ensures (forall i :: 0 <= i < |s| ==> s[i] as int <= 0xFFFF) ==> n == |s|
  {
    if s == [] then 0
    else
      assert forall i :: 1 <= i < |s| ==> s[1..][i - 1] == s[i];
      Utf16Units(s[0]) + Utf16Length(s[1..])
  }

  /** Code units add up over concatenation. */
  lemma {:induction false} Utf16LengthConcat(a: string, b: string)
    ensures Utf16Length(a + b) == Utf16Length(a) + Utf16Length(b)
    decreases |a|
  {
    if a == [] {
      assert a + b == b;
    } else {
      assert (a + b)[1..] == a[1..] + b;
      Utf16LengthConcat(a[1..], b);
    }
  }

  /** An emoji outside the Basic Multilingual Plane is one character but two code units. */
  lemma AstralCharCountsTwice()
    ensures |"\U{1F600}"| == 1 && Utf16Length("\U{1F600}") == 2
  {
    assert "\U{1F600}"[1..] == [];
  }

  /** ASCII lower-casing of one character; other characters are kept. */
  function LowerChar(c: char): char {
    if 'A' <= c <= 'Z' then (c as int + 32) as char else c
  }

  /** `s.toLowerCase()` restricted to ASCII letters. */
  function Lower(s: string): (r: string)
    ensures |r| == |s|
    ensures forall i :: 0 <= i < |s| ==> r[i] == LowerChar(s[i])
  {
    seq(|s|, i requires 0 <= i < |s| => LowerChar(s[i]))
  }

  lemma LowerIdempotent(s: string)
    ensures Lower(Lower(s)) == Lower(s)
  {
  }

  /** `prefix` starts `s`. */
  predicate IsPrefix(prefix: string, s: string) {
    |prefix| <= |s| && s[..|prefix|] == prefix
  }

  /** `s.includes(sub)`. */
  predicate Contains(s: string, sub: string)
    decreases |s|
  {
    IsPrefix(sub, s) || (s != [] && Contains(s[1..], sub))
  }

  /** `sub` occurs in `s` at offset `k`. */
  predicate OccursAt(s: string, sub: string, k: int) {
    0 <= k && k + |sub| <= |s| && s[k..k + |sub|] == sub
  }

  /** `includes` holds iff `sub` occurs at some offset of `s`. */
  lemma {:induction false} ContainsIffOccurs(s: string, sub: string)
    ensures Contains(s, sub) <==> exists k :: OccursAt(s, sub, k)
    decreases |s|
  {
    if s != [] {
      ContainsIffOccurs(s[1..], sub);
    }
    if Contains(s, sub) {
      if IsPrefix(sub, s) {
        assert OccursAt(s, sub, 0);
      } else {
        var k :| OccursAt(s[1..], sub, k);
        assert s[1..][k..k + |sub|] == s[k + 1..k + 1 + |sub|];
        assert OccursAt(s, sub, k + 1);
      }
    }
    if exists k :: OccursAt(s, sub, k) {
      var k :| OccursAt(s, sub, k);
      if k == 0 {
        assert s[..|sub|] == s[k..k + |sub|];
        assert IsPrefix(sub, s);
      } else {
        assert s[1..][k - 1..k - 1 + |sub|] == s[k..k + |sub|];
        assert OccursAt(s[1..], sub, k - 1);
      }
    }
  }

  /** Every string includes the empty string, so an empty search hides nothing. */
  lemma ContainsEmpty(s: string)
    ensures Contains(s, [])
  {
  }

  /** The decimal digit for `d`. */
  function DigitChar(d: nat): char
    requires d < 10
  {
    ['0', '1', '2', '3', '4', '5', '6', '7', '8', '9'][d]
  }

  function DigitValue(c: char): nat {
    if '0' <= c <= '9' then c as nat - '0' as nat else 0
  }

  predicate IsDigit(c: char) {
    '0' <= c <= '9'
  }

  /** The decimal rendering of `n` in a template literal, as `${n}` writes it. */
  function NatToString(n: nat): (r: string)
    ensures |r| >= 1
    ensures forall i :: 0 <= i < |r| ==> IsDigit(r[i])
    ensures r[0] == '0' ==> n == 0
  {
    if n < 10 then [DigitChar(n)]
    else NatToString(n / 10) + [DigitChar(n % 10)]
  }

  /** `${i}` for an integer that may be negative. */
  function IntToString(i: int): (r: string)
    ensures |r| >= 1
  {
    if i < 0 then "-" + NatToString(-i) else NatToString(i)
  }

  /** The value of a string of decimal digits. */
  function ParseDigits(s: string): nat {
    if s == [] then 0 else 10 * ParseDigits(s[..|s| - 1]) + DigitValue(s[|s| - 1])
  }

  /** Reading back the rendering of a number gives the number. */
  lemma {:induction false} ParseNatToString(n: nat)
    ensures ParseDigits(NatToString(n)) == n
  {
    if n >= 10 {
      var s := NatToString(n);
      assert s[..|s| - 1] == NatToString(n / 10);
      ParseNatToString(n / 10);
    }
  }

  /** Distinct numbers render as distinct strings. */
  lemma NatToStringInjective(m: nat, n: nat)
    ensures NatToString(m) == NatToString(n) ==> m == n
  {
    ParseNatToString(m);
    ParseNatToString(n);
  }

  /** `s.replace(/\s+/g, "_")`: every maximal run of white space becomes one underscore. */
  function CollapseWhitespace(s: string): (r: string)
    ensures |r| <= |s|
    ensures forall i :: 0 <= i < |r| ==> !IsJsWhitespace(r[i])
    decreases |s|
  {
    if s == [] then []
    else if IsJsWhitespace(s[0]) then "_" + CollapseWhitespace(TrimStart(s))
    else [s[0]] + CollapseWhitespace(s[1..])
  }

  /** Strings free of white space are left as they are. */
  lemma {:induction false} CollapseNoWhitespace(s: string)
    requires forall i :: 0 <= i < |s| ==> !IsJsWhitespace(s[i])
    ensures CollapseWhitespace(s) == s
    decreases |s|
  {
    if s != [] {
      CollapseNoWhitespace(s[1..]);
    }
  }

  /** A character that is not white space is copied through. */
  lemma CollapseKeepsChar(c: char, s: string)
    requires !IsJsWhitespace(c)
    ensures CollapseWhitespace([c] + s) == [c] + CollapseWhitespace(s)
  {
    assert ([c] + s)[1..] == s;
  }

  /** A maximal run of white space becomes a single underscore. */
  lemma CollapseRun(w: string, s: string)
    requires w != [] && IsBlank(w)
    requires s == [] || !IsJsWhitespace(s[0])
    ensures CollapseWhitespace(w + s) == "_" + CollapseWhitespace(s)
  {
    TrimStartBlankPrefix(w, s);
  }

  /** `trimStart` removes exactly a leading white-space run. */
  lemma {:induction false} TrimStartBlankPrefix(w: string, s: string)
    requires IsBlank(w)
    requires s == [] || !IsJsWhitespace(s[0])
    ensures TrimStart(w + s) == s
    decreases |w|
  {
    if w == [] {
      assert w + s == s;
    } else {
      assert (w + s)[1..] == w[1..] + s;
      TrimStartBlankPrefix(w[1..], s);
    }
  }

  /** The option value derived from the label typed for an option:
      `label.toLowerCase().replace(/\s+/g, "_")`. A label without white
      space is only lower-cased. */
  function Slug(typed: string): (r: string)
    ensures |r| <= |typed|
    ensures (forall i :: 0 <= i < |typed| ==> !IsJsWhitespace(typed[i])) ==> r == Lower(typed)
  {
    var l := Lower(typed);
    assert (forall i :: 0 <= i < |typed| ==> !IsJsWhitespace(typed[i])) ==> CollapseWhitespace(l) == l by {
      if forall i :: 0 <= i < |typed| ==> !IsJsWhitespace(typed[i]) {
        forall i | 0 <= i < |l| ensures !IsJsWhitespace(l[i]) {
          LowerKeepsWhitespace(typed[i]);
        }
        CollapseNoWhitespace(l);
      }
    }
    CollapseWhitespace(l)
  }

  lemma LowerKeepsWhitespace(c: char)
    ensures IsJsWhitespace(LowerChar(c)) <==> IsJsWhitespace(c)
  {
  }

  /** A slug holds no white space and no upper-case ASCII letter. */
  lemma {:induction false} SlugShape(typed: string)
    ensures forall i :: 0 <= i < |Slug(typed)| ==> !IsJsWhitespace(Slug(typed)[i]) && !('A' <= Slug(typed)[i] <= 'Z')
  {
    LowerOnlyCollapse(Lower(typed));
  }

  lemma {:induction false} LowerOnlyCollapse(s: string)
    requires forall i :: 0 <= i < |s| ==> !('A' <= s[i] <= 'Z')
    ensures forall i :: 0 <= i < |CollapseWhitespace(s)| ==> !('A' <= CollapseWhitespace(s)[i] <= 'Z')
    decreases |s|
  {
    if s == [] {
    } else if IsJsWhitespace(s[0]) {
      var t := TrimStart(s);
      assert forall i :: 0 <= i < |t| ==> t[i] == s[|s| - |t| + i];
      LowerOnlyCollapse(t);
    } else {
      LowerOnlyCollapse(s[1..]);
    }
  }

  /** Slugging a slug changes nothing: a label that is already a slug
      keeps its value. */
  lemma SlugIdempotent(typed: string)
    ensures Slug(Slug(typed)) == Slug(typed)
  {
    var v := Slug(typed);
    SlugShape(typed);
    assert Lower(v) == v;
    CollapseNoWhitespace(v);
  }
}

=== FILE: types.dfy ===
/** The document model of the form builder: field types, fields, steps,
    forms, templates, responses and the partial updates applied to them.
    Timestamps are not modelled (see README). */
module Types {
  import opened Wrappers

  /** The closed set of field kinds. */
  datatype FieldType = Text | Textarea | Dropdown | Checkbox | Date | Email | Phone | Number | Radio

  /** Every field kind, in declaration order. */
  const AllFieldTypes: seq<FieldType> := [Text, Textarea, Dropdown, Checkbox, Date, Email, Phone, Number, Radio]

  /** The enumeration has exactly nine distinct members and the list above names each once. */
  lemma AllFieldTypesExact()
    ensures |AllFieldTypes| == 9
    ensures forall t: FieldType :: t in AllFieldTypes
    ensures forall i, j :: 0 <= i < j < |AllFieldTypes| ==> AllFieldTypes[i] != AllFieldTypes[j]
  {
    forall t: FieldType ensures t in AllFieldTypes {
      match t
      case Text => assert AllFieldTypes[0] == t;
      case Textarea => assert AllFieldTypes[1] == t;
      case Dropdown => assert AllFieldTypes[2] == t;
      case Checkbox => assert AllFieldTypes[3] == t;
      case Date => assert AllFieldTypes[4] == t;
      case Email => assert AllFieldTypes[5] == t;
      case Phone => assert AllFieldTypes[6] == t;
      case Number => assert AllFieldTypes[7] == t;
      case Radio => assert AllFieldTypes[8] == t;
    }
  }

  /** Optional constraints of a field; every member may be absent. */
  datatype ValidationRule = ValidationRule(
    required: Option<bool>,
    minLength: Option<int>,
    maxLength: Option<int>,
    pattern: Option<string>,
    message: Option<string>)

  const NoRules := ValidationRule(None, None, None, None, None)

  datatype FieldOption = FieldOption(labelText: string, value: string)

  /** A field definition. `options` and `stepId` may be absent whatever the kind. */
  datatype FormField = FormField(
    id: string,
    kind: FieldType,
    labelText: string,
    placeholder: Option<string>,
    helpText: Option<string>,
    required: Option<bool>,
    validation: Option<ValidationRule>,
    options: Option<seq<FieldOption>>,
    stepId: Option<string>)

  /** A field definition before it is given an id (what `addField` receives). */
  datatype FieldSpec = FieldSpec(
    kind: FieldType,
    labelText: string,
    placeholder: Option<string>,
    helpText: Option<string>,
    required: Option<bool>,
    validation: Option<ValidationRule>,
    options: Option<seq<FieldOption>>,
    stepId: Option<string>)

  /** `{...spec, id}`. */
  function WithId(spec: FieldSpec, id: string): (f: FormField)
    ensures f.id == id && f.kind == spec.kind && f.labelText == spec.labelText
  {
    FormField(id, spec.kind, spec.labelText, spec.placeholder, spec.helpText, spec.required,
              spec.validation, spec.options, spec.stepId)
  }

  /** A wizard page. It refers to fields by id; the fields belong to `Form.fields`. */
  datatype FormStep = FormStep(id: string, title: string, description: Option<string>, fields: seq<string>)

  datatype Form = Form(
    id: string,
    title: string,
    description: Option<string>,
    fields: seq<FormField>,
    steps: seq<FormStep>,
    isMultiStep: bool)

  /** The shape of a form without its identity: what a template stores. */
  datatype FormShape = FormShape(
    title: string,
    description: Option<string>,
    fields: seq<FormField>,
    steps: seq<FormStep>,
    isMultiStep: bool)

  datatype FormTemplate = FormTemplate(id: string, name: string, description: string, form: FormShape)

  datatype PreviewMode = Desktop | Tablet | Mobile

  datatype Theme = Light | Dark

  /** A submitted or entered value, as the JavaScript code may hold it. */
  datatype Value = Undefined | Null | Str(s: string) | StrList(items: seq<string>) | Num(n: int) | Bool(b: bool)

  datatype FormResponse = FormResponse(id: string, formId: string, data: map<string, Value>)

  /** `data[id]`: a missing key reads as `undefined`. */
  function Lookup(data: map<string, Value>, id: string): (r: Value)
    ensures id !in data ==> r == Undefined
  {
    if id in data then data[id] else Undefined
  }

  /** The ids of `fields`, in order. */
  function Ids(fields: seq<FormField>): (r: seq<string>)
    ensures |r| == |fields|
    ensures forall i :: 0 <= i < |fields| ==> r[i] == fields[i].id
  {
    seq(|fields|, i requires 0 <= i < |fields| => fields[i].id)
  }

  /** No two fields share an id. */
  predicate UniqueIds(fields: seq<FormField>) {
    forall i, j :: 0 <= i < j < |fields| ==> fields[i].id != fields[j].id
  }

  /** A `Partial<FormField>`: `Some(v)` is a key present in the update object.
      For optional members the value itself may be `None` (an explicit `undefined`). */
  datatype FieldPatch = FieldPatch(
    id: Option<string>,
    kind: Option<FieldType>,
    labelText: Option<string>,
    placeholder: Option<Option<string>>,
    helpText: Option<Option<string>>,
    required: Option<Option<bool>>,
    validation: Option<Option<ValidationRule>>,
    options: Option<Option<seq<FieldOption>>>,
    stepId: Option<Option<string>>)

  const EmptyFieldPatch := FieldPatch(None, None, None, None, None, None, None, None, None)

  /** `{...field, ...patch}`. */
  function ApplyFieldPatch(f: FormField, p: FieldPatch): (r: FormField)
    ensures p.id.None? ==> r.id == f.id
    ensures p == EmptyFieldPatch ==> r == f
  {
    FormField(
      p.id.GetOr(f.id), p.kind.GetOr(f.kind), p.labelText.GetOr(f.labelText),
      p.placeholder.GetOr(f.placeholder), p.helpText.GetOr(f.helpText),
      p.required.GetOr(f.required), p.validation.GetOr(f.validation),
      p.options.GetOr(f.options), p.stepId.GetOr(f.stepId))
  }

  /** Spreading the same patch twice changes nothing more. */
  lemma FieldPatchIdempotent(f: FormField, p: FieldPatch)
    ensures ApplyFieldPatch(ApplyFieldPatch(f, p), p) == ApplyFieldPatch(f, p)
  {
  }

  /** A `Partial<FormStep>`. */
  datatype StepPatch = StepPatch(
    id: Option<string>,
    title: Option<string>,
    description: Option<Option<string>>,
    fields: Option<seq<string>>)

  function ApplyStepPatch(st: FormStep, p: StepPatch): (r: FormStep)
    ensures p.id.None? ==> r.id == st.id
  {
    FormStep(p.id.GetOr(st.id), p.title.GetOr(st.title), p.description.GetOr(st.description),
             p.fields.GetOr(st.fields))
  }

  /** A `Partial<Form>` (timestamps left out). */
  datatype FormPatch = FormPatch(
    id: Option<string>,
    title: Option<string>,
    description: Option<Option<string>>,
    fields: Option<seq<FormField>>,
    steps: Option<seq<FormStep>>,
    isMultiStep: Option<bool>)

  function ApplyFormPatch(f: Form, p: FormPatch): (r: Form)
    ensures p.fields.None? ==> r.fields == f.fields
    ensures p.steps.None? ==> r.steps == f.steps
  {
    Form(p.id.GetOr(f.id), p.title.GetOr(f.title), p.description.GetOr(f.description),
         p.fields.GetOr(f.fields), p.steps.GetOr(f.steps), p.isMultiStep.GetOr(f.isMultiStep))
  }
}

=== FILE: validation.dfy ===
/** Per-field validation as the preview runs it: a required check, then
    (only when the field has rules and the value is truthy) minimum length,
    maximum length and pattern, first failure wins. Regular-expression
    matching is a parameter `matches(pattern, value)`. */
module Validation {
  import opened Wrappers
  import opened Types
  import Text

  /** JavaScript truthiness of an entered value. */
  predicate Truthy(v: Value) {
    match v
    case Undefined => false
    case Null => false
    case Str(s) => s != []
    case StrList(_) => true
    case Num(n) => n != 0
    case Bool(b) => b
  }

  /** `value.length`: strings count UTF-16 code units, arrays count items,
      everything else is `undefined`. */
  function Length(v: Value): (r: Option<int>)
    ensures r.Some? <==> v.Str? || v.StrList?
    ensures v.Str? ==> |v.s| <= r.value <= 2 * |v.s|
    ensures v.StrList? ==> r.value == |v.items|
  {
    match v
    case Str(s) => Some(Text.Utf16Length(s))
    case StrList(xs) => Some(|xs|)
    case _ => None
  }

  /** The individual checks, in the order the preview applies them. */
  datatype Failure = Required | TooShort(min: int) | TooLong(max: int) | BadFormat

  predicate FailsRequired(f: FormField, v: Value) {
    f.required == Some(true) && (!Truthy(v) || (v.Str? && Text.Trim(v.s) == []))
  }

  /** Length and pattern rules only run for a field with rules and a truthy value. */
  predicate RulesApply(f: FormField, v: Value) {
    f.validation.Some? && Truthy(v)
  }

  predicate FailsMinLength(f: FormField, v: Value) {
    && RulesApply(f, v)
    && f.validation.value.minLength.Some? && f.validation.value.minLength.value != 0
    && Length(v).Some? && Length(v).value < f.validation.value.minLength.value
  }

  predicate FailsMaxLength(f: FormField, v: Value) {
    && RulesApply(f, v)
    && f.validation.value.maxLength.Some? && f.validation.value.maxLength.value != 0
    && Length(v).Some? && Length(v).value > f.validation.value.maxLength.value
  }

  predicate FailsPattern(f: FormField, v: Value, matches: (string, Value) -> bool) {
    && RulesApply(f, v)
    && f.validation.value.pattern.Some? && f.validation.value.pattern.value != []
    && !matches(f.validation.value.pattern.value, v)
  }

  /** Reference definition: every check that fails, in priority order
      (all checks are evaluated, nothing short-circuits). */
  function Failures(f: FormField, v: Value, matches: (string, Value) -> bool): seq<Failure> {
    (if FailsRequired(f, v) then [Required] else [])
    + (if FailsMinLength(f, v) then [TooShort(f.validation.value.minLength.value)] else [])
    + (if FailsMaxLength(f, v) then [TooLong(f.validation.value.maxLength.value)] else [])
    + (if FailsPattern(f, v, matches) then [BadFormat] else [])
  }

  /** The text shown for one failure. */
  function Message(f: FormField, e: Failure): (r: string)
    ensures r != []
  {
    match e
    case Required => f.labelText + " is required"
    case TooShort(m) => f.labelText + " must be at least " + Text.IntToString(m) + " characters"
    case TooLong(m) => f.labelText + " must be no more than " + Text.IntToString(m) + " characters"
    case BadFormat =>
      if f.kind == Email then "Please enter a valid email address"
      else if f.kind == Phone then "Please enter a valid phone number"
      else f.labelText + " format is invalid"
  }

  /** `validateField`: the message for the first failing check, `None` for `null`.
      Every message is non-empty, so callers that test the result for
      truthiness never miss a failure. */
  function ValidateField(f: FormField, v: Value, matches: (string, Value) -> bool): (r: Option<string>)
    ensures r.None? <==> Failures(f, v, matches) == []
    ensures r.Some? ==> r.value == Message(f, Failures(f, v, matches)[0]) && r.value != []
  {
    if f.required == Some(true) && (!Truthy(v) || (v.Str? && Text.Trim(v.s) == [])) then
      Some(Message(f, Required))
    else if f.validation.Some? && Truthy(v) then
      var rule := f.validation.value;
      if rule.minLength.Some? && rule.minLength.value != 0
         && Length(v).Some? && Length(v).value < rule.minLength.value then
        Some(Message(f, TooShort(rule.minLength.value)))
      else if rule.maxLength.Some? && rule.maxLength.value != 0
         && Length(v).Some? && Length(v).value > rule.maxLength.value then
        Some(Message(f, TooLong(rule.maxLength.value)))
      else if rule.pattern.Some? && rule.pattern.value != [] && !matches(rule.pattern.value, v) then
        Some(Message(f, BadFormat))
      else None
    else None
  }

  /** A required field rejects exactly the falsy values and the blank strings. */
  lemma RequiredRejectsBlank(f: FormField, v: Value, matches: (string, Value) -> bool)
    requires f.required == Some(true)
    ensures FailsRequired(f, v) <==> !Truthy(v) || (v.Str? && Text.IsBlank(v.s))
    ensures FailsRequired(f, v) ==> ValidateField(f, v, matches) == Some(Message(f, Required))
  {
    if v.Str? {
      Text.TrimEmptyIffBlank(v.s);
    }
  }

  /** An empty checkbox list is truthy, so it passes the required check. */
  lemma EmptyListPassesRequired(f: FormField)
    ensures !FailsRequired(f, StrList([]))
  {
  }

  /** A falsy value in a field that is not required is always accepted. */
  lemma OptionalFalsyAccepted(f: FormField, v: Value, matches: (string, Value) -> bool)
    requires f.required != Some(true) && !Truthy(v)
    ensures ValidateField(f, v, matches).None?
  {
  }

  /** An accepted non-empty string respects the field's non-zero length bounds. */
  lemma AcceptedRespectsBounds(f: FormField, s: string, matches: (string, Value) -> bool)
    requires s != [] && f.validation.Some?
    requires ValidateField(f, Str(s), matches).None?
    ensures var rule := f.validation.value;
      && (rule.minLength.Some? && rule.minLength.value != 0 ==> Text.Utf16Length(s) >= rule.minLength.value)
      && (rule.maxLength.Some? && rule.maxLength.value != 0 ==> Text.Utf16Length(s) <= rule.maxLength.value)
  {
    assert !FailsMinLength(f, Str(s)) && !FailsMaxLength(f, Str(s));
  }

  /** Two emoji are four code units, so a maximum length of 3 rejects them
      although they are two characters. */
  lemma AstralCharsCountedAsUnits(f: FormField, matches: (string, Value) -> bool)
    requires f.required != Some(true) && f.validation == Some(ValidationRule(None, None, Some(3), None, None))
    ensures ValidateField(f, Str("\U{1F600}\U{1F600}"), matches) == Some(Message(f, TooLong(3)))
  {
    var s := "\U{1F600}\U{1F600}";
    assert s == "\U{1F600}" + "\U{1F600}";
    Text.AstralCharCountsTwice();
    Text.Utf16LengthConcat("\U{1F600}", "\U{1F600}");
  }

  /** Numbers and booleans have no length, so the length rules never reject them. */
  lemma NoLengthNoLengthFailure(f: FormField, v: Value)
    requires v.Num? || v.Bool?
    ensures !FailsMinLength(f, v) && !FailsMaxLength(f, v)
  {
  }
}

=== FILE: wrappers.dfy ===
/** The optional value used throughout the model: `None` stands for a
    JavaScript `undefined`/`null`, `Some(v)` for a present value. */
module Wrappers {

  datatype Option<+T> = None | Some(value: T) {

    /** The value, or `default` when absent. */
    function GetOr(default: T): T {
      match this
      case Some(v) => v
      case None => default
    }
  }
}
